=== FILE: README.md ===
# EventManager-Realtime: membership, authorisation and messaging, in Dafny

This project models the server of EventManager-Realtime, an event-organising service. Users register and log in. A user creates an event and becomes its head. Others join the event by its code as volunteers.

- **Committees.** The head creates committees and names a sub-head for each. Volunteers join committees up to the event's join limit.
- **Chat.** Members talk in global, committee and head/sub-head channels, over REST and over a socket connection.
- **Announcements.** The head and sub-heads post announcements. A payment announcement lets each user pay through a checkout order. The checkout is confirmed by a signed verification call and by signed gateway webhooks.

The server is modelled as a pure state machine. `Store.State` holds the MongoDB collections as maps and insertion-ordered logs. It also holds the two unique indexes (user email and event code), the live socket connections with their rooms, and a clock that stands in for `Date.now`. Each handler maps a state, the caller and the request to an `Outcome`, which is a value or an HTTP-style failure status, together with the state after the call.

Error paths are modelled in the order the source checks them. A missing or empty request field is the empty string, or `None` where absence differs from emptiness. The null dereference that happens when a committee's or an announcement's event is gone becomes a `ServerError`.

The module layout follows the repository:

| Module | Role |
|---|---|
| `EventModel`, `CommitteeModel`, `ChatModel`, `AnnouncementModel`, `PaymentModel`, `UserModel` | the six Mongoose schemas |
| `AuthMiddleware` | `authenticate` and the three role guards |
| `EventController`, `CommitteeController`, `ChatController`, `AnnouncementController`, `PaymentController`, `AuthController` | the handlers |
| `SocketHandler` | the socket layer |
| `Api` | the routers |
| `Scenarios` | consequences that only show when several handlers run in sequence |

`Seqs` and `Text` are generic helpers: filtering, reversal, windows, trimming and case mapping.

The whole-store invariant is `Store.Valid`. It has six parts:

- the email index is exact and every user passed validation;
- the code index is exact;
- participant lists have unique users, and the head has an entry (assignSubHead may turn that entry into a sub-head entry);
- committee volunteer lists have no duplicates and committee names are unique per event;
- the chat log is chronological;
- the announcement log has unique ids, is chronological, and carries payment fields exactly on payment announcements.

Every state-changing handler is proved to preserve `Valid`.

## Model

| member | source | states |
|---|---|---|
| EventModel.ParseJoinLimit | server/models/Event.js:43-47 | accepts exactly the names of the three join limits and returns the limit so named |
| EventModel.JoinLimitRoundTrip | server/models/Event.js:43-47 | the name of every join limit parses back to that limit |
| EventModel.ParseEventType | server/models/Event.js:34-38 | accepts `small` and `large`, returning the type so named |
| EventModel.FirstIndex | server/models/Event.js:78-81 | the position `participants.find` stops at: present iff the user has an entry, no earlier entry of that user |
| EventModel.FindParticipant | server/models/Event.js:78-81 | an entry is found iff the user has one, and it is one of the user's entries |
| EventModel.FindParticipantUnique | server/models/Event.js:78-81 | in a list without duplicate users, the entry found is the user's only entry |
| EventModel.GetParticipantRole | server/models/Event.js:78-81 | null iff the user has no entry; otherwise the role of the user's first entry |
| EventModel.AddParticipant | server/models/Event.js:63-69 | afterwards the user has an entry; an existing user leaves the list unchanged, a new one is appended with the given role at the end |
| EventModel.AddPreservesUnique | server/models/Event.js:62-69 | adding keeps every user at most once in the list |
| EventModel.AddIdempotent | server/models/Event.js:63-69 | adding a user twice is the same as adding once, whatever role the second call names |
| EventModel.RemoveParticipant | server/models/Event.js:71-76 | the user has no entry afterwards; every other entry keeps its multiplicity |
| EventModel.RemoveConcat | server/models/Event.js:71-76 | removal distributes over concatenation, so the survivors keep their relative order |
| EventModel.RemoveAbsentIsNoop | server/models/Event.js:71-76 | removing a user with no entry changes nothing |
| EventModel.RemoveIdempotent | server/models/Event.js:71-76 | removing twice is removing once |
| EventModel.RemovePreservesUnique | server/models/Event.js:71-76 | removal keeps users unique |
| EventModel.AddThenRemove | server/models/Event.js:63-76 | adding and then removing a user gives the list with that user removed |
| EventModel.NonHeads | server/controllers/eventController.js:178 | the entries other than head-role ones, each with its original multiplicity |
| EventModel.FoundingList | server/controllers/eventController.js:25-29 | a new event's list is the creator alone, as head, with no committee |
| CommitteeModel.NewCommittee | server/models/Committee.js:10-35 | a new committee has the given event, name and description, no sub-head, no volunteers, and is active |
| CommitteeModel.Pull | server/controllers/eventController.js:143-146 | `$pull` removes every occurrence of the user and keeps every other volunteer's multiplicity |
| CommitteeModel.PullIdempotent | server/controllers/committeeController.js:178-180 | pulling twice is pulling once |
| CommitteeModel.PullAbsentIsNoop | server/controllers/committeeController.js:178-180 | pulling an absent user changes nothing |
| CommitteeModel.Enlist | server/controllers/committeeController.js:139-148 | the guarded push appends the user only when absent, and the user is listed afterwards |
| CommitteeModel.EnlistPreservesNoDup | server/controllers/committeeController.js:139-148 | the guarded push never creates a duplicate volunteer |
| CommitteeModel.InsertKeepsNamesUnique | server/models/Committee.js:40-41 | adding a committee whose name is free in its event keeps (eventId, name) unique |
| ChatModel.ParseChatType | server/models/ChatMessage.js:10-14 | accepts exactly `global`, `committee` and `head_subhead` |
| ChatModel.ChatTypeRoundTrip | server/models/ChatMessage.js:10-14 | every channel's name parses back to that channel |
| ChatModel.NewMessage | server/models/ChatMessage.js:10-33 | a new message carries the given event, channel, sender and text; an empty committee id is stored as null; it is not a system message and is stamped now |
| ChatModel.AppendKeepsChronological | server/models/ChatMessage.js:44-46 | appending a message stamped with the clock and then advancing the clock keeps the log in strictly increasing time order |
| AnnouncementModel.ParseType | server/models/Announcement.js:10-14 | accepts exactly `global`, `committee` and `payment` |
| AnnouncementModel.TypeRoundTrip | server/models/Announcement.js:10-14 | every type's name parses back to that type |
| AnnouncementModel.IndexOf | server/controllers/announcementController.js:106-109 | `findById` finds a position iff an announcement with that id is stored, and the one found has that id |
| PaymentModel.NewPayment | server/models/Payment.js:20-48 | a new record has the given event, announcement, user and amount, currency INR, status pending, and no gateway ids or payment time |
| PaymentModel.FirstOfOrder | server/controllers/paymentController.js:98 | `findOne` by order id: found iff some record has that order, and the one found is the first such record |
| UserModel.FullNameVersusDisplayName | server/models/User.js:52-61 | the two name virtuals agree iff there is no middle name; otherwise the full name is longer by the middle name plus a space |
| UserModel.ToJson | server/models/User.js:77-82 | the JSON view is the object view minus the password and the duplicate `id`, and keeps `_id` and `fullName` |
| Text.Trim | server/models/User.js:6-33 | the `trim` setter: the result is a contiguous part of the input with only white space cut before and after it, and it neither starts nor ends with white space |
| Text.TrimIdempotent | server/models/User.js:6-33 | the trim setter is idempotent, so re-saving a trimmed field leaves it unchanged |
| Text.UpperIdempotent | server/models/Event.js:28-33 | upper-casing an event code twice is upper-casing once |
| AuthMiddleware.BearerRoundTrip | server/middleware/authMiddleware.js:8 | the token after the first space of `<scheme> <token>` is recovered exactly when the scheme and the token contain no spaces |
| AuthMiddleware.NoSpaceNoToken | server/middleware/authMiddleware.js:8-11 | a header without a space yields no token |
| AuthMiddleware.Authenticate | server/middleware/authMiddleware.js:6-22 | succeeds iff a non-empty token is present, verifies, and names a stored user; the authenticated user is exactly the one the header's bearer token verifies to; every failure is 401 |
| AuthMiddleware.RequireHead | server/middleware/authMiddleware.js:25-39 | 404 for an unknown event; otherwise passes iff the caller is the event's head (403 if not) |
| AuthMiddleware.RequireHeadOrSubhead | server/middleware/authMiddleware.js:42-63 | passes iff the caller is the head or the caller's first entry is a sub-head entry |
| AuthMiddleware.RequireParticipant | server/middleware/authMiddleware.js:66-84 | passes iff the caller is the head or has any entry |
| AuthMiddleware.GuardsNested | server/middleware/authMiddleware.js:25-84 | whoever passes the head guard passes the head-or-sub-head guard, and whoever passes that passes the participant guard |
| AuthMiddleware.VolunteerIsParticipantOnly | server/middleware/authMiddleware.js:42-84 | a non-head whose first entry is a volunteer entry passes the participant guard and fails the head-or-sub-head guard |
| EventController.Draft | server/controllers/eventController.js:14-29 | the event built from a request: the trimmed title and the given description, defaults for the omitted type and limit, the creator as head and only participant; present iff schema validation would pass |
| EventController.DraftDefaults | server/models/Event.js:34-47 | an omitted type and limit take `small` and `multiple`; given ones must be enum names |
| EventController.CreateEvent | server/controllers/eventController.js:6-41 | 400 without a title; otherwise succeeds iff validation passes and the upper-cased code is free; on success the event is stored as drafted, the code index maps to it, and no other event changes |
| EventController.CreatedEventIsListedAndJoinable | server/controllers/eventController.js:6-95 | a created event is among its creator's events, and its code joins any other user to it |
| EventController.JoinEvent | server/controllers/eventController.js:44-85 | 400 for a missing code or an inactive event, 404 for an unknown code; on success the caller is a participant; an existing participant changes nothing, and for a new one the only change is the volunteer entry appended to that event (and the clock) |
| EventController.JoinCaseInsensitive | server/controllers/eventController.js:52 | codes that upper-case alike behave identically |
| EventController.JoinIdempotent | server/controllers/eventController.js:61-75 | joining a second time returns the same answer and changes nothing more |
| EventController.EventDetails | server/controllers/eventController.js:104-118 | 404 iff the event is unknown; any caller may read any event |
| EventController.CreatedEventDetails | server/controllers/eventController.js:6-118 | a created event reads back active, headed by its creator, under the upper-cased code, with the creator as sole participant |
| EventController.PurgeVolunteer | server/controllers/eventController.js:143-146 | the user leaves every committee of the event; other events' committees and other volunteers are untouched |
| EventController.RemoveFromEvent | server/controllers/eventController.js:121-154 | 404, 403 for a non-head, 400 for removing the head; on success only the event's participants and committee volunteers change: the target's entries go and every other entry keeps its multiplicity, the target is pulled from the event's committees, and no other volunteer of any committee is lost or gained |
| EventController.RemovedUserLosesEvent | server/controllers/eventController.js:88-154 | after a removal the event is no longer among the target's events |
| Store.MyEvents | server/controllers/eventController.js:88-101 | the events the user heads or has an entry in; by CreatedEventIsListedAndJoinable a created or joined event enters the list, and by RemovedUserLosesEvent a removal takes it out |
| EventController.GetVolunteers | server/controllers/eventController.js:157-184 | allowed iff the caller is the head or has a head or sub-head entry; returns the non-head entries with their multiplicities |
| EventController.ExportRoster | server/controllers/eventController.js:187-215 | head only; the non-head entries, narrowed to the committee's volunteers when a known committee is named |
| EventController.CreateEventPreservesValid | server/controllers/eventController.js:6-41 | creation keeps the store invariant |
| EventController.JoinEventPreservesValid | server/controllers/eventController.js:44-85 | joining keeps the store invariant, including unique participants |
| EventController.RemoveFromEventPreservesValid | server/controllers/eventController.js:121-154 | removal keeps the store invariant |
| CommitteeController.CreateCommittee | server/controllers/committeeController.js:5-33 | 400, 404, 403, then 400 for a name already used in the event, in source order; succeeds iff the caller is head and the trimmed name is free and valid; stores a fresh committee and leaves the others alone |
| CommitteeController.CreatedCommitteeIsListed | server/controllers/committeeController.js:5-47 | a created committee is listed for its event at once |
| CommitteeController.CreateExtendsListing | server/controllers/committeeController.js:5-47 | the active-committee listing of getCommittees gains exactly the created committee for its event, and every other event's listing is unchanged |
| CommitteeController.AssignSubHead | server/controllers/committeeController.js:50-86 | 404, 403 for a non-head, 400 for a user without an entry; on success only that event and that committee change: the user's first entry becomes a sub-head entry tied to this committee, every other entry stays, and the committee records the user as sub-head |
| CommitteeController.Promote | server/controllers/committeeController.js:65-75 | a rewrite exists iff the user has an entry; exactly the user's first entry (the one `find` returns) becomes a sub-head entry tied to this committee, and every other position is unchanged |
| CommitteeController.MaxAllowed | server/controllers/committeeController.js:121-124 | the cap is 1, 2 or 999 for the three join limits |
| CommitteeController.JoinEach | server/controllers/committeeController.js:133-148 | listed committees of the event gain the user if absent; others are untouched; the newly joined ids are exactly those |
| CommitteeController.JoinEachCommittees | server/controllers/committeeController.js:133-148 | after the loop the user is in the committees they were in plus the listed ones of the event |
| CommitteeController.JoinCommittees | server/controllers/committeeController.js:89-160 | 400/404/403 in source order; sub-heads and non-participants are refused; succeeds iff current plus listed-not-current ids fit the cap; the user then belongs to exactly the old committees plus the listed ones |
| CommitteeController.Counted | server/controllers/committeeController.js:116-118 | the ids counted against the limit: each listed id the user is not already in keeps its multiplicity, and each current one is dropped; when none of them is current, all are counted |
| CommitteeController.JoinRespectsLimit | server/controllers/committeeController.js:114-128 | after any successful join, the user is in at most the cap's number of the event's committees |
| CommitteeController.RemoveVolunteer | server/controllers/committeeController.js:163-186 | 404 for an unknown committee, 500 when its event is gone, 403 for a caller who is neither the head nor the committee's recorded sub-head; allowed iff the caller is one of them; the user leaves only that committee's volunteers |
| CommitteeController.DeleteCommittee | server/controllers/committeeController.js:189-207 | 404 for an unknown committee, 500 when its event is gone, 403 for a caller who is not the head; exactly that committee disappears |
| CommitteeController.DeletedCommitteeIsGone | server/controllers/committeeController.js:189-207 | a deleted committee is neither listed nor counted among anyone's committees |
| CommitteeController.DeleteShrinksListing | server/controllers/committeeController.js:36-47 | after a deletion every event's listing is the old listing without the deleted committee |
| CommitteeController.CreateCommitteePreservesValid | server/controllers/committeeController.js:5-33 | creation keeps per-event names unique and the invariant |
| CommitteeController.AssignSubHeadPreservesValid | server/controllers/committeeController.js:50-86 | assigning keeps the invariant |
| CommitteeController.JoinCommitteesPreservesValid | server/controllers/committeeController.js:89-160 | joining keeps volunteer lists free of duplicates |
| CommitteeController.RemoveVolunteerPreservesValid | server/controllers/committeeController.js:163-186 | removing keeps the invariant |
| CommitteeController.DeleteCommitteePreservesValid | server/controllers/committeeController.js:189-207 | deleting keeps the invariant |
| ChatController.SendMessage | server/controllers/chatController.js:6-66 | 400, 404, 403 for a non-member, 404 for an unknown named committee, 403 outside a named committee, 403 on the head/sub-head channel without that rank; succeeds iff the sender is a member, passes the channel's rule and the document is valid, and then the message is appended |
| ChatController.Channel | server/controllers/chatController.js:74-75 | exactly the stored messages of the event and channel, narrowed to the committee when one is named |
| ChatController.ChatHistory | server/controllers/chatController.js:69-90 | the newest `skip` messages of the channel are dropped, the next `limit` kept (0 keeps all), returned oldest first |
| Seqs.Window | server/controllers/chatController.js:80-81 | `skip` then `limit`, where a limit of 0 means no limit |
| Seqs.NewestPage | server/controllers/chatController.js:77-84 | newest first, skip, limit, then reversed back: empty when everything is skipped, otherwise the slice that ends `skip` before the end and is at most `limit` long (everything before that point when the limit is 0 or reaches the start) |
| ChatController.DefaultHistory | server/controllers/chatController.js:72 | by default a page holds at most 50 messages |
| ChatController.HistoryIsChronological | server/controllers/chatController.js:77-84 | every page is in strictly increasing creation time |
| ChatController.SentMessageIsLatest | server/controllers/chatController.js:6-90 | a message just sent is the last entry of its channel's first page |
| ChatController.SendMessagePreservesValid | server/controllers/chatController.js:6-66 | sending keeps the chat log chronological |
| AnnouncementController.Admit | server/controllers/announcementController.js:19-59 | 403 for a payment by a non-head and 400 for a missing or non-positive amount; 403 for a global by neither head nor sub-head; 400 for a committee without an id, 404 for an unknown committee, 403 for neither head nor its sub-head; passes iff none of these applies |
| AnnouncementController.Build | server/controllers/announcementController.js:61-72 | payment fields are kept only on payment announcements; the result is unpinned and active, with `committeeId || null` |
| AnnouncementController.CreateAnnouncement | server/controllers/announcementController.js:6-81 | 400 for missing fields, 404 for an unknown event, then the authorisation; success iff these pass and the schema accepts; the built announcement is appended |
| AnnouncementController.CreatedPaymentFieldsConsistent | server/controllers/announcementController.js:54-72 | a stored payment announcement has a positive amount, and no other type carries one |
| AnnouncementController.Query | server/controllers/announcementController.js:89-93 | exactly the announcements of the event, narrowed by type and committee when given |
| AnnouncementController.Arrange | server/controllers/announcementController.js:95 | the sort is a permutation of the query's result |
| AnnouncementController.ArrangePinnedFirst | server/controllers/announcementController.js:95 | no unpinned announcement precedes a pinned one |
| AnnouncementController.ListAnnouncements | server/controllers/announcementController.js:84-101 | a permutation of the matching announcements with pinned ones first |
| AnnouncementController.ListIsSorted | server/controllers/announcementController.js:95 | within the pinned group and within the unpinned group, newer announcements come first |
| AnnouncementController.CreatedIsListed | server/controllers/announcementController.js:6-101 | a created announcement appears in its event's list for its type |
| AnnouncementController.PinAnnouncement | server/controllers/announcementController.js:104-122 | 404 for an unknown announcement, 500 when its event is gone, 403 for a caller who is not the head; flips `isPinned` on that announcement alone and answers the new value |
| AnnouncementController.PinTwiceRestores | server/controllers/announcementController.js:115 | pinning twice restores the store exactly |
| AnnouncementController.DeleteAnnouncement | server/controllers/announcementController.js:125-141 | 404 for an unknown announcement, 500 when its event is gone, 403 for a caller who is not the head; exactly that one document leaves the log, with the others in order |
| AnnouncementController.DeletedIsGone | server/controllers/announcementController.js:125-141 | with unique ids, no announcement with the deleted id remains |
| AnnouncementController.CreateAnnouncementPreservesValid | server/controllers/announcementController.js:6-81 | creation keeps ids unique, the log chronological and payment fields consistent |
| AnnouncementController.PinPreservesValid | server/controllers/announcementController.js:104-122 | pinning keeps the invariant |
| AnnouncementController.DeletePreservesValid | server/controllers/announcementController.js:125-141 | deleting keeps the invariant |
| PaymentController.PaymentAnnouncementAt | server/controllers/paymentController.js:21-24 | absent iff no announcement has the id or it is not a payment announcement |
| PaymentController.CreateOrder | server/controllers/paymentController.js:13-77 | 400, 404 for a missing payment announcement, 404 for a missing event, then 400 for a user who already paid; succeeds iff none of these applies; on success one initiated record of the caller is appended and the order asks for the amount times 100 in INR |
| PaymentController.MarkPaid | server/controllers/paymentController.js:98-105 | the first record of the order becomes paid with the gateway ids and time, keeping its owner, announcement, amount and order; every other record is unchanged, and the order still finds that record; no record means no change |
| PaymentController.SignedTextInjective | server/controllers/paymentController.js:88-91 | for bar-free order ids, two signed texts are equal exactly when both the order ids and the payment ids are equal, so a signature binds the pair |
| PaymentController.VerifyPayment | server/controllers/paymentController.js:80-111 | succeeds iff the three fields are present and the signature is the HMAC of `order|payment`; then the order's first record is paid with the gateway ids and time, keeps its owner, event, announcement, amount, currency and order, and every other record is unchanged |
| PaymentController.Webhook | server/controllers/paymentController.js:114-156 | accepted iff the signature header is the expected one; authorised and captured mark an unpaid record paid, stamp the gateway id and time, and change no other record; failed marks the record failed whatever its status, without advancing the clock; other events change nothing |
| PaymentController.CaptureIdempotent | server/controllers/paymentController.js:130-141 | a repeated authorised or captured notification changes nothing more |
| PaymentController.FirstOfOrderRespectsOrders | server/controllers/paymentController.js:98 | the order lookup depends only on the records' order ids |
| PaymentController.PaymentStatus | server/controllers/paymentController.js:159-189 | 404 iff the event is unknown; the head sees exactly the announcement's records with their multiplicities; anyone else sees their own earliest record for the announcement or, with none, a default pending status |
| PaymentController.VerifiedOrderBlocksReorder | server/controllers/paymentController.js:13-111 | after a fresh order is verified the user has paid, and a second order for that announcement is refused |
| PaymentController.CreateOrderPreservesValid | server/controllers/paymentController.js:13-77 | creating an order keeps the invariant |
| PaymentController.VerifyPaymentPreservesValid | server/controllers/paymentController.js:80-111 | verification keeps the invariant |
| PaymentController.WebhookPreservesValid | server/controllers/paymentController.js:114-156 | notifications keep the invariant |
| AuthController.NewUser | server/controllers/authController.js:24 | a new user has the trimmed names, the normalised email and the hashed password |
| AuthController.Register | server/controllers/authController.js:11-40 | 400 for missing fields, and 400 when all fields are given but the normalised email is taken; succeeds iff validation passes; the user and the email index entry are added |
| AuthController.Login | server/controllers/authController.js:43-74 | 400 for missing fields; the same 401 for an unknown email and a wrong password; success iff the normalised email is stored and the password matches its hash |
| AuthController.LoginFindsOwner | server/controllers/authController.js:51 | in a consistent store the account found has exactly the normalised email typed |
| AuthController.RegisterThenLogin | server/controllers/authController.js:11-74 | registering and then logging in with the same password yields the new account |
| AuthController.RegisterTwiceRefused | server/controllers/authController.js:19-22 | a second registration under an address that normalises alike is refused with 400 |
| AuthController.GetProfile | server/controllers/authController.js:77-87 | the caller's JSON view, without the password |
| AuthController.Apply | server/controllers/authController.js:95-98 | only the given names and avatar change (trimmed); a present middle name is always set; email and password stay |
| AuthController.UpdateProfile | server/controllers/authController.js:90-110 | succeeds iff the updated user still validates; the store then holds the updated user and the answer has no password |
| AuthController.ApplyIdempotent | server/controllers/authController.js:95-98 | applying an update twice is applying it once |
| AuthController.UpdateProfileIdempotent | server/controllers/authController.js:90-110 | repeating a successful update changes nothing more |
| AuthController.EmptyUpdateIsNoop | server/controllers/authController.js:95-100 | an update naming nothing leaves the store as it was |
| AuthController.RegisterPreservesValid | server/controllers/authController.js:11-40 | registration keeps the email index exact |
| AuthController.UpdateProfilePreservesValid | server/controllers/authController.js:90-110 | profile updates keep the email index exact |
| SocketHandler.ChatRoomInjective | server/sockets/socketHandler.js:32-33 | for colon-free event ids and channel names, distinct channels have distinct room names |
| SocketHandler.EventRoomIsNotChatRoom | server/sockets/socketHandler.js:26-32 | an event room name never equals a chat room name |
| SocketHandler.Handshake | server/sockets/socketHandler.js:6-18 | admitted iff a non-empty token verifies, with the token's user; a refusal adds no connection; the user's existence is not checked |
| SocketHandler.JoinRoom | server/sockets/socketHandler.js:26-34 | only the joining connection gains the room |
| SocketHandler.JoinRoomMembers | server/sockets/socketHandler.js:26-34 | joining adds exactly the joining connection to that room's members, and every other room keeps its members |
| SocketHandler.DisconnectLeavesRooms | server/sockets/socketHandler.js:90-93 | a disconnect removes exactly that connection from every room |
| SocketHandler.SocketSend | server/sockets/socketHandler.js:42-70 | an invalid channel or text sends an error to the sender alone; otherwise the message is stored under the connection's user and is pushed to the room's members, with a notification to the event room |
| SocketHandler.Handle | server/sockets/socketHandler.js:24-93 | join_event needs a truthy id; send_message is dropped unless event, channel and text are truthy; typing reaches the room minus the sender; broadcast reaches the event room iff the event id is truthy; disconnect drops the connection |
| SocketHandler.RejectedHandshakeAdmitsNothing | server/sockets/socketHandler.js:9-17 | a missing or invalid token leaves the connection out |
| SocketHandler.JoinedRoomReceivesMessages | server/sockets/socketHandler.js:31-60 | a connection that joined a channel receives every later message to it, its own included, attributed to the sender's user |
| SocketHandler.TypingNotEchoed | server/sockets/socketHandler.js:74-82 | the typing indicator never goes back to the typist |
| SocketHandler.SocketSendIgnoresMembership | server/sockets/socketHandler.js:38-50 | a socket message is stored even when no event exists at all: the socket path has none of the REST path's membership checks |
| SocketHandler.HandlePreservesValid | server/sockets/socketHandler.js:24-93 | socket events keep the store invariant |
| SocketHandler.HandshakePreservesValid | server/sockets/socketHandler.js:6-18 | handshakes keep the store invariant |
| Api.Read | server/routes/eventRoutes.js:8-11 | the event page fails only for an unknown event; the listing routes always succeed |
| Api.Route | server/routes/paymentRoutes.js:6-19 | no GET route changes the store |
| Api.Handle | server/routes/paymentRoutes.js:6-19 | every route except the webhook answers 401 and changes nothing when authentication fails; otherwise the caller's route runs |
| Api.NoTokenOnlyWebhook | server/routes/paymentRoutes.js:10-17 | without a bearer token only the webhook reaches a handler |
| Api.UnknownUserRefused | server/middleware/authMiddleware.js:13-16 | a token naming no stored user gets 401 on every authenticated route |
| Api.HandlePreservesValid | server/routes/eventRoutes.js:6-12 | every request keeps the store invariant |
| Scenarios.RepeatedIdCountsTwice | server/controllers/committeeController.js:116-128 | under a one-committee limit, listing the same new committee twice is refused while listing it once is accepted |
| Scenarios.RemovedSubheadKeepsRights | server/controllers/committeeController.js:163-186 | a sub-head removed from the volunteers can still remove volunteers, because the committee's `subHead` is not cleared |
| Scenarios.DeletionLeavesDanglingEntries | server/controllers/committeeController.js:189-207 | participant entries that name a deleted committee keep naming it |
| Scenarios.HeadAssignedAsSubhead | server/controllers/committeeController.js:50-112 | the head may assign themself as sub-head; they stay head, their entry reads sub-head, and joinCommittees then refuses them |
| Scenarios.FailedAfterVerifyUnpays | server/controllers/paymentController.js:80-150 | a failed notification after a verified checkout turns the paid record back to failed |

## Left out

- JWT signing and verification, bcrypt hashing and comparison, and the two HMAC-SHA256 computations are function parameters (`verify`, `hash`, `matches`, `hmac`, and the webhook's expected signature). Their cryptography is not modelled.
- Fresh ObjectIds, the generated event code and the gateway's order id are parameters, and creating handlers require them unused. The uuid-based default code generator is not modelled.
- Creating a Razorpay order is a network call. Its failure, a 500, is not modelled, and the order's id and amount are taken as the gateway echoes them.
- A webhook body that lacks `payload.payment.entity` throws, and the 500 this produces is not modelled. The JSON re-serialisation of the raw body is folded into the expected signature.
- `populate` projections change only what a response shows, so they are not modelled. The same goes for the HTML of the volunteer PDF, console logging, and the joined committee names in joinCommittees' message.
- `Date` values are replaced by a natural-number clock. `paymentDeadline` and `expiryDate` are carried as clock values without their Date semantics. `startDate`, `endDate`, `coverImage` and `readBy` are dropped, since no handler in this model reads them.
- ObjectId cast errors (500 on malformed ids) are not modelled: ids are opaque strings compared by equality.
- JavaScript type coercion of request fields is not modelled. Each field has the type its handler expects, `paymentAmount` is an integer, and `hasCommittees` is a boolean.
- `trim` strips only ASCII blanks, tabs and line breaks, not all Unicode white space. `toUpperCase` and `toLowerCase` map ASCII letters only.
- UserModel.ValidEmail: the pattern's `\S` is modelled as "not a blank, tab, line feed or carriage return", so a vertical tab, form feed or Unicode space counts as a non-space character here.
- String lengths are counted in characters (Unicode scalar values), whereas JavaScript counts UTF-16 code units, so a character outside the Basic Multilingual Plane counts once here and twice in the source. This affects the length limits in UserModel.ValidName, UserModel.ValidPassword, EventModel.ValidEventFields, CommitteeModel.ValidCommitteeFields, ChatModel.ValidText and AnnouncementModel.ValidAnnouncementFields.
- Concurrent requests, and the two separate saves in assignSubHead, are modelled as one atomic step.
- Error messages are carried but are not part of any contract beyond their status.
- Store.MyEvents: returns the set of the user's events. The `createdAt` descending order of getMyEvents is not stated.
- ChatController.ChatHistory and AnnouncementController.ListAnnouncements: the sort is stated over insertion order, which equals `createdAt` order in a valid store. Ties in `createdAt` cannot occur because the clock advances on every insert.
- SocketHandler.Handle: disconnect removes the connection, which is what socket.io itself does. The handler's own body only logs. Throwing on a missing payload object is not modelled.
- SocketHandler.SocketSend: a non-ObjectId event or committee id would fail the save with the same error push; ids are opaque here.
- The authentication router is not part of this model, so the auth handlers are modelled without their routes. `generateToken` is left to the caller.
- The GET routes for my events, committees, chat history and announcements answer a success status in `Api`. Their pages are stated by `Store.MyEvents`, `CommitteeController.GetCommittees` (through `CreateExtendsListing` and `DeleteShrinksListing`), `ChatController.ChatHistory` and `AnnouncementController.ListAnnouncements`.

=== FILE: announcement_controller.dfy ===
/** The announcement handlers: createAnnouncement (per-type authorisation),
    getAnnouncements (pinned first, newest first), pinAnnouncement (a toggle)
    and deleteAnnouncement. */
module AnnouncementController {
  import opened Ids
  import opened Outcomes
  import opened EventModel
  import opened CommitteeModel
  import opened AnnouncementModel
  import opened Store
  import Seqs

  /** The body of a create request; absent or falsy fields are "" or None. */
  datatype CreateRequest = CreateRequest(
    eventId: EventId,
    kind: string,
    committeeId: CommitteeId,
    title: string,
    content: string,
    paymentAmount: Option<int>,
    paymentPurpose: Option<string>,
    paymentDeadline: Option<nat>,
    expiryDate: Option<nat>)

  /** Who may post which type: payment needs the head, global the head or a
      subhead entry, committee the head or that committee's recorded sub-head.
      An unknown type has no rule of its own. */
  predicate MayPost(st: State, actor: UserId, req: CreateRequest)
    requires req.eventId in st.events
  {
    var ev := st.events[req.eventId];
    var isHead := ev.head == actor;
    var isSubhead := GetParticipantRole(ev.participants, actor) == Some(Subhead);
    && (req.kind == "payment" ==> isHead)
    && (req.kind == "global" ==> isHead || isSubhead)
    && (req.kind == "committee" ==>
          req.committeeId != "" && req.committeeId in st.committees
          && (isHead || st.committees[req.committeeId].subHead == Some(actor)))
  }

  /** The checks of `createAnnouncement` before the document is built, in the
      source's order: per-type authorisation, then the payment amount. */
  function Admit(st: State, actor: UserId, req: CreateRequest): (r: Outcome<()>)
    requires req.eventId in st.events
    ensures r.Ok? <==> MayPost(st, actor, req) && (req.kind == "payment" ==> req.paymentAmount.Some? && req.paymentAmount.value > 0)
    ensures r.Fail? ==> r.status in {BadRequest, NotFound, Forbidden}
    ensures req.kind == "payment" && st.events[req.eventId].head != actor ==> r.Is(Forbidden)
    ensures (req.kind == "payment" && st.events[req.eventId].head == actor
             && (req.paymentAmount.None? || req.paymentAmount.value <= 0)) ==> r.Is(BadRequest)
    ensures (req.kind == "global" && st.events[req.eventId].head != actor
             && GetParticipantRole(st.events[req.eventId].participants, actor) != Some(Subhead)) ==> r.Is(Forbidden)
    ensures req.kind == "committee" && req.committeeId == "" ==> r.Is(BadRequest)
    ensures req.kind == "committee" && req.committeeId != "" && req.committeeId !in st.committees ==> r.Is(NotFound)
    ensures (req.kind == "committee" && req.committeeId != "" && req.committeeId in st.committees && st.events[req.eventId].head != actor
             && st.committees[req.committeeId].subHead != Some(actor)) ==> r.Is(Forbidden)
  {
    var ev := st.events[req.eventId];
    var isHead := ev.head == actor;
    var isSubhead := GetParticipantRole(ev.participants, actor) == Some(Subhead);
    if req.kind == "payment" && !isHead then
      Fail(Forbidden, "Only Event Head can create payment announcements")
    else if req.kind == "global" && !isHead && !isSubhead then
      Fail(Forbidden, "Only Head or Sub-heads can create global announcements")
    else if req.kind == "committee" && req.committeeId == "" then
      Fail(BadRequest, "committeeId is required for committee announcements")
    else if req.kind == "committee" && req.committeeId !in st.committees then
      Fail(NotFound, "Committee not found")
    else if req.kind == "committee" && !isHead && st.committees[req.committeeId].subHead != Some(actor) then
      Fail(Forbidden, "Only Head or committee Sub-head can create committee announcements")
    else if req.kind == "payment" && (req.paymentAmount.None? || req.paymentAmount.value <= 0) then
      Fail(BadRequest, "Payment amount must be positive")
    else Ok(())
  }

  /** The new document: payment fields only for the payment type, `committeeId || null`. */
  function Build(actor: UserId, req: CreateRequest, t: AnnouncementType, newId: AnnouncementId, now: nat): (a: Announcement)
    ensures a.id == newId && a.eventId == req.eventId && a.kind == t
    ensures a.committeeId == OrNull(req.committeeId) && a.createdBy == actor
    ensures a.title == req.title && a.content == req.content
    ensures t == PaymentAnnouncement ==>
      a.paymentAmount == req.paymentAmount && a.paymentPurpose == req.paymentPurpose && a.paymentDeadline == req.paymentDeadline
    ensures t != PaymentAnnouncement ==> a.paymentAmount.None? && a.paymentPurpose.None? && a.paymentDeadline.None?
    ensures !a.isPinned && a.isActive && a.expiryDate == req.expiryDate && a.createdAt == now
  {
    var isPayment := t == PaymentAnnouncement;
    Announcement(newId, req.eventId, t, OrNull(req.committeeId), req.title, req.content, actor,
                 if isPayment then req.paymentAmount else None,
                 if isPayment then req.paymentPurpose else None,
                 if isPayment then req.paymentDeadline else None,
                 false, req.expiryDate, true, now)
  }

  /** `createAnnouncement`. `newId` is the id the database assigns. */
  function CreateAnnouncement(st: State, actor: UserId, req: CreateRequest, newId: AnnouncementId): (r: Reply<Announcement>)
    requires !Exists(st.announcements, newId)
    ensures req.eventId == "" || req.kind == "" || req.title == "" || req.content == "" ==> r.out.Is(BadRequest)
    ensures req.eventId != "" && req.kind != "" && req.title != "" && req.content != "" && req.eventId !in st.events ==> r.out.Is(NotFound)
    ensures r.out.Fail? ==> r.st == st
    ensures r.out.Ok? <==>
      && req.eventId != "" && req.kind != "" && req.title != "" && req.content != ""
      && req.eventId in st.events && Admit(st, actor, req).Ok?
      && ParseType(req.kind).Some? && ValidAnnouncementFields(req.title, req.content)
    ensures r.out.Ok? ==>
      && r.out.value == Build(actor, req, ParseType(req.kind).value, newId, st.clock)
      && r.st == st.(announcements := st.announcements + [r.out.value], clock := st.clock + 1)
  {
    if req.eventId == "" || req.kind == "" || req.title == "" || req.content == "" then
      Reject(st, BadRequest, "Missing required fields")
    else if req.eventId !in st.events then Reject(st, NotFound, "Event not found")
    else
      match Admit(st, actor, req)
      case Fail(status, message) => Reject(st, status, message)
      case Ok(_) =>
        match ParseType(req.kind)
        case None => Reject(st, ServerError, "Announcement validation failed")
        case Some(t) =>
          if !ValidAnnouncementFields(req.title, req.content) then Reject(st, ServerError, "Announcement validation failed")
          else
            var a := Build(actor, req, t, newId, st.clock);
            Reply(Ok(a), st.(announcements := st.announcements + [a], clock := st.clock + 1))
  }

  /** A stored payment announcement always carries a positive amount, and only payment announcements carry one. */
  lemma CreatedPaymentFieldsConsistent(st: State, actor: UserId, req: CreateRequest, newId: AnnouncementId)
    requires !Exists(st.announcements, newId)
    requires CreateAnnouncement(st, actor, req, newId).out.Ok?
    ensures AnnouncementWellFormed(CreateAnnouncement(st, actor, req, newId).out.value)
  {
  }

  /** An announcement belongs to the query `{eventId}`, narrowed by type and committee when given. */
  predicate Matches(a: Announcement, eventId: EventId, kind: string, committeeId: CommitteeId) {
    a.eventId == eventId && (kind != "" ==> TypeName(a.kind) == kind) && (committeeId != "" ==> a.committeeId == Some(committeeId))
  }

  function Pinned(a: Announcement): bool {
    a.isPinned
  }

  function Unpinned(a: Announcement): bool {
    !a.isPinned
  }

  /** The announcements matching the query, in the order they were stored. */
  function Query(as_: seq<Announcement>, eventId: EventId, kind: string, committeeId: CommitteeId): (r: seq<Announcement>)
    ensures forall a :: a in r <==> a in as_ && Matches(a, eventId, kind, committeeId)
  {
    Seqs.Filter(as_, (a: Announcement) => Matches(a, eventId, kind, committeeId))
  }

  /** Pinned ones newest first, then the others newest first, for a log kept in creation order. */
  function Arrange(f: seq<Announcement>): (r: seq<Announcement>)
    ensures multiset(r) == multiset(f)
  {
    Seqs.ReverseMultiset(Seqs.Filter(f, Pinned));
    Seqs.ReverseMultiset(Seqs.Filter(f, Unpinned));
    Seqs.FilterSplit(f, Pinned, Unpinned);
    Seqs.Reverse(Seqs.Filter(f, Pinned)) + Seqs.Reverse(Seqs.Filter(f, Unpinned))
  }

  /** No unpinned announcement comes before a pinned one. */
  lemma ArrangePinnedFirst(f: seq<Announcement>)
    ensures var r := Arrange(f);
      forall i, j :: 0 <= i < j < |r| && r[j].isPinned ==> r[i].isPinned
  {
    var pinned := Seqs.Reverse(Seqs.Filter(f, Pinned));
    var rest := Seqs.Reverse(Seqs.Filter(f, Unpinned));
    assert forall i :: 0 <= i < |pinned| ==> pinned[i].isPinned;
    assert forall i :: 0 <= i < |rest| ==> !rest[i].isPinned;
    assert Arrange(f) == pinned + rest;
  }

  /** `getAnnouncements`: the matching announcements sorted by `isPinned`
      descending, then `createdAt` descending. No membership check. */
  function ListAnnouncements(st: State, eventId: EventId, kind: string, committeeId: CommitteeId): (r: seq<Announcement>)
    ensures multiset(r) == multiset(Query(st.announcements, eventId, kind, committeeId))
    ensures forall a :: a in r <==> a in st.announcements && Matches(a, eventId, kind, committeeId)
    ensures forall i, j :: 0 <= i < j < |r| && r[j].isPinned ==> r[i].isPinned
  {
    var f := Query(st.announcements, eventId, kind, committeeId);
    ArrangePinnedFirst(f);
    assert forall a :: a in Arrange(f) <==> a in multiset(f);
    Arrange(f)
  }

  /** In a well-formed store the list is sorted exactly as the query asks:
      pinned before unpinned, and newest first within each group. */
  lemma ListIsSorted(st: State, eventId: EventId, kind: string, committeeId: CommitteeId)
    requires AnnouncementsWellFormed(st)
    ensures var r := ListAnnouncements(st, eventId, kind, committeeId);
      forall i, j :: 0 <= i < j < |r| && r[i].isPinned == r[j].isPinned ==> r[i].createdAt > r[j].createdAt
  {
    QueryIncreasing(st.announcements, eventId, kind, committeeId, st.clock);
    ArrangeNewestFirst(Query(st.announcements, eventId, kind, committeeId));
  }

  function CreatedAt(a: Announcement): int {
    a.createdAt
  }

  /** The query keeps the log's creation order. */
  lemma QueryIncreasing(as_: seq<Announcement>, eventId: EventId, kind: string, committeeId: CommitteeId, clock: nat)
    requires Chronological(as_, clock)
    ensures Seqs.Increasing(Query(as_, eventId, kind, committeeId), CreatedAt)
  {
    assert Seqs.Increasing(as_, CreatedAt);
    Seqs.FilterIncreasing(as_, (a: Announcement) => Matches(a, eventId, kind, committeeId), CreatedAt);
  }

  /** For a sequence in creation order, each group of the arrangement is newest first. */
  lemma ArrangeNewestFirst(f: seq<Announcement>)
    requires Seqs.Increasing(f, CreatedAt)
    ensures var r := Arrange(f);
      forall i, j :: 0 <= i < j < |r| && r[i].isPinned == r[j].isPinned ==> r[i].createdAt > r[j].createdAt
  {
    Seqs.SplitNewestFirst(f, CreatedAt, Pinned, Unpinned);
    NewestFirstByGroup(Arrange(f));
  }

  /** Decreasing creation times among announcements of equal pin state, read on the fields. */
  lemma NewestFirstByGroup(r: seq<Announcement>)
    requires Seqs.GroupwiseDecreasing(r, CreatedAt, Pinned)
    ensures forall i, j :: 0 <= i < j < |r| && r[i].isPinned == r[j].isPinned ==> r[i].createdAt > r[j].createdAt
  {
    var key, g := CreatedAt, Pinned;
    forall i, j | 0 <= i < j < |r| && r[i].isPinned == r[j].isPinned
      ensures r[i].createdAt > r[j].createdAt
    {
      assert g(r[i]) == g(r[j]);
      assert key(r[i]) > key(r[j]);
    }
  }

  /** `pinAnnouncement` (head only): flips `isPinned` and answers the new value. */
  function PinAnnouncement(st: State, actor: UserId, id: AnnouncementId): (r: Reply<bool>)
    ensures !Exists(st.announcements, id) ==> r.out.Is(NotFound)
    ensures (Exists(st.announcements, id)
             && st.announcements[IndexOf(st.announcements, id).value].eventId !in st.events) ==> r.out.Is(ServerError)
    ensures (Exists(st.announcements, id) && st.announcements[IndexOf(st.announcements, id).value].eventId in st.events
             && st.events[st.announcements[IndexOf(st.announcements, id).value].eventId].head != actor) ==> r.out.Is(Forbidden)
    ensures r.out.Fail? ==> r.st == st
    ensures r.out.Ok? <==>
      Exists(st.announcements, id) && st.announcements[IndexOf(st.announcements, id).value].eventId in st.events
      && st.events[st.announcements[IndexOf(st.announcements, id).value].eventId].head == actor
    ensures r.out.Ok? ==>
      var i := IndexOf(st.announcements, id).value;
      && r.out.value == !st.announcements[i].isPinned
      && r.st == st.(announcements := st.announcements[i := st.announcements[i].(isPinned := r.out.value)])
  {
    match IndexOf(st.announcements, id)
    case None => Reject(st, NotFound, "Announcement not found")
    case Some(i) =>
      var a := st.announcements[i];
      if a.eventId !in st.events then Reject(st, ServerError, "Cannot read properties of null")
      else if st.events[a.eventId].head != actor then Reject(st, Forbidden, "Only Head can pin announcements")
      else Reply(Ok(!a.isPinned), st.(announcements := st.announcements[i := a.(isPinned := !a.isPinned)]))
  }

  /** Pinning twice restores the store. */
  lemma PinTwiceRestores(st: State, actor: UserId, id: AnnouncementId)
    requires PinAnnouncement(st, actor, id).out.Ok?
    ensures PinAnnouncement(PinAnnouncement(st, actor, id).st, actor, id).st == st
  {
    var s1 := PinAnnouncement(st, actor, id).st;
    var i := IndexOf(st.announcements, id).value;
    assert s1.announcements[i].id == id;
    assert forall k :: 0 <= k < |st.announcements| ==> s1.announcements[k].id == st.announcements[k].id;
    assert IndexOf(s1.announcements, id) == Some(i) by {
      IndexOfRespectsIds(st.announcements, s1.announcements, id);
    }
    assert s1.announcements[i := st.announcements[i]] == st.announcements;
  }

  /** Lookup by id only looks at the ids. */
  lemma {:induction false} IndexOfRespectsIds(a: seq<Announcement>, b: seq<Announcement>, id: AnnouncementId)
    requires |a| == |b| && forall k :: 0 <= k < |a| ==> a[k].id == b[k].id
    ensures IndexOf(a, id) == IndexOf(b, id)
  {
    if |a| > 0 {
      IndexOfRespectsIds(a[1..], b[1..], id);
    }
  }

  /** `deleteAnnouncement` (head only): the document with that id leaves the collection. */
  function DeleteAnnouncement(st: State, actor: UserId, id: AnnouncementId): (r: Reply<()>)
    ensures !Exists(st.announcements, id) ==> r.out.Is(NotFound)
    ensures (Exists(st.announcements, id)
             && st.announcements[IndexOf(st.announcements, id).value].eventId !in st.events) ==> r.out.Is(ServerError)
    ensures (Exists(st.announcements, id) && st.announcements[IndexOf(st.announcements, id).value].eventId in st.events
             && st.events[st.announcements[IndexOf(st.announcements, id).value].eventId].head != actor) ==> r.out.Is(Forbidden)
    ensures r.out.Fail? ==> r.st == st
    ensures r.out.Ok? <==>
      Exists(st.announcements, id) && st.announcements[IndexOf(st.announcements, id).value].eventId in st.events
      && st.events[st.announcements[IndexOf(st.announcements, id).value].eventId].head == actor
    ensures r.out.Ok? ==>
      var i := IndexOf(st.announcements, id).value;
      && r.st == st.(announcements := r.st.announcements)
      && |r.st.announcements| == |st.announcements| - 1
      && multiset(r.st.announcements) == multiset(st.announcements) - multiset{st.announcements[i]}
      && (forall k :: 0 <= k < i ==> r.st.announcements[k] == st.announcements[k])
      && (forall k :: i <= k < |r.st.announcements| ==> r.st.announcements[k] == st.announcements[k + 1])
  {
    match IndexOf(st.announcements, id)
    case None => Reject(st, NotFound, "Announcement not found")
    case Some(i) =>
      var a := st.announcements[i];
      if a.eventId !in st.events then Reject(st, ServerError, "Cannot read properties of null")
      else if st.events[a.eventId].head != actor then Reject(st, Forbidden, "Only Head can delete announcements")
      else Reply(Ok(()), st.(announcements := Seqs.RemoveAt(st.announcements, i)))
  }

  /** With unique ids, a deleted announcement is gone for good. */
  lemma DeletedIsGone(st: State, actor: UserId, id: AnnouncementId)
    requires UniqueIds(st.announcements)
    requires DeleteAnnouncement(st, actor, id).out.Ok?
    ensures !Exists(DeleteAnnouncement(st, actor, id).st.announcements, id)
  {
    var i := IndexOf(st.announcements, id).value;
    var after := DeleteAnnouncement(st, actor, id).st.announcements;
    forall k | 0 <= k < |after|
      ensures after[k].id != id
    {
      if k < i {
        assert after[k] == st.announcements[k];
      } else {
        assert after[k] == st.announcements[k + 1];
      }
    }
  }

  /** A created announcement is listed for its event and type. */
  lemma CreatedIsListed(st: State, actor: UserId, req: CreateRequest, newId: AnnouncementId)
    requires !Exists(st.announcements, newId)
    requires CreateAnnouncement(st, actor, req, newId).out.Ok?
    ensures var r := CreateAnnouncement(st, actor, req, newId);
      r.out.value in ListAnnouncements(r.st, req.eventId, req.kind, "")
  {
  }

  lemma CreateAnnouncementPreservesValid(st: State, actor: UserId, req: CreateRequest, newId: AnnouncementId)
    requires Valid(st) && !Exists(st.announcements, newId)
    ensures Valid(CreateAnnouncement(st, actor, req, newId).st)
  {
    var r := CreateAnnouncement(st, actor, req, newId);
    if r.out.Ok? {
      var a := r.out.value;
      CreatedPaymentFieldsConsistent(st, actor, req, newId);
      AppendAnnouncementWellFormed(st.announcements, st.clock, a);
      AnnouncementsStepValid(st, st.announcements + [a], st.clock + 1);
    } else {
      assert r.st == st;
    }
  }

  lemma PinPreservesValid(st: State, actor: UserId, id: AnnouncementId)
    requires Valid(st)
    ensures Valid(PinAnnouncement(st, actor, id).st)
  {
    var r := PinAnnouncement(st, actor, id);
    if r.out.Ok? {
      var i := IndexOf(st.announcements, id).value;
      var log' := st.announcements[i := st.announcements[i].(isPinned := r.out.value)];
      PinAnnouncementWellFormed(st.announcements, st.clock, i, r.out.value);
      AnnouncementsStepValid(st, log', st.clock);
      assert r.st == st.(announcements := log', clock := st.clock);
    } else {
      assert r.st == st;
    }
  }

  lemma DeletePreservesValid(st: State, actor: UserId, id: AnnouncementId)
    requires Valid(st)
    ensures Valid(DeleteAnnouncement(st, actor, id).st)
  {
    var r := DeleteAnnouncement(st, actor, id);
    if r.out.Ok? {
      var i := IndexOf(st.announcements, id).value;
      RemoveAnnouncementWellFormed(st.announcements, st.clock, i);
      AnnouncementsStepValid(st, Seqs.RemoveAt(st.announcements, i), st.clock);
      assert r.st == st.(announcements := Seqs.RemoveAt(st.announcements, i), clock := st.clock);
    } else {
      assert r.st == st;
    }
  }
}

=== FILE: announcement_model.dfy ===
/** The Announcement document: its type enum, payment sub-fields and pin flag. */
module AnnouncementModel {
  import opened Ids
  import opened Outcomes

  /** The `type` enum: global, committee, payment. */
  datatype AnnouncementType = GlobalAnnouncement | CommitteeAnnouncement | PaymentAnnouncement

  function TypeName(t: AnnouncementType): string {
    match t
    case GlobalAnnouncement => "global"
    case CommitteeAnnouncement => "committee"
    case PaymentAnnouncement => "payment"
  }

  /** The enum check a save performs on `type`. */
  function ParseType(s: string): (r: Option<AnnouncementType>)
    ensures r.Some? <==> s in {"global", "committee", "payment"}
    ensures r.Some? ==> TypeName(r.value) == s
  {
    if s == "global" then Some(GlobalAnnouncement)
    else if s == "committee" then Some(CommitteeAnnouncement)
    else if s == "payment" then Some(PaymentAnnouncement)
    else None
  }

  lemma TypeRoundTrip(t: AnnouncementType)
    ensures ParseType(TypeName(t)) == Some(t)
  {
  }

  /** A stored announcement; `id` is its document id and `createdAt` the
      store's clock at the save. The payment fields, `committeeId` and
      `expiryDate` default to null, `isPinned` to false, `isActive` to true. */
  datatype Announcement = Announcement(
    id: AnnouncementId,
    eventId: EventId,
    kind: AnnouncementType,
    committeeId: Option<CommitteeId>,
    title: string,
    content: string,
    createdBy: UserId,
    paymentAmount: Option<int>,
    paymentPurpose: Option<string>,
    paymentDeadline: Option<nat>,
    isPinned: bool,
    expiryDate: Option<nat>,
    isActive: bool,
    createdAt: nat)

  /** A required title of at most 200 characters and a required content of at most 3000. */
  predicate ValidAnnouncementFields(title: string, content: string) {
    0 < |title| <= 200 && 0 < |content| <= 3000
  }

  /** No two stored announcements share an id. */
  ghost predicate UniqueIds(as_: seq<Announcement>) {
    forall i, j :: 0 <= i < j < |as_| ==> as_[i].id != as_[j].id
  }

  /** Strictly increasing `createdAt` along the log, every stamp before `clock`. */
  ghost predicate Chronological(as_: seq<Announcement>, clock: nat) {
    && (forall i, j :: 0 <= i < j < |as_| ==> as_[i].createdAt < as_[j].createdAt)
    && (forall i :: 0 <= i < |as_| ==> as_[i].createdAt < clock)
  }

  /** Some stored announcement has this id. */
  predicate Exists(as_: seq<Announcement>, id: AnnouncementId) {
    exists i :: 0 <= i < |as_| && as_[i].id == id
  }

  /** `Announcement.findById`: the position of the announcement with this id. */
  function IndexOf(as_: seq<Announcement>, id: AnnouncementId): (r: Option<nat>)
    ensures r.Some? <==> Exists(as_, id)
    ensures r.Some? ==> r.value < |as_| && as_[r.value].id == id
  {
    if |as_| == 0 then None
    else if as_[0].id == id then Some(0)
    else
      match IndexOf(as_[1..], id)
      case None => None
      case Some(k) => Some(k + 1)
  }
}

=== FILE: api.dfy ===
/** The HTTP surface: every route of the event, committee, chat, announcement
    and payment routers, each behind `authenticate` except the payment
    webhook. A route answers with its status only; what each handler
    returns is stated in its controller. */
module Api {
  import opened Ids
  import opened Outcomes
  import opened Store
  import AuthMiddleware
  import EventController
  import CommitteeController
  import ChatController
  import AnnouncementController
  import PaymentController
  import AnnouncementModel

  /** A request: the route with its parameters and body. Fresh ids the
      database would assign travel with the creating requests. */
  datatype Request =
    | EventCreate(req: EventController.CreateEventRequest, newEvent: EventId, code: string)
    | EventJoin(code: string)
    | EventsMine
    | EventGet(eventId: EventId)
    | EventVolunteers(eventId: EventId)
    | EventExport(eventId: EventId, committeeId: CommitteeId)
    | EventRemove(eventId: EventId, userId: UserId)
    | CommitteeCreate(eventId: EventId, name: string, description: string, newCommittee: CommitteeId)
    | CommitteeList(eventId: EventId)
    | CommitteeAssign(committeeId: CommitteeId, userId: UserId)
    | CommitteeJoin(eventId: EventId, committeeIds: Option<seq<CommitteeId>>)
    | CommitteeRemoveVolunteer(committeeId: CommitteeId, userId: UserId)
    | CommitteeDelete(committeeId: CommitteeId)
    | ChatSend(eventId: EventId, chatType: string, committeeId: CommitteeId, text: string)
    | ChatRead(eventId: EventId, chatType: string, committeeId: CommitteeId, limit: nat, skip: nat)
    | AnnouncementCreate(body: AnnouncementController.CreateRequest, newAnnouncement: AnnouncementId)
    | AnnouncementList(eventId: EventId, kind: string, committeeId: CommitteeId)
    | AnnouncementPin(id: AnnouncementId)
    | AnnouncementDelete(id: AnnouncementId)
    | PaymentOrder(announcementId: AnnouncementId, orderId: string)
    | PaymentVerify(orderId: string, paymentId: string, signature: string)
    | PaymentWebhook(header: Option<string>, expected: string, note: PaymentController.Notification)
    | PaymentStatusOf(eventId: EventId, announcementId: AnnouncementId)
  {
    /** The GET routes. */
    predicate IsRead() {
      EventsMine? || EventGet? || EventVolunteers? || EventExport? || CommitteeList? ||
      ChatRead? || AnnouncementList? || PaymentStatusOf?
    }
  }

  /** The ids a creating request carries are unused. */
  predicate Admissible(st: State, q: Request) {
    match q
    case EventCreate(_, id, _) => id !in st.events
    case CommitteeCreate(_, _, _, id) => id !in st.committees
    case AnnouncementCreate(_, id) => !AnnouncementModel.Exists(st.announcements, id)
    case _ => true
  }

  /** An outcome reduced to its status. */
  function Forget<T>(o: Outcome<T>): (r: Outcome<()>)
    ensures r.Ok? <==> o.Ok?
    ensures o.Fail? ==> r == Fail(o.status, o.message)
  {
    match o
    case Ok(_) => Ok(())
    case Fail(s, m) => Fail(s, m)
  }

  /** A reply reduced to its status. */
  function Settle<T>(r: Reply<T>): (r': Reply<()>)
    ensures r'.st == r.st && r'.out == Forget(r.out)
  {
    Reply(Forget(r.out), r.st)
  }

  /** The answer of a GET route; the pages themselves are stated in the controllers. */
  function Read(st: State, actor: UserId, q: Request): (r: Outcome<()>)
    requires q.IsRead()
    ensures q.EventGet? ==> (r.Ok? <==> q.eventId in st.events)
    ensures q.EventsMine? || q.CommitteeList? || q.ChatRead? || q.AnnouncementList? ==> r.Ok?
  {
    match q
    case EventsMine => Ok(())
    case EventGet(e) => Forget(EventController.EventDetails(st, e))
    case EventVolunteers(e) => Forget(EventController.GetVolunteers(st, actor, e))
    case EventExport(e, c) => Forget(EventController.ExportRoster(st, actor, e, c))
    case CommitteeList(_) => Ok(())
    case ChatRead(_, _, _, _, _) => Ok(())
    case AnnouncementList(_, _, _) => Ok(())
    case PaymentStatusOf(e, a) => Forget(PaymentController.PaymentStatus(st, actor, e, a))
  }

  /** The handler a route that writes reaches once the caller is known. */
  function Write(st: State, actor: UserId, q: Request, hmac: string -> string): Reply<()>
    requires Admissible(st, q) && !q.PaymentWebhook? && !q.IsRead()
  {
    match q
    case EventCreate(req, id, code) => Settle(EventController.CreateEvent(st, actor, req, id, code))
    case EventJoin(code) => Settle(EventController.JoinEvent(st, actor, code))
    case EventRemove(e, u) => Settle(EventController.RemoveFromEvent(st, actor, e, u))
    case CommitteeCreate(e, n, d, id) => Settle(CommitteeController.CreateCommittee(st, actor, e, n, d, id))
    case CommitteeAssign(c, u) => Settle(CommitteeController.AssignSubHead(st, actor, c, u))
    case CommitteeJoin(e, ids) => Settle(CommitteeController.JoinCommittees(st, actor, e, ids))
    case CommitteeRemoveVolunteer(c, u) => Settle(CommitteeController.RemoveVolunteer(st, actor, c, u))
    case CommitteeDelete(c) => Settle(CommitteeController.DeleteCommittee(st, actor, c))
    case ChatSend(e, t, c, text) => Settle(ChatController.SendMessage(st, actor, e, t, c, text))
    case AnnouncementCreate(body, id) => Settle(AnnouncementController.CreateAnnouncement(st, actor, body, id))
    case AnnouncementPin(id) => Settle(AnnouncementController.PinAnnouncement(st, actor, id))
    case AnnouncementDelete(id) => Settle(AnnouncementController.DeleteAnnouncement(st, actor, id))
    case PaymentOrder(a, o) => Settle(PaymentController.CreateOrder(st, actor, a, o))
    case PaymentVerify(o, p, s) => Settle(PaymentController.VerifyPayment(st, o, p, s, hmac))
  }

  /** The handler a route reaches once the caller is known. */
  function Route(st: State, actor: UserId, q: Request, hmac: string -> string): (r: Reply<()>)
    requires Admissible(st, q) && !q.PaymentWebhook?
    ensures q.IsRead() ==> r.st == st
  {
    if q.IsRead() then Reply(Read(st, actor, q), st) else Write(st, actor, q, hmac)
  }

  /** One request with its Authorization header. */
  function Handle(st: State, header: Option<string>, verify: string -> Option<UserId>, hmac: string -> string, q: Request): (r: Reply<()>)
    requires Admissible(st, q)
    ensures !q.PaymentWebhook? && AuthMiddleware.Authenticate(st, header, verify).Fail? ==>
      r.out.Is(Unauthorized) && r.st == st
    ensures !q.PaymentWebhook? && AuthMiddleware.Authenticate(st, header, verify).Ok? ==>
      r == Route(st, AuthMiddleware.Authenticate(st, header, verify).value, q, hmac)
    ensures q.IsRead() ==> r.st == st
  {
    if q.PaymentWebhook? then Settle(PaymentController.Webhook(st, q.header, q.expected, q.note))
    else
      match AuthMiddleware.Authenticate(st, header, verify)
      case Fail(s, m) => Reject(st, s, m)
      case Ok(actor) => Route(st, actor, q, hmac)
  }

  /** Without a bearer token only the webhook gets past the router. */
  lemma NoTokenOnlyWebhook(st: State, verify: string -> Option<UserId>, hmac: string -> string, q: Request)
    requires Admissible(st, q)
    ensures q.PaymentWebhook? ==>
      Handle(st, None, verify, hmac, q).out == Forget(PaymentController.Webhook(st, q.header, q.expected, q.note).out)
    ensures !q.PaymentWebhook? ==> Handle(st, None, verify, hmac, q) == Reply(Fail(Unauthorized, "No token provided"), st)
  {
  }

  /** A token for a deleted or never-registered user is refused like a missing one. */
  lemma UnknownUserRefused(st: State, header: Option<string>, verify: string -> Option<UserId>, hmac: string -> string, q: Request)
    requires Admissible(st, q) && !q.PaymentWebhook?
    requires forall t :: verify(t).Some? ==> verify(t).value !in st.users
    ensures Handle(st, header, verify, hmac, q).out.Is(Unauthorized)
    ensures Handle(st, header, verify, hmac, q).st == st
  {
  }

  /** Every request keeps the store invariant. */
  lemma RoutePreservesValid(st: State, actor: UserId, q: Request, hmac: string -> string)
    requires Valid(st) && Admissible(st, q) && !q.PaymentWebhook?
    ensures Valid(Route(st, actor, q, hmac).st)
  {
    if !q.IsRead() {
      WritePreservesValid(st, actor, q, hmac);
    }
  }

  lemma WritePreservesValid(st: State, actor: UserId, q: Request, hmac: string -> string)
    requires Valid(st) && Admissible(st, q) && !q.PaymentWebhook? && !q.IsRead()
    ensures Valid(Write(st, actor, q, hmac).st)
  {
    match q
    case EventCreate(req, id, code) => EventController.CreateEventPreservesValid(st, actor, req, id, code);
    case EventJoin(code) => EventController.JoinEventPreservesValid(st, actor, code);
    case EventRemove(e, u) => EventController.RemoveFromEventPreservesValid(st, actor, e, u);
    case CommitteeCreate(e, n, d, id) => CommitteeController.CreateCommitteePreservesValid(st, actor, e, n, d, id);
    case CommitteeAssign(c, u) => CommitteeController.AssignSubHeadPreservesValid(st, actor, c, u);
    case CommitteeJoin(e, ids) => CommitteeController.JoinCommitteesPreservesValid(st, actor, e, ids);
    case CommitteeRemoveVolunteer(c, u) => CommitteeController.RemoveVolunteerPreservesValid(st, actor, c, u);
    case CommitteeDelete(c) => CommitteeController.DeleteCommitteePreservesValid(st, actor, c);
    case ChatSend(e, t, c, text) => ChatController.SendMessagePreservesValid(st, actor, e, t, c, text);
    case AnnouncementCreate(body, id) => AnnouncementController.CreateAnnouncementPreservesValid(st, actor, body, id);
    case AnnouncementPin(id) => AnnouncementController.PinPreservesValid(st, actor, id);
    case AnnouncementDelete(id) => AnnouncementController.DeletePreservesValid(st, actor, id);
    case PaymentOrder(a, o) => PaymentController.CreateOrderPreservesValid(st, actor, a, o);
    case PaymentVerify(o, p, s) => PaymentController.VerifyPaymentPreservesValid(st, o, p, s, hmac);
    case _ =>
  }

  lemma HandlePreservesValid(st: State, header: Option<string>, verify: string -> Option<UserId>, hmac: string -> string, q: Request)
    requires Valid(st) && Admissible(st, q)
    ensures Valid(Handle(st, header, verify, hmac, q).st)
  {
    if q.PaymentWebhook? {
      PaymentController.WebhookPreservesValid(st, q.header, q.expected, q.note);
    } else if AuthMiddleware.Authenticate(st, header, verify).Ok? {
      RoutePreservesValid(st, AuthMiddleware.Authenticate(st, header, verify).value, q, hmac);
    }
  }
}

=== FILE: auth_controller.dfy ===
/** The account handlers: register, login, getProfile and updateProfile.
    Password hashing and comparison are opaque functions given as parameters;
    token signing is left to the caller of `Login`. */
module AuthController {
  import opened Ids
  import opened Outcomes
  import opened UserModel
  import opened Store
  import Text

  datatype RegisterRequest = RegisterRequest(
    firstName: string,
    middleName: string,
    lastName: string,
    email: string,
    password: string)

  /** The document `new User(...)` builds: setters trim the names and
      normalise the email, the password is replaced by its hash, and a missing
      middle name becomes "". */
  function NewUser(req: RegisterRequest, hash: string -> string): (u: User)
    ensures u.firstName == Text.Trim(req.firstName) && u.lastName == Text.Trim(req.lastName)
    ensures u.middleName == Text.Trim(req.middleName) && u.email == NormalizeEmail(req.email)
    ensures u.password == hash(req.password) && u.avatar == ""
  {
    User(Text.Trim(req.firstName), Text.Trim(req.middleName), Text.Trim(req.lastName),
         NormalizeEmail(req.email), hash(req.password), "")
  }

  /** `register`. `newId` is the id the database assigns. The duplicate
      lookup goes through the email setters, so addresses that differ only in
      case or surrounding blanks collide. */
  function Register(st: State, req: RegisterRequest, newId: UserId, hash: string -> string): (r: Reply<UserId>)
    requires newId !in st.users
    ensures req.firstName == "" || req.lastName == "" || req.email == "" || req.password == "" ==> r.out.Is(BadRequest)
    ensures (req.firstName != "" && req.lastName != "" && req.email != "" && req.password != ""
             && NormalizeEmail(req.email) in st.emails) ==> r.out.Is(BadRequest)
    ensures r.out.Fail? ==> r.st == st
    ensures r.out.Ok? <==>
      && req.firstName != "" && req.lastName != "" && req.email != "" && req.password != ""
      && NormalizeEmail(req.email) !in st.emails
      && ValidUser(NewUser(req, hash)) && ValidPassword(req.password)
    ensures r.out.Ok? ==>
      && r.out.value == newId
      && r.st == st.(users := st.users[newId := NewUser(req, hash)], emails := st.emails[NormalizeEmail(req.email) := newId])
  {
    if req.firstName == "" || req.lastName == "" || req.email == "" || req.password == "" then
      Reject(st, BadRequest, "First name, last name, email and password are required")
    else if NormalizeEmail(req.email) in st.emails then
      Reject(st, BadRequest, "Email already registered")
    else
      var u := NewUser(req, hash);
      if !ValidUser(u) || !ValidPassword(req.password) then Reject(st, ServerError, "User validation failed")
      else Reply(Ok(newId), st.(users := st.users[newId := u], emails := st.emails[u.email := newId]))
  }

  /** The one answer login gives for an unknown email and for a wrong password. */
  const LoginRefused: Outcome<UserId> := Fail(Unauthorized, "Invalid email or password")

  /** `login`: the user whose normalised email matches, if `matches(password, hash)` holds. */
  function Login(st: State, email: string, password: string, matches: (string, string) -> bool): (r: Outcome<UserId>)
    ensures email == "" || password == "" ==> r.Is(BadRequest)
    ensures r.Fail? && email != "" && password != "" ==> r == LoginRefused
    ensures r.Ok? <==>
      && email != "" && password != ""
      && NormalizeEmail(email) in st.emails && st.emails[NormalizeEmail(email)] in st.users
      && matches(password, st.users[st.emails[NormalizeEmail(email)]].password)
    ensures r.Ok? ==> r.value in st.users && r.value == st.emails[NormalizeEmail(email)]
  {
    if email == "" || password == "" then Fail(BadRequest, "Email and password are required")
    else
      var key := NormalizeEmail(email);
      if key !in st.emails || st.emails[key] !in st.users then LoginRefused
      else if !matches(password, st.users[st.emails[key]].password) then LoginRefused
      else Ok(st.emails[key])
  }

  /** In a consistent store, login finds the account whose stored address is the normalised one typed. */
  lemma LoginFindsOwner(st: State, email: string, password: string, matches: (string, string) -> bool)
    requires UsersIndexed(st)
    ensures Login(st, email, password, matches).Ok? ==>
      st.users[Login(st, email, password, matches).value].email == NormalizeEmail(email)
  {
  }

  /** Registering and then logging in with the same address and password
      yields the new account, provided the comparison accepts a password
      against its own hash. */
  lemma RegisterThenLogin(st: State, req: RegisterRequest, newId: UserId, hash: string -> string,
                          matches: (string, string) -> bool, email: string)
    requires newId !in st.users
    requires matches(req.password, hash(req.password))
    ensures Register(st, req, newId, hash).out.Ok? && email != "" && NormalizeEmail(email) == NormalizeEmail(req.email) ==>
      Login(Register(st, req, newId, hash).st, email, req.password, matches) == Ok(newId)
  {
  }

  /** A second registration under the same normalised address is refused. */
  lemma RegisterTwiceRefused(st: State, req: RegisterRequest, req2: RegisterRequest, newId: UserId, newId2: UserId, hash: string -> string)
    requires newId !in st.users && newId2 !in st.users && newId2 != newId
    requires req2.firstName != "" && req2.lastName != "" && req2.email != "" && req2.password != ""
    requires NormalizeEmail(req2.email) == NormalizeEmail(req.email)
    ensures Register(st, req, newId, hash).out.Ok? ==>
      Register(Register(st, req, newId, hash).st, req2, newId2, hash).out.Is(BadRequest)
  {
  }

  /** `getProfile`: the caller's public view; a missing user fails on the null dereference. */
  function GetProfile(st: State, actor: UserId): (r: Outcome<map<string, string>>)
    ensures r.Ok? <==> actor in st.users
    ensures r.Fail? ==> r.status == ServerError
    ensures r.Ok? ==> "password" !in r.value && "_id" in r.value && r.value["_id"] == actor
    ensures r.Ok? ==> "fullName" in r.value && r.value["fullName"] == FullName(st.users[actor])
  {
    if actor !in st.users then Fail(ServerError, "Cannot read properties of null")
    else Ok(ToJson(actor, st.users[actor]))
  }

  /** The body of a profile update: a name or avatar given as "" is absent;
      the middle name is set whenever it is present at all. */
  datatype ProfileUpdate = ProfileUpdate(firstName: string, middleName: Option<string>, lastName: string, avatar: string)

  /** The user after the update's assignments (with the setters' trimming). */
  function Apply(u: User, p: ProfileUpdate): (u': User)
    ensures u'.email == u.email && u'.password == u.password
    ensures u'.firstName == (if p.firstName != "" then Text.Trim(p.firstName) else u.firstName)
    ensures u'.lastName == (if p.lastName != "" then Text.Trim(p.lastName) else u.lastName)
    ensures u'.middleName == (if p.middleName.Some? then Text.Trim(p.middleName.value) else u.middleName)
    ensures u'.avatar == (if p.avatar != "" then p.avatar else u.avatar)
  {
    u.(firstName := if p.firstName != "" then Text.Trim(p.firstName) else u.firstName,
       middleName := if p.middleName.Some? then Text.Trim(p.middleName.value) else u.middleName,
       lastName := if p.lastName != "" then Text.Trim(p.lastName) else u.lastName,
       avatar := if p.avatar != "" then p.avatar else u.avatar)
  }

  /** `updateProfile`: the caller's own document, revalidated on save. */
  function UpdateProfile(st: State, actor: UserId, p: ProfileUpdate): (r: Reply<map<string, string>>)
    ensures actor !in st.users ==> r.out.Is(ServerError)
    ensures r.out.Fail? ==> r.out.status == ServerError && r.st == st
    ensures r.out.Ok? <==> actor in st.users && ValidUser(Apply(st.users[actor], p))
    ensures r.out.Ok? ==>
      && r.st == st.(users := st.users[actor := Apply(st.users[actor], p)])
      && r.out.value == ToJson(actor, Apply(st.users[actor], p))
      && "password" !in r.out.value
  {
    if actor !in st.users then Reject(st, ServerError, "Cannot read properties of null")
    else
      var u' := Apply(st.users[actor], p);
      if !ValidUser(u') then Reject(st, ServerError, "User validation failed")
      else Reply(Ok(ToJson(actor, u')), st.(users := st.users[actor := u']))
  }

  /** Applying the same update twice is applying it once. */
  lemma ApplyIdempotent(u: User, p: ProfileUpdate)
    ensures Apply(Apply(u, p), p) == Apply(u, p)
  {
    var v := Apply(u, p);
    var w := Apply(v, p);
    assert w.firstName == v.firstName && w.lastName == v.lastName;
    assert w.middleName == v.middleName && w.avatar == v.avatar;
  }

  /** Repeating a successful update changes nothing more. */
  lemma UpdateProfileIdempotent(st: State, actor: UserId, p: ProfileUpdate)
    requires UpdateProfile(st, actor, p).out.Ok?
    ensures UpdateProfile(UpdateProfile(st, actor, p).st, actor, p).st == UpdateProfile(st, actor, p).st
  {
    ApplyIdempotent(st.users[actor], p);
  }

  /** An update that names nothing leaves a valid user, and the store, as they were. */
  lemma EmptyUpdateIsNoop(st: State, actor: UserId)
    requires actor in st.users && ValidUser(st.users[actor])
    ensures UpdateProfile(st, actor, ProfileUpdate("", None, "", "")).st == st
  {
  }

  lemma RegisterPreservesValid(st: State, req: RegisterRequest, newId: UserId, hash: string -> string)
    requires Valid(st) && newId !in st.users
    ensures Valid(Register(st, req, newId, hash).st)
  {
    var r := Register(st, req, newId, hash);
    if r.out.Ok? {
      InsertUserIndexed(st, newId, NewUser(req, hash));
      UsersOnlyValid(st, r.st);
    } else {
      assert r.st == st;
    }
  }

  lemma UpdateProfilePreservesValid(st: State, actor: UserId, p: ProfileUpdate)
    requires Valid(st)
    ensures Valid(UpdateProfile(st, actor, p).st)
  {
    var r := UpdateProfile(st, actor, p);
    if r.out.Ok? {
      UpdateUserIndexed(st, actor, Apply(st.users[actor], p));
      UsersOnlyValid(st, r.st);
    } else {
      assert r.st == st;
    }
  }
}

=== FILE: auth_middleware.dfy ===
/** The request guards: `authenticate` (bearer token to stored user) and the
    three event-scoped decision predicates requireHead, requireHeadOrSubhead
    and requireParticipant. Token verification is an opaque function from a
    token to the user id it was signed for. */
module AuthMiddleware {
  import opened Ids
  import opened Outcomes
  import opened EventModel
  import opened Store
  import Text

  /** The position of the first space. */
  function FirstSpace(s: string): (r: Option<nat>)
    ensures r.None? <==> Text.Lacks(s, ' ')
    ensures r.Some? ==> r.value < |s| && s[r.value] == ' ' && Text.Lacks(s[..r.value], ' ')
  {
    if |s| == 0 then None
    else if s[0] == ' ' then Some(0)
    else
      match FirstSpace(s[1..])
      case None => None
      case Some(k) =>
        assert s[..k + 1] == [s[0]] + s[1..][..k];
        Some(k + 1)
  }

  lemma {:induction false} FirstSpaceAt(s: string, k: nat)
    requires k < |s| && s[k] == ' ' && Text.Lacks(s[..k], ' ')
    ensures FirstSpace(s) == Some(k)
  {
    if k > 0 {
      assert s[0] == s[..k][0];
      assert s[1..][..k - 1] == s[..k][1..];
      FirstSpaceAt(s[1..], k - 1);
    }
  }

  /** `authorization?.split(' ')[1]`: the second space-separated field of the
      header, or undefined when the header is absent or has no space. */
  function BearerToken(header: Option<string>): Option<string> {
    match header
    case None => None
    case Some(h) =>
      match FirstSpace(h)
      case None => None
      case Some(i) =>
        var rest := h[i + 1..];
        match FirstSpace(rest)
        case None => Some(rest)
        case Some(j) => Some(rest[..j])
  }

  /** The header the web client sends, `Bearer <token>`, gives back exactly its
      token (for any space-free scheme word and token). */
  lemma BearerRoundTrip(scheme: string, token: string)
    requires Text.Lacks(scheme, ' ') && Text.Lacks(token, ' ')
    ensures BearerToken(Some(scheme + " " + token)) == Some(token)
  {
    var h := scheme + " " + token;
    assert h[..|scheme|] == scheme;
    FirstSpaceAt(h, |scheme|);
    assert h[|scheme| + 1..] == token;
  }

  /** A header without a space carries no token. */
  lemma NoSpaceNoToken(h: string)
    requires Text.Lacks(h, ' ')
    ensures BearerToken(Some(h)).None?
  {
  }

  /** `authenticate`: the stored user the bearer token was signed for. */
  function Authenticate(st: State, header: Option<string>, verify: string -> Option<UserId>): (r: Outcome<UserId>)
    ensures r.Fail? ==> r.status == Unauthorized
    ensures (BearerToken(header).None? || BearerToken(header) == Some("")) ==> r.Fail?
    ensures r.Ok? <==> (exists t :: BearerToken(header) == Some(t) && t != "" && verify(t).Some? && verify(t).value in st.users)
    ensures r.Ok? ==> BearerToken(header).Some? && verify(BearerToken(header).value) == Some(r.value)
    ensures r.Ok? ==> r.value in st.users
  {
    match BearerToken(header)
    case None => Fail(Unauthorized, "No token provided")
    case Some(t) =>
      if t == "" then Fail(Unauthorized, "No token provided")
      else
        match verify(t)
        case None => Fail(Unauthorized, "Invalid or expired token")
        case Some(uid) =>
          if uid !in st.users then Fail(Unauthorized, "User not found")
          else Ok(uid)
  }

  /** The event's head. */
  predicate IsHead(ev: Event, u: UserId) {
    ev.head == u
  }

  /** The head, or a user with an entry in the participants. */
  predicate IsMember(ev: Event, u: UserId) {
    IsHead(ev, u) || IsParticipant(ev.participants, u)
  }

  /** The user's entry carries the subhead role. */
  predicate IsSubhead(ev: Event, u: UserId) {
    GetParticipantRole(ev.participants, u) == Some(Subhead)
  }

  /** `requireHead`: NotFound for an unknown event, then Forbidden for anyone but the head. */
  function RequireHead(st: State, eventId: EventId, actor: UserId): (r: Outcome<Event>)
    ensures eventId !in st.events <==> r.Is(NotFound)
    ensures r.Ok? <==> eventId in st.events && IsHead(st.events[eventId], actor)
    ensures r.Ok? ==> r.value == st.events[eventId]
    ensures r.Fail? ==> r.status == NotFound || r.status == Forbidden
  {
    if eventId !in st.events then Fail(NotFound, "Event not found")
    else if st.events[eventId].head != actor then Fail(Forbidden, "Only Event Head can perform this action")
    else Ok(st.events[eventId])
  }

  /** `requireHeadOrSubhead`: the head, or a user whose entry has role subhead. */
  function RequireHeadOrSubhead(st: State, eventId: EventId, actor: UserId): (r: Outcome<Event>)
    ensures eventId !in st.events <==> r.Is(NotFound)
    ensures r.Ok? <==> eventId in st.events && (IsHead(st.events[eventId], actor) || IsSubhead(st.events[eventId], actor))
    ensures r.Ok? ==> r.value == st.events[eventId]
    ensures r.Fail? ==> r.status == NotFound || r.status == Forbidden
  {
    if eventId !in st.events then Fail(NotFound, "Event not found")
    else
      var ev := st.events[eventId];
      var isHead := ev.head == actor;
      var participant := FindParticipant(ev.participants, actor);
      var isSubhead := participant.Some? && participant.value.role == Subhead;
      if !isHead && !isSubhead then Fail(Forbidden, "Head or Sub-head access required")
      else Ok(ev)
  }

  /** `requireParticipant`: the head, or any user with an entry. */
  function RequireParticipant(st: State, eventId: EventId, actor: UserId): (r: Outcome<Event>)
    ensures eventId !in st.events <==> r.Is(NotFound)
    ensures r.Ok? <==> eventId in st.events && IsMember(st.events[eventId], actor)
    ensures r.Ok? ==> r.value == st.events[eventId]
    ensures r.Fail? ==> r.status == NotFound || r.status == Forbidden
  {
    if eventId !in st.events then Fail(NotFound, "Event not found")
    else
      var ev := st.events[eventId];
      var isHead := ev.head == actor;
      var isParticipant := exists i :: 0 <= i < |ev.participants| && ev.participants[i].userId == actor;
      if !isHead && !isParticipant then Fail(Forbidden, "You are not a participant of this event")
      else Ok(ev)
  }

  /** The guards are nested: passing requireHead implies passing
      requireHeadOrSubhead, which implies passing requireParticipant. */
  lemma GuardsNested(st: State, eventId: EventId, actor: UserId)
    ensures RequireHead(st, eventId, actor).Ok? ==> RequireHeadOrSubhead(st, eventId, actor).Ok?
    ensures RequireHeadOrSubhead(st, eventId, actor).Ok? ==> RequireParticipant(st, eventId, actor).Ok?
  {
  }

  /** A participant whose entry is a plain volunteer passes requireParticipant but
      not requireHeadOrSubhead, unless they are the head. */
  lemma VolunteerIsParticipantOnly(st: State, eventId: EventId, actor: UserId)
    requires eventId in st.events && st.events[eventId].head != actor
    requires GetParticipantRole(st.events[eventId].participants, actor) == Some(Volunteer)
    ensures RequireParticipant(st, eventId, actor).Ok?
    ensures RequireHeadOrSubhead(st, eventId, actor).Is(Forbidden)
  {
  }
}

=== FILE: chat_controller.dfy ===
/** The REST chat handlers: sendMessage (membership and channel checks, then
    persist) and getChatHistory (newest-first page, handed back oldest-first). */
module ChatController {
  import opened Ids
  import opened Outcomes
  import opened EventModel
  import opened CommitteeModel
  import opened ChatModel
  import opened Store
  import Seqs
  import AuthMiddleware

  /** `sendMessage`. Checks run in the source's order: required fields, event,
      membership, the committee channel (only when a committee id is given; the
      committee is not required to belong to the event), the head_subhead
      channel, then schema validation of the new document. */
  function SendMessage(st: State, actor: UserId, eventId: EventId, chatType: string, committeeId: CommitteeId, text: string): (r: Reply<ChatMessage>)
    ensures eventId == "" || chatType == "" || text == "" ==> r.out.Is(BadRequest)
    ensures eventId != "" && chatType != "" && text != "" && eventId !in st.events ==> r.out.Is(NotFound)
    ensures r.out.Fail? ==> r.st == st
    ensures (eventId != "" && chatType != "" && text != "" && eventId in st.events
             && !AuthMiddleware.IsMember(st.events[eventId], actor)) ==> r.out.Is(Forbidden)
    ensures (eventId != "" && chatType != "" && text != "" && eventId in st.events
             && AuthMiddleware.IsMember(st.events[eventId], actor)
             && chatType == "committee" && committeeId != "" && committeeId !in st.committees) ==> r.out.Is(NotFound)
    ensures (eventId != "" && chatType != "" && text != "" && eventId in st.events
             && AuthMiddleware.IsMember(st.events[eventId], actor)
             && chatType == "committee" && committeeId != "" && committeeId in st.committees
             && st.events[eventId].head != actor && !InCommittee(st.committees[committeeId], actor)) ==> r.out.Is(Forbidden)
    ensures (eventId != "" && chatType != "" && text != "" && eventId in st.events
             && AuthMiddleware.IsMember(st.events[eventId], actor)
             && chatType == "head_subhead" && st.events[eventId].head != actor
             && GetParticipantRole(st.events[eventId].participants, actor) != Some(Subhead)) ==> r.out.Is(Forbidden)
    ensures r.out.Ok? <==>
      && eventId != "" && chatType != "" && text != "" && eventId in st.events
      && AuthMiddleware.IsMember(st.events[eventId], actor)
      && (chatType == "committee" && committeeId != "" ==>
            committeeId in st.committees && (st.events[eventId].head == actor || InCommittee(st.committees[committeeId], actor)))
      && (chatType == "head_subhead" ==>
            st.events[eventId].head == actor || GetParticipantRole(st.events[eventId].participants, actor) == Some(Subhead))
      && ParseChatType(chatType).Some? && ValidText(text)
    ensures r.out.Ok? ==>
      && r.out.value == NewMessage(eventId, ParseChatType(chatType).value, committeeId, actor, text, st.clock)
      && r.st == st.(messages := st.messages + [r.out.value], clock := st.clock + 1)
  {
    if eventId == "" || chatType == "" || text == "" then Reject(st, BadRequest, "eventId, chatType, and message are required")
    else if eventId !in st.events then Reject(st, NotFound, "Event not found")
    else
      var ev := st.events[eventId];
      var isHead := ev.head == actor;
      var participant := FindParticipant(ev.participants, actor);
      if !isHead && participant.None? then Reject(st, Forbidden, "Not authorized")
      else if chatType == "committee" && committeeId != "" && committeeId !in st.committees then
        Reject(st, NotFound, "Committee not found")
      else if chatType == "committee" && committeeId != "" && !isHead && !InCommittee(st.committees[committeeId], actor) then
        Reject(st, Forbidden, "You are not in this committee")
      else if chatType == "head_subhead" && !isHead && (participant.None? || participant.value.role != Subhead) then
        Reject(st, Forbidden, "Only Head or Sub-heads can use this chat")
      else
        match ParseChatType(chatType)
        case None => Reject(st, ServerError, "ChatMessage validation failed")
        case Some(t) =>
          if !ValidText(text) then Reject(st, ServerError, "ChatMessage validation failed")
          else
            var m := NewMessage(eventId, t, committeeId, actor, text, st.clock);
            Reply(Ok(m), st.(messages := st.messages + [m], clock := st.clock + 1))
  }

  /** A message belongs to the history query `{eventId, chatType}`, narrowed to
      the committee when one is given. */
  predicate Matches(m: ChatMessage, eventId: EventId, chatType: string, committeeId: CommitteeId) {
    m.eventId == eventId && ChatTypeName(m.chatType) == chatType && (committeeId != "" ==> m.committeeId == Some(committeeId))
  }

  /** The matching messages in the order they were stored. */
  function Channel(ms: seq<ChatMessage>, eventId: EventId, chatType: string, committeeId: CommitteeId): (r: seq<ChatMessage>)
    ensures forall m :: m in r <==> m in ms && Matches(m, eventId, chatType, committeeId)
    ensures |r| <= |ms|
  {
    Seqs.Filter(ms, (m: ChatMessage) => Matches(m, eventId, chatType, committeeId))
  }

  /** `getChatHistory`: sorted newest first, `skip` newest messages dropped, at
      most `limit` kept (0 keeps all), then reversed back. No membership check. */
  function ChatHistory(st: State, eventId: EventId, chatType: string, committeeId: CommitteeId, limit: nat, skip: nat): (r: seq<ChatMessage>)
    ensures forall m :: m in r ==> m in st.messages && Matches(m, eventId, chatType, committeeId)
    ensures limit > 0 ==> |r| <= limit
    ensures var f := Channel(st.messages, eventId, chatType, committeeId);
      && (skip >= |f| ==> r == [])
      && (skip < |f| && (limit == 0 || skip + limit >= |f|) ==> r == f[0..|f| - skip])
      && (skip < |f| && limit > 0 && skip + limit < |f| ==> r == f[|f| - skip - limit..|f| - skip])
  {
    Seqs.NewestPage(Channel(st.messages, eventId, chatType, committeeId), skip, limit)
  }

  /** The defaults of the query string: 50 messages, none skipped. */
  function DefaultHistory(st: State, eventId: EventId, chatType: string, committeeId: CommitteeId): (r: seq<ChatMessage>)
    ensures |r| <= 50
  {
    ChatHistory(st, eventId, chatType, committeeId, 50, 0)
  }

  /** Keeping a sub-sequence keeps a log chronological. */
  lemma ChronologicalFilter(ms: seq<ChatMessage>, p: ChatMessage -> bool, clock: nat)
    requires Chronological(ms, clock)
    ensures Chronological(Seqs.Filter(ms, p), clock)
  {
    var key := (m: ChatMessage) => m.createdAt;
    assert Seqs.Increasing(ms, key);
    Seqs.FilterIncreasing(ms, p, key);
  }

  /** A channel of a chronological log is chronological. */
  lemma ChannelChronological(ms: seq<ChatMessage>, eventId: EventId, chatType: string, committeeId: CommitteeId, clock: nat)
    requires Chronological(ms, clock)
    ensures Chronological(Channel(ms, eventId, chatType, committeeId), clock)
  {
    ChronologicalFilter(ms, (m: ChatMessage) => Matches(m, eventId, chatType, committeeId), clock);
  }

  /** A page of history is in chronological order: strictly increasing creation times. */
  lemma HistoryIsChronological(st: State, eventId: EventId, chatType: string, committeeId: CommitteeId, limit: nat, skip: nat)
    requires MessagesWellFormed(st)
    ensures Chronological(ChatHistory(st, eventId, chatType, committeeId, limit, skip), st.clock)
  {
    ChannelChronological(st.messages, eventId, chatType, committeeId, st.clock);
    PageChronological(Channel(st.messages, eventId, chatType, committeeId), st.clock, skip, limit);
  }

  /** A page of a chronological log is chronological. */
  lemma PageChronological(ms: seq<ChatMessage>, clock: nat, skip: nat, limit: nat)
    requires Chronological(ms, clock)
    ensures Chronological(Seqs.NewestPage(ms, skip, limit), clock)
  {
    var r := Seqs.NewestPage(ms, skip, limit);
    if skip >= |ms| {
      assert r == [];
    } else if limit == 0 || skip + limit >= |ms| {
      ChronologicalSlice(ms, clock, 0, |ms| - skip);
      assert r == ms[0..|ms| - skip];
    } else {
      ChronologicalSlice(ms, clock, |ms| - skip - limit, |ms| - skip);
      assert r == ms[|ms| - skip - limit..|ms| - skip];
    }
  }

  /** A contiguous stretch of a chronological log is chronological. */
  lemma ChronologicalSlice(ms: seq<ChatMessage>, clock: nat, lo: nat, hi: nat)
    requires Chronological(ms, clock) && lo <= hi <= |ms|
    ensures Chronological(ms[lo..hi], clock)
  {
    var page := ms[lo..hi];
    assert forall i :: 0 <= i < |page| ==> page[i] == ms[lo + i];
  }

  /** A message sent to a channel is the newest entry of that channel's first page. */
  lemma SentMessageIsLatest(st: State, actor: UserId, eventId: EventId, chatType: string, committeeId: CommitteeId, text: string, limit: nat)
    requires SendMessage(st, actor, eventId, chatType, committeeId, text).out.Ok?
    ensures var r := SendMessage(st, actor, eventId, chatType, committeeId, text);
      var h := ChatHistory(r.st, eventId, chatType, committeeId, limit, 0);
      |h| > 0 && h[|h| - 1] == r.out.value
  {
    var r := SendMessage(st, actor, eventId, chatType, committeeId, text);
    var m := r.out.value;
    assert Matches(m, eventId, chatType, committeeId);
    ChannelAppend(st.messages, m, eventId, chatType, committeeId);
    assert r.st.messages == st.messages + [m];
    FirstPageEndsWithLatest(r.st, eventId, chatType, committeeId, limit);
  }

  /** A matching message appended to the log becomes the last entry of its channel. */
  lemma ChannelAppend(ms: seq<ChatMessage>, m: ChatMessage, eventId: EventId, chatType: string, committeeId: CommitteeId)
    requires Matches(m, eventId, chatType, committeeId)
    ensures Channel(ms + [m], eventId, chatType, committeeId) == Channel(ms, eventId, chatType, committeeId) + [m]
  {
    var p := (x: ChatMessage) => Matches(x, eventId, chatType, committeeId);
    Seqs.FilterConcat(ms, [m], p);
    Seqs.FilterCons([m], p);
    assert [m][1..] == [];
  }

  /** The first page of a non-empty channel ends with the channel's newest message. */
  lemma FirstPageEndsWithLatest(st: State, eventId: EventId, chatType: string, committeeId: CommitteeId, limit: nat)
    requires |Channel(st.messages, eventId, chatType, committeeId)| > 0
    ensures var f := Channel(st.messages, eventId, chatType, committeeId);
      var h := ChatHistory(st, eventId, chatType, committeeId, limit, 0);
      |h| > 0 && h[|h| - 1] == f[|f| - 1]
  {
    var f := Channel(st.messages, eventId, chatType, committeeId);
    var h := ChatHistory(st, eventId, chatType, committeeId, limit, 0);
    if limit == 0 || limit >= |f| {
      assert h == f[0..|f|];
      assert h[|h| - 1] == f[|f| - 1];
    } else {
      assert h == f[|f| - limit..|f|];
      assert h[|h| - 1] == f[|f| - 1];
    }
  }

  /** `sendMessage` keeps the store invariant. */
  lemma SendMessagePreservesValid(st: State, actor: UserId, eventId: EventId, chatType: string, committeeId: CommitteeId, text: string)
    requires Valid(st)
    ensures Valid(SendMessage(st, actor, eventId, chatType, committeeId, text).st)
  {
    var r := SendMessage(st, actor, eventId, chatType, committeeId, text);
    if r.out.Ok? {
      AppendMessageWellFormed(st.messages, st.clock, r.out.value);
      MessagesStepValid(st, st.messages + [r.out.value], st.clock + 1);
    } else {
      assert r.st == st;
    }
  }
}

=== FILE: chat_model.dfy ===
/** The ChatMessage document: the chat channels and the message schema. */
module ChatModel {
  import opened Ids
  import opened Outcomes

  /** The `chatType` enum: global, committee, head_subhead. */
  datatype ChatType = GlobalChat | CommitteeChat | HeadSubheadChat

  function ChatTypeName(t: ChatType): string {
    match t
    case GlobalChat => "global"
    case CommitteeChat => "committee"
    case HeadSubheadChat => "head_subhead"
  }

  /** The enum check a save performs on `chatType`. */
  function ParseChatType(s: string): (r: Option<ChatType>)
    ensures r.Some? <==> s in {"global", "committee", "head_subhead"}
    ensures r.Some? ==> ChatTypeName(r.value) == s
  {
    if s == "global" then Some(GlobalChat)
    else if s == "committee" then Some(CommitteeChat)
    else if s == "head_subhead" then Some(HeadSubheadChat)
    else None
  }

  /** Names and the enum check are inverse to each other. */
  lemma ChatTypeRoundTrip(t: ChatType)
    ensures ParseChatType(ChatTypeName(t)) == Some(t)
  {
  }

  /** A stored message. `committeeId` defaults to null and `isSystem` to false;
      `createdAt` is the store's clock at the save. */
  datatype ChatMessage = ChatMessage(
    eventId: EventId,
    chatType: ChatType,
    committeeId: Option<CommitteeId>,
    sender: UserId,
    text: string,
    isSystem: bool,
    createdAt: nat)

  /** The `message` field is required and at most 5000 characters long. */
  predicate ValidText(t: string) {
    0 < |t| <= 5000
  }

  /** A message as both send paths build it: the given fields, `committeeId || null`,
      `isSystem` left at its default. */
  function NewMessage(eventId: EventId, t: ChatType, committeeId: string, sender: UserId, text: string, now: nat): (m: ChatMessage)
    ensures m.eventId == eventId && m.chatType == t && m.sender == sender && m.text == text
    ensures m.committeeId == OrNull(committeeId) && !m.isSystem && m.createdAt == now
  {
    ChatMessage(eventId, t, OrNull(committeeId), sender, text, false, now)
  }

  /** The log is in strictly increasing `createdAt` order and every stamp predates `clock`. */
  ghost predicate Chronological(ms: seq<ChatMessage>, clock: nat) {
    && (forall i, j :: 0 <= i < j < |ms| ==> ms[i].createdAt < ms[j].createdAt)
    && (forall i :: 0 <= i < |ms| ==> ms[i].createdAt < clock)
  }

  /** Appending a message stamped with the clock, then advancing the clock, keeps the log chronological. */
  lemma AppendKeepsChronological(ms: seq<ChatMessage>, clock: nat, m: ChatMessage)
    requires Chronological(ms, clock) && m.createdAt == clock
    ensures Chronological(ms + [m], clock + 1)
  {
  }
}

=== FILE: committee_controller.dfy ===
/** The committee handlers: createCommittee, getCommittees, assignSubHead,
    joinCommittees (with the event's join limit), removeVolunteer and deleteCommittee. */
module CommitteeController {
  import opened Ids
  import opened Outcomes
  import opened EventModel
  import opened CommitteeModel
  import opened Store
  import Seqs
  import Text

  /** `createCommittee` (head only). The name is stored trimmed, and the duplicate
      lookup sees the trimmed name too. */
  function CreateCommittee(st: State, actor: UserId, eventId: EventId, name: string, description: string, newId: CommitteeId): (r: Reply<CommitteeId>)
    requires newId !in st.committees
    ensures eventId == "" || name == "" ==> r.out.Is(BadRequest)
    ensures eventId != "" && name != "" && eventId !in st.events ==> r.out.Is(NotFound)
    ensures eventId != "" && name != "" && eventId in st.events && st.events[eventId].head != actor ==> r.out.Is(Forbidden)
    ensures (eventId != "" && name != "" && eventId in st.events && st.events[eventId].head == actor
             && NameTaken(st.committees, eventId, Text.Trim(name))) ==> r.out.Is(BadRequest)
    ensures r.out.Fail? ==> r.st == st
    ensures r.out.Ok? <==>
      && eventId != "" && name != "" && eventId in st.events && st.events[eventId].head == actor
      && !NameTaken(st.committees, eventId, Text.Trim(name))
      && ValidCommitteeFields(Text.Trim(name), description)
    ensures r.out.Ok? ==>
      && r.out.value == newId && r.st == st.(committees := r.st.committees)
      && r.st.committees.Keys == st.committees.Keys + {newId}
      && (forall c :: c in st.committees ==> r.st.committees[c] == st.committees[c])
      && var c := r.st.committees[newId];
         c.eventId == eventId && c.name == Text.Trim(name) && c.description == description
         && c.subHead.None? && c.volunteers == [] && c.isActive
  {
    if eventId == "" || name == "" then Reject(st, BadRequest, "Event ID and committee name are required")
    else if eventId !in st.events then Reject(st, NotFound, "Event not found")
    else if st.events[eventId].head != actor then Reject(st, Forbidden, "Only Event Head can create committees")
    else
      var trimmed := Text.Trim(name);
      if NameTaken(st.committees, eventId, trimmed) then Reject(st, BadRequest, "A committee with this name already exists")
      else if !ValidCommitteeFields(trimmed, description) then Reject(st, ServerError, "Committee validation failed")
      else Reply(Ok(newId), st.(committees := st.committees[newId := NewCommittee(eventId, trimmed, description)]))
  }

  /** `getCommittees`: the active committees of the event. */
  function GetCommittees(st: State, eventId: EventId): (r: map<CommitteeId, Committee>)
    ensures forall c :: c in r <==> c in st.committees && st.committees[c].eventId == eventId && st.committees[c].isActive
    ensures forall c :: c in r ==> r[c] == st.committees[c]
  {
    map c | c in st.committees && st.committees[c].eventId == eventId && st.committees[c].isActive :: st.committees[c]
  }

  /** A created committee is listed for its event at once. */
  lemma CreatedCommitteeIsListed(st: State, actor: UserId, eventId: EventId, name: string, description: string, newId: CommitteeId)
    requires newId !in st.committees
    requires CreateCommittee(st, actor, eventId, name, description, newId).out.Ok?
    ensures newId in GetCommittees(CreateCommittee(st, actor, eventId, name, description, newId).st, eventId)
  {
  }

  /** Creating a committee lists it for its event at once, beside the committees
      listed before; the listing of every other event stays as it was. */
  lemma CreateExtendsListing(st: State, actor: UserId, eventId: EventId, name: string, description: string, newId: CommitteeId, e: EventId)
    requires newId !in st.committees
    requires CreateCommittee(st, actor, eventId, name, description, newId).out.Ok?
    ensures var after := CreateCommittee(st, actor, eventId, name, description, newId).st;
      GetCommittees(after, e) ==
        if e == eventId then GetCommittees(st, e)[newId := after.committees[newId]] else GetCommittees(st, e)
  {
  }

  /** Deleting a committee removes exactly it from every listing. */
  lemma DeleteShrinksListing(st: State, actor: UserId, committeeId: CommitteeId, e: EventId)
    requires DeleteCommittee(st, actor, committeeId).out.Ok?
    ensures GetCommittees(DeleteCommittee(st, actor, committeeId).st, e) == GetCommittees(st, e) - {committeeId}
  {
  }

  /** The entry rewrite of assignSubHead: the first entry of `u` becomes a
      sub-head entry of committee `c`; nothing when `u` has no entry. */
  function Promote(ps: seq<Participant>, u: UserId, c: CommitteeId): (r: Option<seq<Participant>>)
    ensures r.Some? <==> IsParticipant(ps, u)
    ensures r.Some? ==>
      var i := FirstIndex(ps, u).value;
      var ps' := r.value;
      && |ps'| == |ps|
      && ps'[i] == ps[i].(role := Subhead, committeeId := Some(c))
      && (forall k :: 0 <= k < |ps| && k != i ==> ps'[k] == ps[k])
      && FirstIndex(ps', u) == Some(i)
      && GetParticipantRole(ps', u) == Some(Subhead)
  {
    match FirstIndex(ps, u)
    case None => None
    case Some(i) =>
      var ps' := ps[i := ps[i].(role := Subhead, committeeId := Some(c))];
      FirstIndexAt(ps', u, i);
      Some(ps')
  }

  /** `assignSubHead` (head only): the user's first entry becomes a subhead entry
      tied to the committee, and the committee records the user as its sub-head.
      Neither the committee's previous sub-head nor the user's previous committee is cleared. */
  function AssignSubHead(st: State, actor: UserId, committeeId: CommitteeId, userId: UserId): (r: Reply<()>)
    ensures committeeId !in st.committees ==> r.out.Is(NotFound)
    ensures committeeId in st.committees && st.committees[committeeId].eventId !in st.events ==> r.out.Is(ServerError)
    ensures (committeeId in st.committees && st.committees[committeeId].eventId in st.events
             && st.events[st.committees[committeeId].eventId].head != actor) ==> r.out.Is(Forbidden)
    ensures (committeeId in st.committees && st.committees[committeeId].eventId in st.events
             && st.events[st.committees[committeeId].eventId].head == actor
             && !IsParticipant(st.events[st.committees[committeeId].eventId].participants, userId)) ==> r.out.Is(BadRequest)
    ensures r.out.Fail? ==> r.st == st
    ensures r.out.Ok? <==>
      && committeeId in st.committees && st.committees[committeeId].eventId in st.events
      && st.events[st.committees[committeeId].eventId].head == actor
      && IsParticipant(st.events[st.committees[committeeId].eventId].participants, userId)
    ensures r.out.Ok? ==> st.committees[committeeId].eventId in r.st.events
    ensures r.out.Ok? ==>
      var eventId := st.committees[committeeId].eventId;
      var ps := st.events[eventId].participants;
      var i := FirstIndex(ps, userId).value;
      var ps' := r.st.events[eventId].participants;
      && r.st == st.(events := r.st.events, committees := r.st.committees)
      && r.st.committees == st.committees[committeeId := st.committees[committeeId].(subHead := Some(userId))]
      && r.st.events == st.events[eventId := st.events[eventId].(participants := ps')]
      && |ps'| == |ps|
      && ps'[i] == ps[i].(role := Subhead, committeeId := Some(committeeId))
      && (forall k :: 0 <= k < |ps| && k != i ==> ps'[k] == ps[k])
      && GetParticipantRole(ps', userId) == Some(Subhead)
  {
    if committeeId !in st.committees then Reject(st, NotFound, "Committee not found")
    else
      var c := st.committees[committeeId];
      if c.eventId !in st.events then Reject(st, ServerError, "Cannot read properties of null")
      else
        var ev := st.events[c.eventId];
        if ev.head != actor then Reject(st, Forbidden, "Only Event Head can assign sub-heads")
        else
          match Promote(ev.participants, userId, committeeId)
          case None => Reject(st, BadRequest, "User is not a participant of this event")
          case Some(ps') =>
            Reply(Ok(()), st.(events := st.events[c.eventId := ev.(participants := ps')],
                              committees := st.committees[committeeId := c.(subHead := Some(userId))]))
  }

  /** The `maxAllowed` of joinCommittees: one, two, or 999 for `multiple`. */
  function MaxAllowed(l: JoinLimit): (n: nat)
    ensures n >= 1
    ensures l == One ==> n == 1
    ensures l == Two ==> n == 2
    ensures l == Multiple ==> n == 999
  {
    match l
    case One => 1
    case Two => 2
    case Multiple => 999
  }

  /** The join loop of joinCommittees: every listed committee of the event that
      does not list `u` yet gets `u` appended; unknown ids and other events'
      committees are skipped. Returns the new committees and the ids newly joined. */
  function JoinEach(cs: map<CommitteeId, Committee>, eventId: EventId, u: UserId, ids: seq<CommitteeId>): (r: (map<CommitteeId, Committee>, seq<CommitteeId>))
    ensures r.0.Keys == cs.Keys
    ensures forall c :: c in cs && c in ids && cs[c].eventId == eventId ==>
      r.0[c] == cs[c].(volunteers := Enlist(cs[c].volunteers, u))
    ensures forall c :: c in cs && (c !in ids || cs[c].eventId != eventId) ==> r.0[c] == cs[c]
    ensures forall c :: c in r.1 <==> c in ids && c in cs && cs[c].eventId == eventId && u !in cs[c].volunteers
    decreases |ids|
  {
    if |ids| == 0 then (cs, [])
    else
      var cid := ids[0];
      var step := cid in cs && cs[cid].eventId == eventId && u !in cs[cid].volunteers;
      var cs1 := if step then cs[cid := cs[cid].(volunteers := cs[cid].volunteers + [u])] else cs;
      var rest := JoinEach(cs1, eventId, u, ids[1..]);
      assert ids == [cid] + ids[1..];
      (rest.0, (if step then [cid] else []) + rest.1)
  }

  /** The committees of the event `u` would be in after joining `ids`. */
  function Reach(cs: map<CommitteeId, Committee>, eventId: EventId, ids: seq<CommitteeId>): (r: set<CommitteeId>)
    ensures forall c :: c in r <==> c in ids && c in cs && cs[c].eventId == eventId
  {
    set c | c in ids && c in cs && cs[c].eventId == eventId
  }

  /** After the join loop, `u` is in exactly the event's committees it was in, plus
      the listed ones of that event. */
  lemma JoinEachCommittees(cs: map<CommitteeId, Committee>, eventId: EventId, u: UserId, ids: seq<CommitteeId>)
    ensures CommitteesOf(JoinEach(cs, eventId, u, ids).0, eventId, u) == CommitteesOf(cs, eventId, u) + Reach(cs, eventId, ids)
  {
  }

  /** The ids joinCommittees counts against the limit: every listed id `u` is not
      already in, repeats and ids of no committee included. */
  function Counted(cs: map<CommitteeId, Committee>, eventId: EventId, u: UserId, ids: seq<CommitteeId>): (r: seq<CommitteeId>)
    ensures |r| <= |ids|
    ensures forall c :: c in r <==> c in ids && c !in CommitteesOf(cs, eventId, u)
    ensures forall c :: multiset(r)[c] == if c in CommitteesOf(cs, eventId, u) then 0 else multiset(ids)[c]
    ensures (forall c :: c in ids ==> c !in CommitteesOf(cs, eventId, u)) ==> r == ids
  {
    var p := (c: CommitteeId) => c !in CommitteesOf(cs, eventId, u);
    if forall c :: c in ids ==> c !in CommitteesOf(cs, eventId, u) then
      Seqs.FilterKeepsAll(ids, p);
      Seqs.Filter(ids, p)
    else Seqs.Filter(ids, p)
  }

  /** `joinCommittees`: an instant join of the listed committees, all or nothing
      with respect to the limit. The count that is checked is the committees the
      user is in plus every listed id not among them, duplicates and unknown ids
      included. Only a subhead entry is barred. */
  function JoinCommittees(st: State, actor: UserId, eventId: EventId, committeeIds: Option<seq<CommitteeId>>): (r: Reply<seq<CommitteeId>>)
    ensures eventId == "" || committeeIds.None? ==> r.out.Is(BadRequest)
    ensures eventId != "" && committeeIds.Some? && eventId !in st.events ==> r.out.Is(NotFound)
    ensures (eventId != "" && committeeIds.Some? && eventId in st.events &&
      GetParticipantRole(st.events[eventId].participants, actor) in {None, Some(Subhead)}) ==> r.out.Is(Forbidden)
    ensures r.out.Fail? ==> r.st == st
    ensures r.out.Ok? <==>
      && eventId != "" && committeeIds.Some? && eventId in st.events
      && GetParticipantRole(st.events[eventId].participants, actor) in {Some(Head), Some(Volunteer)}
      && |CommitteesOf(st.committees, eventId, actor)| + |Counted(st.committees, eventId, actor, committeeIds.value)|
         <= MaxAllowed(st.events[eventId].joinLimit)
    ensures (eventId != "" && committeeIds.Some? && eventId in st.events &&
      GetParticipantRole(st.events[eventId].participants, actor) in {Some(Head), Some(Volunteer)} && r.out.Fail?) ==>
      r.out.Is(BadRequest)
    ensures r.out.Ok? ==>
      && r.st == st.(committees := JoinEach(st.committees, eventId, actor, committeeIds.value).0)
      && CommitteesOf(r.st.committees, eventId, actor) ==
         CommitteesOf(st.committees, eventId, actor) + Reach(st.committees, eventId, committeeIds.value)
      && (forall c :: c in r.out.value <==>
            c in Reach(st.committees, eventId, committeeIds.value) && c !in CommitteesOf(st.committees, eventId, actor))
  {
    if eventId == "" || committeeIds.None? then Reject(st, BadRequest, "eventId and committeeIds array are required")
    else if eventId !in st.events then Reject(st, NotFound, "Event not found")
    else
      var ev := st.events[eventId];
      match FindParticipant(ev.participants, actor)
      case None => Reject(st, Forbidden, "You are not a participant of this event")
      case Some(p) =>
        if p.role == Subhead then Reject(st, Forbidden, "Sub-heads cannot join committees. You are assigned to your committee.")
        else
          var ids := committeeIds.value;
          var current := CommitteesOf(st.committees, eventId, actor);
          if |current| + |Counted(st.committees, eventId, actor, ids)| > MaxAllowed(ev.joinLimit) then Reject(st, BadRequest, "Committee join limit reached")
          else
            var (cs', joined) := JoinEach(st.committees, eventId, actor, ids);
            JoinEachCommittees(st.committees, eventId, actor, ids);
            Reply(Ok(joined), st.(committees := cs'))
  }

  /** The join limit holds after every successful join: the user is then in at
      most `maxAllowed` committees of the event. */
  lemma JoinRespectsLimit(st: State, actor: UserId, eventId: EventId, committeeIds: Option<seq<CommitteeId>>)
    requires JoinCommittees(st, actor, eventId, committeeIds).out.Ok?
    ensures |CommitteesOf(JoinCommittees(st, actor, eventId, committeeIds).st.committees, eventId, actor)|
            <= MaxAllowed(st.events[eventId].joinLimit)
  {
    var ids := committeeIds.value;
    var current := CommitteesOf(st.committees, eventId, actor);
    var newJoins := Counted(st.committees, eventId, actor, ids);
    var reach := Reach(st.committees, eventId, ids);
    assert reach - current <= Seqs.Elems(newJoins);
    Seqs.UnionBound(current, reach, newJoins);
  }

  /** `removeVolunteer`: the head, or whoever the committee names as sub-head,
      pulls `userId` from the volunteers. */
  function RemoveVolunteer(st: State, actor: UserId, committeeId: CommitteeId, userId: UserId): (r: Reply<()>)
    ensures committeeId !in st.committees ==> r.out.Is(NotFound)
    ensures committeeId in st.committees && st.committees[committeeId].eventId !in st.events ==> r.out.Is(ServerError)
    ensures (committeeId in st.committees && st.committees[committeeId].eventId in st.events
             && st.events[st.committees[committeeId].eventId].head != actor
             && st.committees[committeeId].subHead != Some(actor)) ==> r.out.Is(Forbidden)
    ensures r.out.Fail? ==> r.st == st
    ensures r.out.Ok? <==>
      && committeeId in st.committees && st.committees[committeeId].eventId in st.events
      && (st.events[st.committees[committeeId].eventId].head == actor || st.committees[committeeId].subHead == Some(actor))
    ensures r.out.Ok? ==>
      && r.st == st.(committees := r.st.committees)
      && r.st.committees.Keys == st.committees.Keys
      && (forall c :: c in st.committees && c != committeeId ==> r.st.committees[c] == st.committees[c])
      && r.st.committees[committeeId] == st.committees[committeeId].(volunteers := r.st.committees[committeeId].volunteers)
      && r.st.committees[committeeId].volunteers == Pull(st.committees[committeeId].volunteers, userId)
      && userId !in r.st.committees[committeeId].volunteers
      && (forall v :: v != userId ==> (v in r.st.committees[committeeId].volunteers <==> v in st.committees[committeeId].volunteers))
  {
    if committeeId !in st.committees then Reject(st, NotFound, "Committee not found")
    else
      var c := st.committees[committeeId];
      if c.eventId !in st.events then Reject(st, ServerError, "Cannot read properties of null")
      else
        var isHead := st.events[c.eventId].head == actor;
        var isSubhead := c.subHead == Some(actor);
        if !isHead && !isSubhead then Reject(st, Forbidden, "Only Head or Sub-head can remove volunteers")
        else Reply(Ok(()), st.(committees := st.committees[committeeId := c.(volunteers := Pull(c.volunteers, userId))]))
  }

  /** `deleteCommittee` (head only). Participant entries that point at the committee are left as they are. */
  function DeleteCommittee(st: State, actor: UserId, committeeId: CommitteeId): (r: Reply<()>)
    ensures committeeId !in st.committees ==> r.out.Is(NotFound)
    ensures committeeId in st.committees && st.committees[committeeId].eventId !in st.events ==> r.out.Is(ServerError)
    ensures (committeeId in st.committees && st.committees[committeeId].eventId in st.events
             && st.events[st.committees[committeeId].eventId].head != actor) ==> r.out.Is(Forbidden)
    ensures r.out.Fail? ==> r.st == st
    ensures r.out.Ok? <==>
      committeeId in st.committees && st.committees[committeeId].eventId in st.events
      && st.events[st.committees[committeeId].eventId].head == actor
    ensures r.out.Ok? ==>
      && r.st == st.(committees := r.st.committees)
      && r.st.committees.Keys == st.committees.Keys - {committeeId}
      && (forall c :: c in r.st.committees ==> r.st.committees[c] == st.committees[c])
  {
    if committeeId !in st.committees then Reject(st, NotFound, "Committee not found")
    else
      var c := st.committees[committeeId];
      if c.eventId !in st.events then Reject(st, ServerError, "Cannot read properties of null")
      else if st.events[c.eventId].head != actor then Reject(st, Forbidden, "Only Event Head can delete committees")
      else Reply(Ok(()), st.(committees := st.committees - {committeeId}))
  }

  /** A deleted committee is no longer listed, and no one is in it any more. */
  lemma DeletedCommitteeIsGone(st: State, actor: UserId, committeeId: CommitteeId, eventId: EventId, u: UserId)
    requires DeleteCommittee(st, actor, committeeId).out.Ok?
    ensures committeeId !in GetCommittees(DeleteCommittee(st, actor, committeeId).st, eventId)
    ensures committeeId !in CommitteesOf(DeleteCommittee(st, actor, committeeId).st.committees, eventId, u)
  {
  }

  lemma CreateCommitteePreservesValid(st: State, actor: UserId, eventId: EventId, name: string, description: string, newId: CommitteeId)
    requires Valid(st) && newId !in st.committees
    ensures Valid(CreateCommittee(st, actor, eventId, name, description, newId).st)
  {
    var r := CreateCommittee(st, actor, eventId, name, description, newId);
    if r.out.Ok? {
      var c := r.st.committees[newId];
      assert r.st.committees == st.committees[newId := c];
      InsertKeepsNamesUnique(st.committees, newId, c);
      assert AllCommitteesWellFormed(r.st.committees);
      CommitteesStepValid(st, r.st.committees);
    } else {
      assert r.st == st;
    }
  }

  lemma AssignSubHeadPreservesValid(st: State, actor: UserId, committeeId: CommitteeId, userId: UserId)
    requires Valid(st)
    ensures Valid(AssignSubHead(st, actor, committeeId, userId).st)
  {
    var r := AssignSubHead(st, actor, committeeId, userId);
    if r.out.Ok? {
      var c := st.committees[committeeId];
      var ev := st.events[c.eventId];
      var i := FirstIndex(ev.participants, userId).value;
      var p := ev.participants[i].(role := Subhead, committeeId := Some(committeeId));
      var ev' := ev.(participants := ev.participants[i := p]);
      RewriteEntryWellFormed(ev, i, p);
      UpdateEventValid(st, c.eventId, ev', st.clock);
      var s1 := st.(events := st.events[c.eventId := ev'], clock := st.clock);
      ReplaceCommitteeValid(s1, committeeId, c.(subHead := Some(userId)));
      CommitteesStepValid(s1, s1.committees[committeeId := c.(subHead := Some(userId))]);
      assert r.st == s1.(committees := s1.committees[committeeId := c.(subHead := Some(userId))]);
    } else {
      assert r.st == st;
    }
  }

  /** The join loop keeps every committee well formed and the names unique. */
  lemma JoinEachWellFormed(cs: map<CommitteeId, Committee>, eventId: EventId, u: UserId, ids: seq<CommitteeId>)
    requires AllCommitteesWellFormed(cs)
    ensures AllCommitteesWellFormed(JoinEach(cs, eventId, u, ids).0)
  {
    var cs' := JoinEach(cs, eventId, u, ids).0;
    forall c | c in cs'
      ensures CommitteeWellFormed(cs'[c])
    {
      if c in ids && cs[c].eventId == eventId {
        EnlistPreservesNoDup(cs[c].volunteers, u);
      }
    }
    SameNamesKeepUnique(cs, cs');
  }

  lemma JoinCommitteesPreservesValid(st: State, actor: UserId, eventId: EventId, committeeIds: Option<seq<CommitteeId>>)
    requires Valid(st)
    ensures Valid(JoinCommittees(st, actor, eventId, committeeIds).st)
  {
    var r := JoinCommittees(st, actor, eventId, committeeIds);
    if r.out.Ok? {
      var cs' := JoinEach(st.committees, eventId, actor, committeeIds.value).0;
      JoinEachWellFormed(st.committees, eventId, actor, committeeIds.value);
      CommitteesStepValid(st, cs');
    } else {
      assert r.st == st;
    }
  }

  lemma RemoveVolunteerPreservesValid(st: State, actor: UserId, committeeId: CommitteeId, userId: UserId)
    requires Valid(st)
    ensures Valid(RemoveVolunteer(st, actor, committeeId, userId).st)
  {
    var r := RemoveVolunteer(st, actor, committeeId, userId);
    if r.out.Ok? {
      var c := st.committees[committeeId];
      var cs' := r.st.committees;
      PullPreservesNoDup(c.volunteers, userId);
      SameNamesKeepUnique(st.committees, cs');
      assert AllCommitteesWellFormed(cs');
      CommitteesStepValid(st, cs');
    } else {
      assert r.st == st;
    }
  }

  lemma DeleteCommitteePreservesValid(st: State, actor: UserId, committeeId: CommitteeId)
    requires Valid(st)
    ensures Valid(DeleteCommittee(st, actor, committeeId).st)
  {
    var r := DeleteCommittee(st, actor, committeeId);
    if r.out.Ok? {
      var cs' := st.committees - {committeeId};
      SameNamesKeepUnique(st.committees, cs');
      assert AllCommitteesWellFormed(cs');
      CommitteesStepValid(st, cs');
      assert r.st == st.(committees := cs');
    } else {
      assert r.st == st;
    }
  }
}

=== FILE: committee_model.dfy ===
/** The Committee document: its schema defaults, its volunteer list and the
    unique (eventId, name) index. */
module CommitteeModel {
  import opened Ids
  import opened Outcomes
  import Seqs

  datatype Committee = Committee(
    eventId: EventId,
    name: string,
    description: string,
    subHead: Option<UserId>,
    volunteers: seq<UserId>,
    isActive: bool)

  /** `new Committee({eventId, name, description})`: the schema supplies no
      sub-head, no volunteers and isActive = true. */
  function NewCommittee(eventId: EventId, name: string, description: string): (c: Committee)
    ensures c.eventId == eventId && c.name == name && c.description == description
    ensures c.subHead.None? && c.volunteers == [] && c.isActive
  {
    Committee(eventId, name, description, None, [], true)
  }

  /** Length limits of the schema: a required name of at most 100 characters
      and a description of at most 500. */
  predicate ValidCommitteeFields(name: string, description: string) {
    0 < |name| <= 100 && |description| <= 500
  }

  predicate NoDup(vs: seq<UserId>) {
    forall i, j :: 0 <= i < j < |vs| ==> vs[i] != vs[j]
  }

  function Except(u: UserId): UserId -> bool {
    (v: UserId) => v != u
  }

  /** `$pull: {volunteers: u}`, equally `volunteers.filter((v) => v !== u)`:
      every occurrence of `u` goes, the others stay in order. */
  function Pull(vs: seq<UserId>, u: UserId): (r: seq<UserId>)
    ensures u !in r
    ensures forall v :: v != u ==> (v in r <==> v in vs)
    ensures forall v :: multiset(r)[v] == if v == u then 0 else multiset(vs)[v]
  {
    Seqs.Filter(vs, Except(u))
  }

  lemma PullAbsentIsNoop(vs: seq<UserId>, u: UserId)
    requires u !in vs
    ensures Pull(vs, u) == vs
  {
    Seqs.FilterKeepsAll(vs, Except(u));
  }

  /** Pulling twice is pulling once. */
  lemma PullIdempotent(vs: seq<UserId>, u: UserId)
    ensures Pull(Pull(vs, u), u) == Pull(vs, u)
  {
    PullAbsentIsNoop(Pull(vs, u), u);
  }

  lemma {:induction false} PullPreservesNoDup(vs: seq<UserId>, u: UserId)
    requires NoDup(vs)
    ensures NoDup(Pull(vs, u))
  {
    if |vs| > 0 {
      TailNoDup(vs);
      PullPreservesNoDup(vs[1..], u);
      Seqs.FilterCons(vs, Except(u));
      if vs[0] != u {
        ConsNoDup(vs[0], Pull(vs[1..], u));
      }
    }
  }

  lemma TailNoDup(vs: seq<UserId>)
    requires NoDup(vs) && |vs| > 0
    ensures NoDup(vs[1..]) && vs[0] !in vs[1..]
  {
    var tail := vs[1..];
    forall i, j | 0 <= i < j < |tail| ensures tail[i] != tail[j] {
      assert tail[i] == vs[i + 1] && tail[j] == vs[j + 1];
    }
  }

  lemma ConsNoDup(x: UserId, t: seq<UserId>)
    requires NoDup(t) && x !in t
    ensures NoDup([x] + t)
  {
    forall i, j | 0 <= i < j < |[x] + t| ensures ([x] + t)[i] != ([x] + t)[j] {
      assert ([x] + t)[j] == t[j - 1];
      if i > 0 {
        assert ([x] + t)[i] == t[i - 1];
      }
    }
  }

  /** The volunteer push of joinCommittees, guarded by its `alreadyIn` test. */
  function Enlist(vs: seq<UserId>, u: UserId): (r: seq<UserId>)
    ensures u in r
    ensures u in vs ==> r == vs
    ensures u !in vs ==> r == vs + [u]
  {
    if u in vs then vs else vs + [u]
  }

  lemma EnlistPreservesNoDup(vs: seq<UserId>, u: UserId)
    requires NoDup(vs)
    ensures NoDup(Enlist(vs, u))
  {
  }

  /** The committee's sub-head or one of its volunteers. */
  predicate InCommittee(c: Committee, u: UserId) {
    c.subHead == Some(u) || u in c.volunteers
  }

  /** The unique index on (eventId, name). */
  ghost predicate NamesUniquePerEvent(cs: map<CommitteeId, Committee>) {
    forall a, b :: a in cs && b in cs && a != b && cs[a].eventId == cs[b].eventId ==> cs[a].name != cs[b].name
  }

  /** `Committee.findOne({eventId, name})` finds a document. */
  predicate NameTaken(cs: map<CommitteeId, Committee>, eventId: EventId, name: string) {
    exists c :: c in cs && cs[c].eventId == eventId && cs[c].name == name
  }

  /** Adding a committee whose name is free in its event keeps the index unique. */
  lemma InsertKeepsNamesUnique(cs: map<CommitteeId, Committee>, id: CommitteeId, c: Committee)
    requires NamesUniquePerEvent(cs)
    requires id !in cs && !NameTaken(cs, c.eventId, c.name)
    ensures NamesUniquePerEvent(cs[id := c])
  {
  }

  /** Dropping committees, or changing anything but their event and name, keeps the index unique. */
  lemma SameNamesKeepUnique(cs: map<CommitteeId, Committee>, cs': map<CommitteeId, Committee>)
    requires NamesUniquePerEvent(cs)
    requires cs'.Keys <= cs.Keys
    requires forall c :: c in cs' ==> cs'[c].eventId == cs[c].eventId && cs'[c].name == cs[c].name
    ensures NamesUniquePerEvent(cs')
  {
  }

  /** `Committee.find({eventId, volunteers: u})`: the committees of the event that list `u`. */
  function CommitteesOf(cs: map<CommitteeId, Committee>, eventId: EventId, u: UserId): (r: set<CommitteeId>)
    ensures forall c :: c in r <==> c in cs && cs[c].eventId == eventId && u in cs[c].volunteers
  {
    set c | c in cs && cs[c].eventId == eventId && u in cs[c].volunteers
  }
}

=== FILE: event_controller.dfy ===
/** The event handlers: createEvent, joinEvent, removeParticipant, getVolunteers,
    getMyEvents and the roster filter of exportVolunteersPDF. */
module EventController {
  import opened Ids
  import opened Outcomes
  import opened EventModel
  import opened CommitteeModel
  import opened Store
  import Text
  import AuthMiddleware

  datatype CreateEventRequest = CreateEventRequest(
    title: string,
    description: string,
    eventType: string,
    hasCommittees: bool,
    committeeJoinLimit: string)

  /** `x || fallback` on a request string. */
  function OrDefault(s: string, fallback: string): string {
    if s == "" then fallback else s
  }

  /** The document `createEvent` builds, or None when schema validation rejects it:
      the title trimmed, the type defaulting to small and the join limit to multiple. */
  function Draft(actor: UserId, req: CreateEventRequest, key: string, now: nat): (r: Option<Event>)
    ensures r.Some? <==>
      && ValidEventFields(Text.Trim(req.title), req.description)
      && ParseEventType(OrDefault(req.eventType, "small")).Some?
      && ParseJoinLimit(OrDefault(req.committeeJoinLimit, "multiple")).Some?
    ensures r.Some? ==>
      && r.value.title == Text.Trim(req.title) && r.value.description == req.description
      && r.value.head == actor && r.value.code == key && r.value.createdAt == now
      && |r.value.participants| == 1 && r.value.participants[0].userId == actor && r.value.participants[0].role == Head
      && r.value.hasCommittees == req.hasCommittees && r.value.isActive
      && EventTypeName(r.value.eventType) == OrDefault(req.eventType, "small")
      && JoinLimitName(r.value.joinLimit) == OrDefault(req.committeeJoinLimit, "multiple")
  {
    var title := Text.Trim(req.title);
    var eventType := ParseEventType(OrDefault(req.eventType, "small"));
    var limit := ParseJoinLimit(OrDefault(req.committeeJoinLimit, "multiple"));
    if eventType.None? || limit.None? || !ValidEventFields(title, req.description) then None
    else Some(Event(title, req.description, key, eventType.value, req.hasCommittees, limit.value,
                    actor, FoundingList(actor, now), true, now))
  }

  /** `createEvent`. `newId` is the id the database assigns and `code` the
      generated event code. */
  function CreateEvent(st: State, actor: UserId, req: CreateEventRequest, newId: EventId, code: string): (r: Reply<EventId>)
    requires newId !in st.events
    ensures req.title == "" ==> r.out.Is(BadRequest) && r.st == st
    ensures r.out.Fail? ==> r.st == st
    ensures r.out.Ok? <==> req.title != "" && Draft(actor, req, Text.Upper(code), st.clock).Some? && Text.Upper(code) !in st.codes
    ensures r.out.Ok? ==>
      && r.out.value == newId && newId in r.st.events
      && Text.Upper(code) in r.st.codes && r.st.codes[Text.Upper(code)] == newId
      && r.st.events[newId] == Draft(actor, req, Text.Upper(code), st.clock).value
    ensures r.out.Ok? ==>
      r.st == st.(events := st.events[newId := r.st.events[newId]], codes := st.codes[Text.Upper(code) := newId], clock := st.clock + 1)
  {
    if req.title == "" then Reject(st, BadRequest, "Event title is required")
    else
      var key := Text.Upper(code);
      match Draft(actor, req, key, st.clock)
      case None => Reject(st, ServerError, "Event validation failed")
      case Some(ev) =>
        if key in st.codes then Reject(st, ServerError, "Duplicate event code")
        else Reply(Ok(newId), st.(events := st.events[newId := ev], codes := st.codes[key := newId], clock := st.clock + 1))
  }

  /** Omitted type and join limit take their defaults, and the accepted spellings are exactly the enum names. */
  lemma DraftDefaults(actor: UserId, req: CreateEventRequest, key: string, now: nat)
    requires ValidEventFields(Text.Trim(req.title), req.description)
    ensures Draft(actor, req, key, now).Some? <==>
      (req.eventType == "" || ParseEventType(req.eventType).Some?) && (req.committeeJoinLimit == "" || ParseJoinLimit(req.committeeJoinLimit).Some?)
    ensures req.eventType == "" && req.committeeJoinLimit == "" ==>
      Draft(actor, req, key, now).Some? && Draft(actor, req, key, now).value.eventType == Small && Draft(actor, req, key, now).value.joinLimit == Multiple
  {
  }

  /** `Event.findOne({eventCode: code.toUpperCase()})` through the unique code index. */
  function FindByCode(st: State, code: string): (r: Option<EventId>)
    ensures r.Some? ==> r.value in st.events
  {
    var key := Text.Upper(code);
    if key in st.codes && st.codes[key] in st.events then Some(st.codes[key]) else None
  }

  /** `joinEvent`: an instant join as volunteer through the event code. */
  function JoinEvent(st: State, actor: UserId, code: string): (r: Reply<EventId>)
    ensures code == "" ==> r.out.Is(BadRequest)
    ensures code != "" && FindByCode(st, code).None? ==> r.out.Is(NotFound)
    ensures code != "" && FindByCode(st, code).Some? && !st.events[FindByCode(st, code).value].isActive ==> r.out.Is(BadRequest)
    ensures r.out.Fail? ==> r.st == st
    ensures r.out.Ok? <==> code != "" && FindByCode(st, code).Some? && st.events[FindByCode(st, code).value].isActive
    ensures r.out.Ok? ==>
      var id := FindByCode(st, code).value;
      var ps := st.events[id].participants;
      && r.out.value == id && id in r.st.events
      && IsParticipant(r.st.events[id].participants, actor)
      && (IsParticipant(ps, actor) ==> r.st == st)
      && (!IsParticipant(ps, actor) ==>
            r.st == st.(events := st.events[id := st.events[id].(participants := ps + [Participant(actor, Volunteer, None, st.clock)])],
                        clock := st.clock + 1))
    ensures r.out.Ok? ==> forall e :: e in st.events && e != r.out.value ==> e in r.st.events && r.st.events[e] == st.events[e]
    ensures r.st.events.Keys == st.events.Keys && r.st.committees == st.committees && r.st.codes == st.codes
  {
    if code == "" then Reject(st, BadRequest, "Event code is required")
    else
      match FindByCode(st, code)
      case None => Reject(st, NotFound, "Event not found. Check the code and try again.")
      case Some(id) =>
        var ev := st.events[id];
        if !ev.isActive then Reject(st, BadRequest, "This event is no longer active")
        else if exists i :: 0 <= i < |ev.participants| && ev.participants[i].userId == actor then
          Reply(Ok(id), st)
        else
          var ev' := ev.(participants := AddParticipant(ev.participants, actor, Volunteer, st.clock));
          Reply(Ok(id), st.(events := st.events[id := ev'], clock := st.clock + 1))
  }

  /** The code is matched case-insensitively: codes that upper-case alike join the same event the same way. */
  lemma JoinCaseInsensitive(st: State, actor: UserId, c1: string, c2: string)
    requires c1 != "" && c2 != "" && Text.Upper(c1) == Text.Upper(c2)
    ensures JoinEvent(st, actor, c1) == JoinEvent(st, actor, c2)
  {
  }

  /** Joining twice is joining once. */
  lemma JoinIdempotent(st: State, actor: UserId, code: string)
    requires JoinEvent(st, actor, code).out.Ok?
    ensures JoinEvent(JoinEvent(st, actor, code).st, actor, code) == Reply(JoinEvent(st, actor, code).out, JoinEvent(st, actor, code).st)
  {
    var r := JoinEvent(st, actor, code);
    assert FindByCode(r.st, code) == FindByCode(st, code);
  }

  /** The committees of the event with every occurrence of `u` pulled from their volunteers. */
  function PurgeVolunteer(cs: map<CommitteeId, Committee>, eventId: EventId, u: UserId): (r: map<CommitteeId, Committee>)
    ensures r.Keys == cs.Keys
    ensures forall c :: c in cs && cs[c].eventId == eventId ==> u !in r[c].volunteers
    ensures forall c :: c in cs ==> r[c] == cs[c].(volunteers := r[c].volunteers)
    ensures forall c :: c in cs && cs[c].eventId != eventId ==> r[c] == cs[c]
    ensures forall c, v :: c in cs && v != u ==> (v in r[c].volunteers <==> v in cs[c].volunteers)
    ensures forall c :: c in cs && cs[c].eventId == eventId ==> r[c].volunteers == Pull(cs[c].volunteers, u)
  {
    map c | c in cs :: if cs[c].eventId == eventId then cs[c].(volunteers := Pull(cs[c].volunteers, u)) else cs[c]
  }

  /** `removeParticipant` (head only): the user leaves the participants and every committee of the event. */
  function RemoveFromEvent(st: State, actor: UserId, eventId: EventId, target: UserId): (r: Reply<()>)
    ensures eventId !in st.events ==> r.out.Is(NotFound)
    ensures eventId in st.events && st.events[eventId].head != actor ==> r.out.Is(Forbidden)
    ensures eventId in st.events && st.events[eventId].head == actor && target == actor ==> r.out.Is(BadRequest)
    ensures r.out.Fail? ==> r.st == st
    ensures r.out.Ok? <==> eventId in st.events && st.events[eventId].head == actor && target != actor
    ensures r.out.Ok? ==>
      && r.st == st.(events := r.st.events, committees := r.st.committees)
      && eventId in r.st.events
      && !IsParticipant(r.st.events[eventId].participants, target)
      && (forall p :: multiset(r.st.events[eventId].participants)[p] ==
            if p.userId == target then 0 else multiset(st.events[eventId].participants)[p])
      && (forall v :: v != target ==>
            (IsParticipant(r.st.events[eventId].participants, v) <==> IsParticipant(st.events[eventId].participants, v)))
      && r.st.events[eventId] == st.events[eventId].(participants := r.st.events[eventId].participants)
      && (forall e :: e in st.events && e != eventId ==> e in r.st.events && r.st.events[e] == st.events[e])
      && r.st.committees.Keys == st.committees.Keys
      && (forall c :: c in st.committees && st.committees[c].eventId == eventId ==> target !in r.st.committees[c].volunteers)
      && (forall c :: c in st.committees && st.committees[c].eventId != eventId ==> r.st.committees[c] == st.committees[c])
      && (forall c :: c in st.committees ==> r.st.committees[c] == st.committees[c].(volunteers := r.st.committees[c].volunteers))
      && (forall c :: c in st.committees && st.committees[c].eventId == eventId ==>
            r.st.committees[c].volunteers == Pull(st.committees[c].volunteers, target))
      && (forall c, v :: c in st.committees && v != target ==>
            (v in r.st.committees[c].volunteers <==> v in st.committees[c].volunteers))
  {
    if eventId !in st.events then Reject(st, NotFound, "Event not found")
    else
      var ev := st.events[eventId];
      if ev.head != actor then Reject(st, Forbidden, "Only Event Head can remove participants")
      else if target == ev.head then Reject(st, BadRequest, "Cannot remove the Event Head")
      else
        var ev' := ev.(participants := RemoveParticipant(ev.participants, target));
        Reply(Ok(()), st.(events := st.events[eventId := ev'], committees := PurgeVolunteer(st.committees, eventId, target)))
  }

  /** `getVolunteers`: the head and users whose entry is not a plain volunteer see every non-head entry. */
  function GetVolunteers(st: State, actor: UserId, eventId: EventId): (r: Outcome<seq<Participant>>)
    ensures eventId !in st.events <==> r.Is(NotFound)
    ensures r.Ok? <==> (eventId in st.events &&
      (st.events[eventId].head == actor || GetParticipantRole(st.events[eventId].participants, actor) in {Some(Head), Some(Subhead)}))
    ensures r.Fail? ==> r.status == NotFound || r.status == Forbidden
    ensures r.Ok? ==> forall p :: multiset(r.value)[p] == if p.role == Head then 0 else multiset(st.events[eventId].participants)[p]
  {
    if eventId !in st.events then Fail(NotFound, "Event not found")
    else
      var ev := st.events[eventId];
      var isHead := ev.head == actor;
      var participant := FindParticipant(ev.participants, actor);
      if !isHead && (participant.None? || participant.value.role == Volunteer) then Fail(Forbidden, "Access denied")
      else Ok(NonHeads(ev.participants))
  }

  /** The roster of `exportVolunteersPDF` (head only): the non-head entries, narrowed
      to a committee's volunteers when a known committee is named. */
  function ExportRoster(st: State, actor: UserId, eventId: EventId, committeeId: CommitteeId): (r: Outcome<seq<Participant>>)
    ensures eventId !in st.events <==> r.Is(NotFound)
    ensures r.Ok? <==> eventId in st.events && st.events[eventId].head == actor
    ensures r.Ok? ==> forall p :: p in r.value ==> p in st.events[eventId].participants && p.role != Head
    ensures r.Ok? && committeeId != "" && committeeId in st.committees ==>
      forall p :: p in r.value <==>
        p in st.events[eventId].participants && p.role != Head && p.userId in st.committees[committeeId].volunteers
    ensures r.Ok? && (committeeId == "" || committeeId !in st.committees) ==>
      forall p :: p in r.value <==> p in st.events[eventId].participants && p.role != Head
  {
    if eventId !in st.events then Fail(NotFound, "Event not found")
    else
      var ev := st.events[eventId];
      if ev.head != actor then Fail(Forbidden, "Only Event Head can export")
      else
        var volunteers := NonHeads(ev.participants);
        if committeeId != "" && committeeId in st.committees then
          var listed := st.committees[committeeId].volunteers;
          Ok(Seqs.Filter(volunteers, (p: Participant) => p.userId in listed))
        else Ok(volunteers)
  }

  /** A created event is among its creator's events, and its code joins it. */
  lemma CreatedEventIsListedAndJoinable(st: State, actor: UserId, req: CreateEventRequest, newId: EventId, code: string, other: UserId)
    requires newId !in st.events
    requires CreateEvent(st, actor, req, newId, code).out.Ok?
    requires code != ""
    ensures newId in MyEvents(CreateEvent(st, actor, req, newId, code).st, actor)
    ensures JoinEvent(CreateEvent(st, actor, req, newId, code).st, other, code).out == Ok(newId)
    ensures newId in MyEvents(JoinEvent(CreateEvent(st, actor, req, newId, code).st, other, code).st, other)
  {
    var s1 := CreateEvent(st, actor, req, newId, code).st;
    assert IsParticipant(s1.events[newId].participants, actor) by {
      assert s1.events[newId].participants[0].userId == actor;
    }
    assert FindByCode(s1, code) == Some(newId);
  }

  /** `getEventDetails`: any authenticated caller may read any event; only absence is an error. */
  function EventDetails(st: State, eventId: EventId): (r: Outcome<Event>)
    ensures r.Fail? <==> eventId !in st.events
    ensures r.Fail? ==> r.status == NotFound
    ensures r.Ok? ==> r.value == st.events[eventId]
  {
    if eventId !in st.events then Fail(NotFound, "Event not found") else Ok(st.events[eventId])
  }

  /** A created event reads back as drafted, headed by its creator, to a caller who is not a member. */
  lemma CreatedEventDetails(st: State, actor: UserId, req: CreateEventRequest, newId: EventId, code: string)
    requires newId !in st.events
    requires CreateEvent(st, actor, req, newId, code).out.Ok?
    ensures var d := EventDetails(CreateEvent(st, actor, req, newId, code).st, newId);
      && d.Ok? && d.value.head == actor && d.value.code == Text.Upper(code)
      && d.value.participants == FoundingList(actor, st.clock) && d.value.isActive
  {
  }

  /** After a successful removal the user no longer sees the event among theirs. */
  lemma RemovedUserLosesEvent(st: State, actor: UserId, eventId: EventId, target: UserId)
    requires RemoveFromEvent(st, actor, eventId, target).out.Ok?
    ensures eventId !in MyEvents(RemoveFromEvent(st, actor, eventId, target).st, target)
  {
  }

  /** A drafted event is well formed: its creator heads it and is its only participant. */
  lemma DraftWellFormed(actor: UserId, req: CreateEventRequest, key: string, now: nat)
    requires Draft(actor, req, key, now).Some?
    ensures EventWellFormed(Draft(actor, req, key, now).value)
  {
    var ev := Draft(actor, req, key, now).value;
    assert ev.participants[0].userId == actor;
  }

  /** `createEvent` keeps the store invariant. */
  lemma CreateEventPreservesValid(st: State, actor: UserId, req: CreateEventRequest, newId: EventId, code: string)
    requires Valid(st) && newId !in st.events
    ensures Valid(CreateEvent(st, actor, req, newId, code).st)
  {
    var r := CreateEvent(st, actor, req, newId, code);
    if r.out.Ok? {
      var key := Text.Upper(code);
      assert key !in st.codes && Draft(actor, req, key, st.clock).Some?;
      DraftInsertValid(st, actor, req, key, newId, r.st);
    }
  }

  /** Storing a drafted event under a fresh id and an unused code keeps the invariant. */
  lemma DraftInsertValid(st: State, actor: UserId, req: CreateEventRequest, key: string, newId: EventId, s': State)
    requires Valid(st) && newId !in st.events && key !in st.codes && Draft(actor, req, key, st.clock).Some?
    requires newId in s'.events && s'.events[newId] == Draft(actor, req, key, st.clock).value
    requires s' == st.(events := st.events[newId := s'.events[newId]], codes := st.codes[key := newId], clock := st.clock + 1)
    ensures Valid(s')
  {
    var ev := Draft(actor, req, key, st.clock).value;
    DraftWellFormed(actor, req, key, st.clock);
    InsertEventValid(st, newId, ev, st.clock + 1);
  }

  /** `joinEvent` keeps the store invariant. */
  lemma JoinEventPreservesValid(st: State, actor: UserId, code: string)
    requires Valid(st)
    ensures Valid(JoinEvent(st, actor, code).st)
  {
    var r := JoinEvent(st, actor, code);
    if r.out.Ok? && r.st != st {
      var id := r.out.value;
      var ev := st.events[id];
      var ev' := ev.(participants := AddParticipant(ev.participants, actor, Volunteer, st.clock));
      assert r.st == st.(events := st.events[id := ev'], clock := st.clock + 1);
      AddKeepsEventWellFormed(ev, actor, Volunteer, st.clock);
      UpdateEventValid(st, id, ev', st.clock + 1);
    }
  }

  /** Purging a volunteer keeps every committee well formed and the names unique. */
  lemma PurgeVolunteerWellFormed(cs: map<CommitteeId, Committee>, eventId: EventId, u: UserId)
    requires forall c :: c in cs ==> CommitteeWellFormed(cs[c])
    requires NamesUniquePerEvent(cs)
    ensures forall c :: c in PurgeVolunteer(cs, eventId, u) ==> CommitteeWellFormed(PurgeVolunteer(cs, eventId, u)[c])
    ensures NamesUniquePerEvent(PurgeVolunteer(cs, eventId, u))
  {
    var cs' := PurgeVolunteer(cs, eventId, u);
    forall c | c in cs'
      ensures CommitteeWellFormed(cs'[c])
    {
      if cs[c].eventId == eventId {
        PullPreservesNoDup(cs[c].volunteers, u);
      }
    }
    SameNamesKeepUnique(cs, cs');
  }

  /** Removing a participant other than the head keeps an event well formed. */
  lemma RemoveKeepsEventWellFormed(ev: Event, target: UserId)
    requires EventWellFormed(ev) && target != ev.head
    ensures EventWellFormed(ev.(participants := RemoveParticipant(ev.participants, target)))
  {
    RemovePreservesUnique(ev.participants, target);
  }

  /** `removeParticipant` keeps the store invariant. */
  lemma RemoveFromEventPreservesValid(st: State, actor: UserId, eventId: EventId, target: UserId)
    requires Valid(st)
    ensures Valid(RemoveFromEvent(st, actor, eventId, target).st)
  {
    var r := RemoveFromEvent(st, actor, eventId, target);
    if r.out.Ok? {
      var ev := st.events[eventId];
      var ev' := ev.(participants := RemoveParticipant(ev.participants, target));
      RemoveKeepsEventWellFormed(ev, target);
      ReplaceEventValid(st, eventId, ev');
      PurgeVolunteerWellFormed(st.committees, eventId, target);
      var s' := st.(events := st.events[eventId := ev'], committees := PurgeVolunteer(st.committees, eventId, target));
      assert r.st == s';
      FrameValid(st, s');
    } else {
      assert r.st == st;
    }
  }
}

=== FILE: event_model.dfy ===
/** The Event document: its schema and its three participant-list methods
    (addParticipant, removeParticipant, getParticipantRole). */
module EventModel {
  import opened Ids
  import opened Outcomes
  import Seqs

  datatype Role = Head | Subhead | Volunteer
  datatype JoinLimit = One | Two | Multiple
  datatype EventType = Small | Large

  /** One entry of `participants`. The role defaults to volunteer and the
      committee to null; `joinedAt` is the store's clock when the entry was made. */
  datatype Participant = Participant(userId: UserId, role: Role, committeeId: Option<CommitteeId>, joinedAt: nat)

  datatype Event = Event(
    title: string,
    description: string,
    code: string,
    eventType: EventType,
    hasCommittees: bool,
    joinLimit: JoinLimit,
    head: UserId,
    participants: seq<Participant>,
    isActive: bool,
    createdAt: nat)

  function JoinLimitName(l: JoinLimit): string {
    match l
    case One => "one"
    case Two => "two"
    case Multiple => "multiple"
  }

  /** The `committeeJoinLimit` enum check of the schema. */
  function ParseJoinLimit(s: string): (r: Option<JoinLimit>)
    ensures r.Some? ==> JoinLimitName(r.value) == s
    ensures s in {"one", "two", "multiple"} ==> r.Some?
  {
    if s == "one" then Some(One)
    else if s == "two" then Some(Two)
    else if s == "multiple" then Some(Multiple)
    else None
  }

  function EventTypeName(t: EventType): string {
    match t
    case Small => "small"
    case Large => "large"
  }

  /** The `eventType` enum check of the schema. */
  function ParseEventType(s: string): (r: Option<EventType>)
    ensures r.Some? ==> EventTypeName(r.value) == s
    ensures s in {"small", "large"} ==> r.Some?
  {
    if s == "small" then Some(Small)
    else if s == "large" then Some(Large)
    else None
  }

  /** The name of a join limit parses back to that limit. */
  lemma JoinLimitRoundTrip(l: JoinLimit)
    ensures ParseJoinLimit(JoinLimitName(l)) == Some(l)
  {
  }

  /** Length limits of the schema: a required title of at most 150
      characters and a description of at most 2000. */
  predicate ValidEventFields(title: string, description: string) {
    0 < |title| <= 150 && |description| <= 2000
  }

  /** Some entry of the list belongs to `u`. */
  predicate IsParticipant(ps: seq<Participant>, u: UserId) {
    exists i :: 0 <= i < |ps| && ps[i].userId == u
  }

  /** No user has two entries. */
  predicate UniqueUsers(ps: seq<Participant>) {
    forall i, j :: 0 <= i < j < |ps| ==> ps[i].userId != ps[j].userId
  }

  /** The position of the first entry of `u`, as `participants.find` visits them. */
  function FirstIndex(ps: seq<Participant>, u: UserId): (r: Option<nat>)
    ensures r.Some? <==> IsParticipant(ps, u)
    ensures r.Some? ==> r.value < |ps| && ps[r.value].userId == u
    ensures r.Some? ==> forall k :: 0 <= k < r.value ==> ps[k].userId != u
  {
    if |ps| == 0 then None
    else if ps[0].userId == u then Some(0)
    else
      match FirstIndex(ps[1..], u)
      case None => None
      case Some(k) => Some(k + 1)
  }

  /** An entry of `u` with no entry of `u` before it is the one `FirstIndex` finds. */
  lemma FirstIndexAt(ps: seq<Participant>, u: UserId, i: nat)
    requires i < |ps| && ps[i].userId == u
    requires forall k :: 0 <= k < i ==> ps[k].userId != u
    ensures FirstIndex(ps, u) == Some(i)
  {
    assert IsParticipant(ps, u);
  }

  /** `participants.find((p) => p.userId === u)`. */
  function FindParticipant(ps: seq<Participant>, u: UserId): (r: Option<Participant>)
    ensures r.Some? <==> IsParticipant(ps, u)
    ensures r.Some? ==> r.value in ps && r.value.userId == u
  {
    match FirstIndex(ps, u)
    case None => None
    case Some(i) => Some(ps[i])
  }

  /** In a list without duplicate users, the entry found is the only one of that user. */
  lemma FindParticipantUnique(ps: seq<Participant>, u: UserId, i: nat)
    requires UniqueUsers(ps)
    requires i < |ps| && ps[i].userId == u
    ensures FindParticipant(ps, u) == Some(ps[i])
  {
    var k := FirstIndex(ps, u).value;
    assert k == i;
  }

  /** `getParticipantRole`: the role of the first entry of `u`, or null. */
  function GetParticipantRole(ps: seq<Participant>, u: UserId): (r: Option<Role>)
    ensures r.None? <==> !IsParticipant(ps, u)
    ensures r.Some? ==> (exists i :: 0 <= i < |ps| && ps[i].userId == u && ps[i].role == r.value
                                    && forall k :: 0 <= k < i ==> ps[k].userId != u)
  {
    match FindParticipant(ps, u)
    case None => None
    case Some(p) => Some(p.role)
  }

  /** `addParticipant(u, role)`: appends `{u, role}` unless `u` already has an entry. */
  function AddParticipant(ps: seq<Participant>, u: UserId, role: Role, now: nat): (r: seq<Participant>)
    ensures IsParticipant(r, u)
    ensures IsParticipant(ps, u) ==> r == ps
    ensures !IsParticipant(ps, u) ==> |r| == |ps| + 1 && r[..|ps|] == ps
    ensures !IsParticipant(ps, u) ==> r[|ps|] == Participant(u, role, None, now)
  {
    if FindParticipant(ps, u).Some? then ps
    else
      var r := ps + [Participant(u, role, None, now)];
      assert r[|ps|].userId == u;
      r
  }

  /** Adding keeps every user at most once. */
  lemma AddPreservesUnique(ps: seq<Participant>, u: UserId, role: Role, now: nat)
    requires UniqueUsers(ps)
    ensures UniqueUsers(AddParticipant(ps, u, role, now))
  {
  }

  /** Adding the same user a second time changes nothing. */
  lemma AddIdempotent(ps: seq<Participant>, u: UserId, role: Role, role': Role, now: nat, now': nat)
    ensures AddParticipant(AddParticipant(ps, u, role, now), u, role', now') == AddParticipant(ps, u, role, now)
  {
  }

  function OtherThan(u: UserId): Participant -> bool {
    (p: Participant) => p.userId != u
  }

  /** `removeParticipant(u)`: drops every entry of `u` and keeps the others in order. */
  function RemoveParticipant(ps: seq<Participant>, u: UserId): (r: seq<Participant>)
    ensures !IsParticipant(r, u)
    ensures forall p :: multiset(r)[p] == if p.userId == u then 0 else multiset(ps)[p]
    ensures forall v :: v != u ==> (IsParticipant(r, v) <==> IsParticipant(ps, v))
  {
    var r := Seqs.Filter(ps, OtherThan(u));
    forall v | v != u && IsParticipant(ps, v)
      ensures IsParticipant(r, v)
    {
      var i :| 0 <= i < |ps| && ps[i].userId == v;
      assert ps[i] in r;
    }
    r
  }

  /** Removal keeps the survivors' relative order: it distributes over concatenation. */
  lemma RemoveConcat(ps: seq<Participant>, qs: seq<Participant>, u: UserId)
    ensures RemoveParticipant(ps + qs, u) == RemoveParticipant(ps, u) + RemoveParticipant(qs, u)
  {
    Seqs.FilterConcat(ps, qs, OtherThan(u));
  }

  /** Removing a user who has no entry is a no-op. */
  lemma RemoveAbsentIsNoop(ps: seq<Participant>, u: UserId)
    requires !IsParticipant(ps, u)
    ensures RemoveParticipant(ps, u) == ps
  {
    Seqs.FilterKeepsAll(ps, OtherThan(u));
  }

  /** Removing twice is removing once. */
  lemma RemoveIdempotent(ps: seq<Participant>, u: UserId)
    ensures RemoveParticipant(RemoveParticipant(ps, u), u) == RemoveParticipant(ps, u)
  {
    RemoveAbsentIsNoop(RemoveParticipant(ps, u), u);
  }

  /** Removing keeps every user at most once. */
  lemma {:induction false} RemovePreservesUnique(ps: seq<Participant>, u: UserId)
    requires UniqueUsers(ps)
    ensures UniqueUsers(RemoveParticipant(ps, u))
  {
    if |ps| > 0 {
      TailUnique(ps);
      RemovePreservesUnique(ps[1..], u);
      Seqs.FilterCons(ps, OtherThan(u));
      if ps[0].userId != u {
        ConsUnique(ps[0], RemoveParticipant(ps[1..], u));
      }
    }
  }

  lemma TailUnique(ps: seq<Participant>)
    requires UniqueUsers(ps) && |ps| > 0
    ensures UniqueUsers(ps[1..]) && !IsParticipant(ps[1..], ps[0].userId)
  {
    var tail := ps[1..];
    forall i, j | 0 <= i < j < |tail| ensures tail[i].userId != tail[j].userId {
      assert tail[i] == ps[i + 1] && tail[j] == ps[j + 1];
    }
    forall k | 0 <= k < |tail| ensures tail[k].userId != ps[0].userId {
      assert tail[k] == ps[k + 1];
    }
  }

  lemma ConsUnique(p: Participant, t: seq<Participant>)
    requires UniqueUsers(t) && !IsParticipant(t, p.userId)
    ensures UniqueUsers([p] + t)
  {
    forall i, j | 0 <= i < j < |[p] + t| ensures ([p] + t)[i].userId != ([p] + t)[j].userId {
      assert ([p] + t)[j] == t[j - 1];
      if i > 0 {
        assert ([p] + t)[i] == t[i - 1];
      }
    }
  }

  /** Adding `u` and then removing `u` gives the list without `u`. */
  lemma AddThenRemove(ps: seq<Participant>, u: UserId, role: Role, now: nat)
    ensures RemoveParticipant(AddParticipant(ps, u, role, now), u) == RemoveParticipant(ps, u)
  {
    if !IsParticipant(ps, u) {
      RemoveConcat(ps, [Participant(u, role, None, now)], u);
      assert RemoveParticipant([Participant(u, role, None, now)], u) == [];
    }
  }

  /** Overwriting one entry with a record of the same user keeps the list free of duplicates. */
  lemma UpdateSameUserPreservesUnique(ps: seq<Participant>, i: nat, p: Participant)
    requires UniqueUsers(ps)
    requires i < |ps| && p.userId == ps[i].userId
    ensures UniqueUsers(ps[i := p])
  {
  }

  /** The participants other than the head role, in order (the roster shown to head and sub-heads). */
  function NonHeads(ps: seq<Participant>): (r: seq<Participant>)
    ensures forall p :: p in r <==> p in ps && p.role != Head
    ensures forall p :: multiset(r)[p] == if p.role == Head then 0 else multiset(ps)[p]
  {
    Seqs.Filter(ps, (p: Participant) => p.role != Head)
  }

  /** The entry list of a newly created event: the creator alone, as head. */
  function FoundingList(creator: UserId, now: nat): (r: seq<Participant>)
    ensures |r| == 1 && r[0].userId == creator && r[0].role == Head && r[0].committeeId.None?
    ensures UniqueUsers(r)
  {
    [Participant(creator, Head, None, now)]
  }
}

=== FILE: outcomes.dfy ===
/** Identifiers of the stored documents. MongoDB ObjectIds are compared by their
    string form throughout the server, so every id is a string here. */
module Ids {
  type UserId = string
  type EventId = string
  type CommitteeId = string
  type AnnouncementId = string
  type ConnId = string
}

/** The optional values and the HTTP-style outcomes every handler answers with. */
module Outcomes {

  datatype Option<+T> = None | Some(value: T) {
    function GetOr(default: T): T {
      match this
      case Some(v) => v
      case None => default
    }
  }

  /** The error statuses of the handlers: 400, 401, 403, 404, and 500 for the
      catch blocks (a schema validation failure or a dereference of a missing
      document). */
  datatype Status = BadRequest | Unauthorized | Forbidden | NotFound | ServerError {
    function Code(): nat {
      match this
      case BadRequest => 400
      case Unauthorized => 401
      case Forbidden => 403
      case NotFound => 404
      case ServerError => 500
    }
  }

  /** A handler's answer: a success payload, or a status with its message. */
  datatype Outcome<+T> = Ok(value: T) | Fail(status: Status, message: string) {
    predicate Is(s: Status) {
      Fail? && status == s
    }
  }

  /** `x || null` applied to a request string: a missing or empty value is stored as null. */
  function OrNull(s: string): (r: Option<string>)
    ensures r.None? <==> s == ""
    ensures r.Some? ==> r.value == s
  {
    if s == "" then None else Some(s)
  }
}

=== FILE: payment_controller.dfy ===
/** The payment handlers: createOrder, verifyPayment, the gateway webhook and
    getPaymentStatus. The gateway's order creation and both HMAC-SHA256
    computations are outside the model: the order id and the expected
    signatures arrive as parameters. */
module PaymentController {
  import opened Ids
  import opened Outcomes
  import opened AnnouncementModel
  import opened PaymentModel
  import opened Store
  import Seqs
  import Text

  /** What createOrder answers: the gateway order id, the amount in the
      smallest currency unit (paise) and the currency. */
  datatype Order = Order(orderId: string, amount: int, currency: string)

  /** The stored payment announcement with this id. */
  function PaymentAnnouncementAt(st: State, announcementId: AnnouncementId): (r: Option<nat>)
    ensures r.Some? ==> (r.value < |st.announcements| && st.announcements[r.value].id == announcementId
      && st.announcements[r.value].kind == PaymentAnnouncement)
    ensures r.None? <==> (!Exists(st.announcements, announcementId)
      || st.announcements[IndexOf(st.announcements, announcementId).value].kind != PaymentAnnouncement)
  {
    match IndexOf(st.announcements, announcementId)
    case None => None
    case Some(i) => if st.announcements[i].kind == PaymentAnnouncement then Some(i) else None
  }

  /** `createOrder`. The user's participation in the event is not checked. */
  function CreateOrder(st: State, actor: UserId, announcementId: AnnouncementId, orderId: string): (r: Reply<Order>)
    ensures announcementId == "" ==> r.out.Is(BadRequest)
    ensures announcementId != "" && PaymentAnnouncementAt(st, announcementId).None? ==> r.out.Is(NotFound)
    ensures (announcementId != "" && PaymentAnnouncementAt(st, announcementId).Some?
             && st.announcements[PaymentAnnouncementAt(st, announcementId).value].eventId !in st.events) ==> r.out.Is(NotFound)
    ensures (announcementId != "" && PaymentAnnouncementAt(st, announcementId).Some?
             && st.announcements[PaymentAnnouncementAt(st, announcementId).value].eventId in st.events
             && HasPaid(st.payments, announcementId, actor)) ==> r.out.Is(BadRequest)
    ensures announcementId != "" && HasPaid(st.payments, announcementId, actor) ==> r.out.Fail?
    ensures r.out.Ok? <==>
      && announcementId != "" && PaymentAnnouncementAt(st, announcementId).Some?
      && st.announcements[PaymentAnnouncementAt(st, announcementId).value].eventId in st.events
      && !HasPaid(st.payments, announcementId, actor)
      && st.announcements[PaymentAnnouncementAt(st, announcementId).value].paymentAmount.Some?
    ensures r.out.Fail? ==> r.st == st
    ensures r.out.Ok? ==>
      var a := st.announcements[PaymentAnnouncementAt(st, announcementId).value];
      && announcementId != "" && a.eventId in st.events && !HasPaid(st.payments, announcementId, actor)
      && a.paymentAmount.Some?
      && r.out.value == Order(orderId, a.paymentAmount.value * 100, DefaultCurrency)
      && r.st == st.(payments := r.st.payments)
      && |r.st.payments| == |st.payments| + 1 && r.st.payments[..|st.payments|] == st.payments
      && r.st.payments[|st.payments|] ==
           NewPayment(a.eventId, announcementId, actor, a.paymentAmount.value).(status := Initiated, orderId := Some(orderId))
  {
    if announcementId == "" then Reject(st, BadRequest, "announcementId is required")
    else
      match PaymentAnnouncementAt(st, announcementId)
      case None => Reject(st, NotFound, "Payment announcement not found")
      case Some(i) =>
        var a := st.announcements[i];
        if a.eventId !in st.events then Reject(st, NotFound, "Event not found")
        else if HasPaid(st.payments, announcementId, actor) then Reject(st, BadRequest, "You have already paid for this")
        else if a.paymentAmount.None? then Reject(st, ServerError, "Payment validation failed")
        else
          var amount := a.paymentAmount.value;
          var p := NewPayment(a.eventId, announcementId, actor, amount).(status := Initiated, orderId := Some(orderId));
          Reply(Ok(Order(orderId, amount * 100, DefaultCurrency)), st.(payments := st.payments + [p]))
  }

  /** The string the checkout signature is computed over. */
  function SignedText(orderId: string, paymentId: string): string {
    orderId + "|" + paymentId
  }

  /** The signed text binds both ids: for order ids without a bar (the gateway's
      are alphanumeric), two texts agree exactly when both ids agree. */
  lemma SignedTextInjective(o1: string, p1: string, o2: string, p2: string)
    requires Text.Lacks(o1, '|') && Text.Lacks(o2, '|')
    ensures SignedText(o1, p1) == SignedText(o2, p2) <==> o1 == o2 && p1 == p2
  {
    if SignedText(o1, p1) == SignedText(o2, p2) {
      Text.SeparatedPrefix(o1, o2, p1, p2, '|');
    }
  }

  /** The first record of the order, marked paid with the gateway ids and the time. */
  function MarkPaid(ps: seq<Payment>, orderId: string, paymentId: Option<string>, signature: Option<string>, now: nat): (r: seq<Payment>)
    ensures |r| == |ps|
    ensures FirstOfOrder(ps, orderId).None? ==> r == ps
    ensures FirstOfOrder(ps, orderId).Some? ==>
      var i := FirstOfOrder(ps, orderId).value;
      && r[i].status == Paid && r[i].paymentId == paymentId && r[i].signature == signature && r[i].paidAt == Some(now)
      && r[i].eventId == ps[i].eventId && r[i].announcementId == ps[i].announcementId && r[i].userId == ps[i].userId
      && r[i].amount == ps[i].amount && r[i].currency == ps[i].currency && r[i].orderId == ps[i].orderId
      && (forall k :: 0 <= k < |ps| && k != i ==> r[k] == ps[k])
      && FirstOfOrder(r, orderId) == Some(i)
  {
    match FirstOfOrder(ps, orderId)
    case None => ps
    case Some(i) => ps[i := ps[i].(status := Paid, paymentId := paymentId, signature := signature, paidAt := Some(now))]
  }

  /** `verifyPayment`: with the three fields present and the signature equal to
      `hmac(orderId|paymentId)`, the first record of the order becomes paid.
      The record's owner is not compared with the caller. */
  function VerifyPayment(st: State, orderId: string, paymentId: string, signature: string, hmac: string -> string): (r: Reply<()>)
    ensures orderId == "" || paymentId == "" || signature == "" ==> r.out.Is(BadRequest)
    ensures r.out.Ok? <==> orderId != "" && paymentId != "" && signature != "" && hmac(SignedText(orderId, paymentId)) == signature
    ensures r.out.Fail? ==> r.st == st && r.out.status == BadRequest
    ensures r.out.Ok? ==>
      && r.st == st.(payments := r.st.payments, clock := st.clock + 1)
      && |r.st.payments| == |st.payments|
      && (FirstOfOrder(st.payments, orderId).None? ==> r.st.payments == st.payments)
      && (FirstOfOrder(st.payments, orderId).Some? ==>
            var i := FirstOfOrder(st.payments, orderId).value;
            r.st.payments == st.payments[i := st.payments[i].(status := Paid, paymentId := Some(paymentId),
                                                               signature := Some(signature), paidAt := Some(st.clock))])
  {
    if orderId == "" || paymentId == "" || signature == "" then Reject(st, BadRequest, "Missing payment verification fields")
    else if hmac(SignedText(orderId, paymentId)) != signature then Reject(st, BadRequest, "Payment verification failed")
    else Reply(Ok(()), st.(payments := MarkPaid(st.payments, orderId, Some(paymentId), Some(signature), st.clock), clock := st.clock + 1))
  }

  /** A gateway notification: the event name, `payload.payment.entity.order_id` and `.id`. */
  datatype Notification = Notification(event: string, orderId: string, paymentId: string)

  /** `webhook`: unauthenticated, guarded only by the signature header, which
      must equal `expected`, the HMAC of the body under the webhook secret.
      Authorized and captured mark the order's first record paid unless it
      already is; failed marks it failed whatever its status. */
  function Webhook(st: State, header: Option<string>, expected: string, n: Notification): (r: Reply<()>)
    ensures r.out.Ok? <==> header == Some(expected)
    ensures r.out.Fail? ==> r.out.Is(BadRequest) && r.st == st
    ensures r.out.Ok? ==> |r.st.payments| == |st.payments| && r.st == st.(payments := r.st.payments, clock := r.st.clock)
    ensures r.out.Ok? && n.event !in {"payment.authorized", "payment.captured", "payment.failed"} ==> r.st == st
    ensures r.out.Ok? && n.event == "payment.failed" && FirstOfOrder(st.payments, n.orderId).Some? ==>
      var i := FirstOfOrder(st.payments, n.orderId).value;
      r.st.payments == st.payments[i := st.payments[i].(status := Failed)] && r.st.clock == st.clock
    ensures r.out.Ok? && n.event in {"payment.authorized", "payment.captured"} && FirstOfOrder(st.payments, n.orderId).Some? ==>
      var i := FirstOfOrder(st.payments, n.orderId).value;
      && r.st.payments[i].status == Paid
      && (st.payments[i].status == Paid ==> r.st == st)
      && (st.payments[i].status != Paid ==>
            && r.st.payments == st.payments[i := st.payments[i].(status := Paid, paymentId := Some(n.paymentId), paidAt := Some(st.clock))]
            && r.st.clock == st.clock + 1)
    ensures r.out.Ok? && FirstOfOrder(st.payments, n.orderId).None? ==> r.st == st
  {
    if header != Some(expected) then Reject(st, BadRequest, "Invalid webhook signature")
    else if n.event == "payment.authorized" || n.event == "payment.captured" then
      match FirstOfOrder(st.payments, n.orderId)
      case None => Reply(Ok(()), st)
      case Some(i) =>
        if st.payments[i].status == Paid then Reply(Ok(()), st)
        else
          var p := st.payments[i].(status := Paid, paymentId := Some(n.paymentId), paidAt := Some(st.clock));
          Reply(Ok(()), st.(payments := st.payments[i := p], clock := st.clock + 1))
    else if n.event == "payment.failed" then
      match FirstOfOrder(st.payments, n.orderId)
      case None => Reply(Ok(()), st)
      case Some(i) => Reply(Ok(()), st.(payments := st.payments[i := st.payments[i].(status := Failed)]))
    else Reply(Ok(()), st)
  }

  /** Gateway retries are harmless: a repeated authorized or captured notification changes nothing more. */
  lemma CaptureIdempotent(st: State, header: Option<string>, expected: string, n: Notification)
    requires n.event == "payment.authorized" || n.event == "payment.captured"
    ensures var s1 := Webhook(st, header, expected, n).st;
      Webhook(s1, header, expected, n).st == s1
  {
    var s1 := Webhook(st, header, expected, n).st;
    if header == Some(expected) && FirstOfOrder(st.payments, n.orderId).Some? {
      var i := FirstOfOrder(st.payments, n.orderId).value;
      var p := (q: Payment) => q.orderId == Some(n.orderId);
      assert forall k :: 0 <= k < |s1.payments| ==> s1.payments[k].orderId == st.payments[k].orderId;
      assert FirstOfOrder(s1.payments, n.orderId) == Some(i) by {
        FirstOfOrderRespectsOrders(st.payments, s1.payments, n.orderId);
      }
    }
  }

  /** The order lookup only looks at the order ids. */
  lemma FirstOfOrderRespectsOrders(a: seq<Payment>, b: seq<Payment>, orderId: string)
    requires |a| == |b| && forall k :: 0 <= k < |a| ==> a[k].orderId == b[k].orderId
    ensures FirstOfOrder(a, orderId) == FirstOfOrder(b, orderId)
  {
    var x := FirstOfOrder(a, orderId);
    var y := FirstOfOrder(b, orderId);
    if x.Some? && y.Some? {
      assert !(x.value < y.value) && !(y.value < x.value);
    }
  }

  /** What getPaymentStatus answers: every record of the announcement for the
      head, otherwise the caller's first record or a bare pending status. */
  datatype StatusView = AllPayments(payments: seq<Payment>) | OwnPayment(payment: Payment) | DefaultPending

  /** `getPaymentStatus`. */
  function PaymentStatus(st: State, actor: UserId, eventId: EventId, announcementId: AnnouncementId): (r: Outcome<StatusView>)
    ensures eventId !in st.events <==> r.Is(NotFound)
    ensures r.Fail? ==> r.status == NotFound
    ensures r.Ok? && st.events[eventId].head == actor ==> (r.value.AllPayments? &&
      forall p :: p in r.value.payments <==> p in st.payments && p.eventId == eventId && p.announcementId == announcementId)
    ensures r.Ok? && st.events[eventId].head != actor ==> !r.value.AllPayments?
    ensures r.Ok? && r.value.AllPayments? ==>
      forall p :: multiset(r.value.payments)[p] ==
        if p.eventId == eventId && p.announcementId == announcementId then multiset(st.payments)[p] else 0
    ensures r.Ok? && r.value.OwnPayment? ==>
      && r.value.payment in st.payments && r.value.payment.userId == actor
      && r.value.payment.eventId == eventId && r.value.payment.announcementId == announcementId
      && exists i :: 0 <= i < |st.payments| && st.payments[i] == r.value.payment
           && forall k :: 0 <= k < i ==>
                !(st.payments[k].eventId == eventId && st.payments[k].announcementId == announcementId && st.payments[k].userId == actor)
    ensures r.Ok? && r.value.DefaultPending? <==>
      && eventId in st.events && st.events[eventId].head != actor
      && forall p :: p in st.payments ==> !(p.eventId == eventId && p.announcementId == announcementId && p.userId == actor)
  {
    if eventId !in st.events then Fail(NotFound, "Event not found")
    else if st.events[eventId].head == actor then
      Ok(AllPayments(Seqs.Filter(st.payments, (p: Payment) => p.eventId == eventId && p.announcementId == announcementId)))
    else
      match Seqs.FirstWhere(st.payments, (p: Payment) => p.eventId == eventId && p.announcementId == announcementId && p.userId == actor)
      case None => Ok(DefaultPending)
      case Some(i) => Ok(OwnPayment(st.payments[i]))
  }

  /** After a fresh order is verified, the user counts as paid and a second order for the same announcement is refused. */
  lemma VerifiedOrderBlocksReorder(st: State, actor: UserId, announcementId: AnnouncementId, orderId: string,
                                   paymentId: string, signature: string, hmac: string -> string, orderId2: string)
    requires forall k :: 0 <= k < |st.payments| ==> st.payments[k].orderId != Some(orderId)
    requires CreateOrder(st, actor, announcementId, orderId).out.Ok?
    requires VerifyPayment(CreateOrder(st, actor, announcementId, orderId).st, orderId, paymentId, signature, hmac).out.Ok?
    ensures var s2 := VerifyPayment(CreateOrder(st, actor, announcementId, orderId).st, orderId, paymentId, signature, hmac).st;
      && HasPaid(s2.payments, announcementId, actor)
      && CreateOrder(s2, actor, announcementId, orderId2).out.Is(BadRequest)
  {
    var s1 := CreateOrder(st, actor, announcementId, orderId).st;
    var n := |st.payments|;
    assert s1.payments[n].orderId == Some(orderId);
    assert FirstOfOrder(s1.payments, orderId) == Some(n);
    var s2 := VerifyPayment(s1, orderId, paymentId, signature, hmac).st;
    assert s2.payments[n].announcementId == announcementId && s2.payments[n].userId == actor && s2.payments[n].status == Paid;
    assert s2.announcements == st.announcements && s2.events == st.events;
  }

  /** `createOrder` keeps the store invariant (it touches only the payment log). */
  lemma CreateOrderPreservesValid(st: State, actor: UserId, announcementId: AnnouncementId, orderId: string)
    requires Valid(st)
    ensures Valid(CreateOrder(st, actor, announcementId, orderId).st)
  {
  }

  lemma VerifyPaymentPreservesValid(st: State, orderId: string, paymentId: string, signature: string, hmac: string -> string)
    requires Valid(st)
    ensures Valid(VerifyPayment(st, orderId, paymentId, signature, hmac).st)
  {
    var r := VerifyPayment(st, orderId, paymentId, signature, hmac);
    if r.out.Ok? {
      Tick(st, st.clock + 1);
      assert r.st == st.(clock := st.clock + 1).(payments := r.st.payments);
    } else {
      assert r.st == st;
    }
  }

  lemma WebhookPreservesValid(st: State, header: Option<string>, expected: string, n: Notification)
    requires Valid(st)
    ensures Valid(Webhook(st, header, expected, n).st)
  {
    var r := Webhook(st, header, expected, n);
    Tick(st, r.st.clock);
    assert r.st == st.(clock := r.st.clock).(payments := r.st.payments);
  }
}

=== FILE: payment_model.dfy ===
/** The Payment document and its status enum. */
module PaymentModel {
  import opened Ids
  import opened Outcomes
  import Seqs

  /** The `status` enum: pending, initiated, paid, failed, refunded. */
  datatype PaymentStatus = Pending | Initiated | Paid | Failed | Refunded

  const DefaultCurrency: string := "INR"

  /** A payment record. `amount` is required; gateway ids and `paidAt` default to null. */
  datatype Payment = Payment(
    eventId: EventId,
    announcementId: AnnouncementId,
    userId: UserId,
    amount: int,
    currency: string,
    status: PaymentStatus,
    orderId: Option<string>,
    paymentId: Option<string>,
    signature: Option<string>,
    paidAt: Option<nat>)

  /** `new Payment({eventId, announcementId, userId, amount})` with every other field at its schema default. */
  function NewPayment(eventId: EventId, announcementId: AnnouncementId, userId: UserId, amount: int): (p: Payment)
    ensures p.eventId == eventId && p.announcementId == announcementId && p.userId == userId && p.amount == amount
    ensures p.currency == "INR" && p.status == Pending
    ensures p.orderId.None? && p.paymentId.None? && p.signature.None? && p.paidAt.None?
  {
    Payment(eventId, announcementId, userId, amount, DefaultCurrency, Pending, None, None, None, None)
  }

  /** `Payment.findOne({razorpayOrderId})`: the first record of that order. */
  function FirstOfOrder(ps: seq<Payment>, orderId: string): (r: Option<nat>)
    ensures r.Some? <==> exists i :: 0 <= i < |ps| && ps[i].orderId == Some(orderId)
    ensures r.Some? ==> r.value < |ps| && ps[r.value].orderId == Some(orderId)
    ensures r.Some? ==> forall k :: 0 <= k < r.value ==> ps[k].orderId != Some(orderId)
  {
    Seqs.FirstWhere(ps, (p: Payment) => p.orderId == Some(orderId))
  }

  /** Some record of `user` for this announcement is already paid. */
  predicate HasPaid(ps: seq<Payment>, announcementId: AnnouncementId, user: UserId) {
    exists i :: 0 <= i < |ps| && ps[i].announcementId == announcementId && ps[i].userId == user && ps[i].status == Paid
  }
}

=== FILE: scenarios.dfy ===
/** Consequences of the handlers taken together that a reader of any one of
    them could miss: how the join limit counts, what a sub-head keeps after
    removal, what deletion leaves behind, and how gateway notifications
    interact with checkout verification. */
module Scenarios {
  import opened Ids
  import opened Outcomes
  import opened EventModel
  import opened CommitteeModel
  import opened PaymentModel
  import opened Store
  import CommitteeController
  import PaymentController

  /** The join count takes every listed id that is not a current committee,
      repeats included: under a one-committee limit, a volunteer in no
      committee who lists the same committee twice is refused, while listing
      it once is accepted. */
  lemma RepeatedIdCountsTwice(st: State, actor: UserId, eventId: EventId, c: CommitteeId)
    requires eventId != "" && eventId in st.events
    requires GetParticipantRole(st.events[eventId].participants, actor) == Some(Volunteer)
    requires st.events[eventId].joinLimit == One
    requires CommitteesOf(st.committees, eventId, actor) == {}
    ensures CommitteeController.JoinCommittees(st, actor, eventId, Some([c, c])).out.Is(BadRequest)
    ensures CommitteeController.JoinCommittees(st, actor, eventId, Some([c])).out.Ok?
  {
    assert CommitteeController.Counted(st.committees, eventId, actor, [c, c]) == [c, c];
    assert CommitteeController.Counted(st.committees, eventId, actor, [c]) == [c];
  }

  /** Removing the sub-head from a committee's volunteers does not clear the
      committee's `subHead`: the removed user can still remove volunteers. */
  lemma RemovedSubheadKeepsRights(st: State, actor: UserId, committeeId: CommitteeId, other: UserId)
    requires committeeId in st.committees && st.committees[committeeId].subHead.Some?
    requires CommitteeController.RemoveVolunteer(st, actor, committeeId, st.committees[committeeId].subHead.value).out.Ok?
    ensures var u := st.committees[committeeId].subHead.value;
      var s1 := CommitteeController.RemoveVolunteer(st, actor, committeeId, u).st;
      && u !in s1.committees[committeeId].volunteers
      && CommitteeController.RemoveVolunteer(s1, u, committeeId, other).out.Ok?
  {
  }

  /** Deleting a committee leaves every event as it was, so participant entries
      that name the deleted committee keep naming it. */
  lemma DeletionLeavesDanglingEntries(st: State, actor: UserId, committeeId: CommitteeId, eventId: EventId, k: nat)
    requires CommitteeController.DeleteCommittee(st, actor, committeeId).out.Ok?
    requires eventId in st.events && k < |st.events[eventId].participants|
    requires st.events[eventId].participants[k].committeeId == Some(committeeId)
    ensures var s1 := CommitteeController.DeleteCommittee(st, actor, committeeId).st;
      && committeeId !in s1.committees
      && eventId in s1.events && s1.events[eventId].participants[k].committeeId == Some(committeeId)
  {
  }

  /** The head may name themself sub-head: their own entry then reads Subhead,
      they stay the event's head, and joinCommittees now refuses them. */
  lemma HeadAssignedAsSubhead(st: State, committeeId: CommitteeId, eventId: EventId, head: UserId, ids: seq<CommitteeId>)
    requires committeeId in st.committees && st.committees[committeeId].eventId == eventId
    requires eventId != "" && eventId in st.events && st.events[eventId].head == head
    requires IsParticipant(st.events[eventId].participants, head)
    ensures var r := CommitteeController.AssignSubHead(st, head, committeeId, head);
      && r.out.Ok?
      && eventId in r.st.events && r.st.events[eventId].head == head
      && GetParticipantRole(r.st.events[eventId].participants, head) == Some(Subhead)
      && CommitteeController.JoinCommittees(r.st, head, eventId, Some(ids)).out.Is(Forbidden)
  {
  }

  /** A `payment.failed` notification arriving after a verified checkout turns
      the paid record back to failed. */
  lemma FailedAfterVerifyUnpays(st: State, orderId: string, paymentId: string, signature: string, hmac: string -> string,
                                header: Option<string>, expected: string, gatewayId: string)
    requires header == Some(expected)
    requires PaymentController.VerifyPayment(st, orderId, paymentId, signature, hmac).out.Ok?
    requires FirstOfOrder(st.payments, orderId).Some?
    ensures var i := FirstOfOrder(st.payments, orderId).value;
      var s1 := PaymentController.VerifyPayment(st, orderId, paymentId, signature, hmac).st;
      var s2 := PaymentController.Webhook(s1, header, expected, PaymentController.Notification("payment.failed", orderId, gatewayId)).st;
      && s1.payments[i].status == Paid
      && |s2.payments| == |st.payments| && s2.payments[i].status == Failed
  {
    var i := FirstOfOrder(st.payments, orderId).value;
    var s1 := PaymentController.VerifyPayment(st, orderId, paymentId, signature, hmac).st;
    assert forall k :: 0 <= k < |st.payments| ==> s1.payments[k].orderId == st.payments[k].orderId;
    PaymentController.FirstOfOrderRespectsOrders(st.payments, s1.payments, orderId);
  }
}

=== FILE: seqs.dfy ===
/** Sequence operations shared by the stores: `Array.prototype.filter`, `reverse`,
    and the skip/limit window of a query cursor. */
module Seqs {
  import opened Outcomes

  /** `s.filter(p)`: keeps the elements satisfying `p`, in order. */
  function Filter<T(!new)>(s: seq<T>, p: T -> bool): (r: seq<T>)
    ensures |r| <= |s|
    ensures forall x :: x in r <==> x in s && p(x)
    ensures forall i :: 0 <= i < |r| ==> p(r[i])
    ensures forall x :: multiset(r)[x] == if p(x) then multiset(s)[x] else 0
  {
    if |s| == 0 then []
    else
      assert s == [s[0]] + s[1..];
      if p(s[0]) then [s[0]] + Filter(s[1..], p) else Filter(s[1..], p)
  }

  /** Filtering distributes over concatenation, so the kept elements stay in their original order. */
  lemma {:induction false} FilterConcat<T(!new)>(a: seq<T>, b: seq<T>, p: T -> bool)
    ensures Filter(a + b, p) == Filter(a, p) + Filter(b, p)
  {
    if |a| == 0 {
      assert a + b == b;
    } else {
      assert (a + b)[1..] == a[1..] + b;
      FilterConcat(a[1..], b, p);
    }
  }

  /** A filter that every element passes changes nothing. */
  lemma {:induction false} FilterKeepsAll<T(!new)>(s: seq<T>, p: T -> bool)
    requires forall i :: 0 <= i < |s| ==> p(s[i])
    ensures Filter(s, p) == s
  {
    if |s| > 0 {
      FilterKeepsAll(s[1..], p);
    }
  }

  /** The position of the first element satisfying `p`: what `findOne` and `find` return in insertion order. */
  function FirstWhere<T>(s: seq<T>, p: T -> bool): (r: Option<nat>)
    ensures r.None? <==> forall i :: 0 <= i < |s| ==> !p(s[i])
    ensures r.Some? ==> r.value < |s| && p(s[r.value])
    ensures r.Some? ==> forall k :: 0 <= k < r.value ==> !p(s[k])
  {
    if |s| == 0 then None
    else if p(s[0]) then Some(0)
    else
      match FirstWhere(s[1..], p)
      case None =>
        assert forall i :: 1 <= i < |s| ==> s[i] == s[1..][i - 1];
        None
      case Some(k) => Some(k + 1)
  }

  /** Filtering by a predicate and by its negation splits the elements between the two results. */
  lemma FilterSplit<T(!new)>(s: seq<T>, p: T -> bool, q: T -> bool)
    requires forall x :: q(x) == !p(x)
    ensures multiset(Filter(s, p)) + multiset(Filter(s, q)) == multiset(s)
  {
    assert forall x :: (multiset(Filter(s, p)) + multiset(Filter(s, q)))[x] == multiset(s)[x];
  }

  /** The sequence without its element at `i`. */
  function RemoveAt<T>(s: seq<T>, i: nat): (r: seq<T>)
    requires i < |s|
    ensures |r| == |s| - 1
    ensures forall k :: 0 <= k < i ==> r[k] == s[k]
    ensures forall k :: i <= k < |r| ==> r[k] == s[k + 1]
    ensures multiset(r) == multiset(s) - multiset{s[i]}
  {
    assert s == s[..i] + [s[i]] + s[i + 1..];
    s[..i] + s[i + 1..]
  }

  /** The key strictly increases along the sequence. */
  ghost predicate Increasing<T>(s: seq<T>, key: T -> int) {
    forall i, j :: 0 <= i < j < |s| ==> key(s[i]) < key(s[j])
  }

  /** Filtering a non-empty sequence decides its head and filters its tail. */
  lemma FilterCons<T(!new)>(s: seq<T>, p: T -> bool)
    requires |s| > 0
    ensures Filter(s, p) == if p(s[0]) then [s[0]] + Filter(s[1..], p) else Filter(s[1..], p)
  {
  }

  /** Keeping a sub-sequence keeps the key increasing. */
  lemma {:induction false} FilterIncreasing<T(!new)>(s: seq<T>, p: T -> bool, key: T -> int)
    requires Increasing(s, key)
    ensures Increasing(Filter(s, p), key)
  {
    if |s| > 0 {
      TailIncreasing(s, key);
      FilterIncreasing(s[1..], p, key);
      FilterCons(s, p);
      if p(s[0]) {
        ConsIncreasing(s[0], Filter(s[1..], p), key);
      }
    }
  }

  lemma TailIncreasing<T>(s: seq<T>, key: T -> int)
    requires Increasing(s, key) && |s| > 0
    ensures Increasing(s[1..], key)
    ensures forall x :: x in s[1..] ==> key(s[0]) < key(x)
  {
    var tail := s[1..];
    forall i, j | 0 <= i < j < |tail| ensures key(tail[i]) < key(tail[j]) {
      assert tail[i] == s[i + 1] && tail[j] == s[j + 1];
    }
    forall x | x in tail ensures key(s[0]) < key(x) {
      var k :| 0 <= k < |tail| && tail[k] == x;
      assert s[k + 1] == x;
    }
  }

  lemma ConsIncreasing<T>(x: T, t: seq<T>, key: T -> int)
    requires Increasing(t, key)
    requires forall y :: y in t ==> key(x) < key(y)
    ensures Increasing([x] + t, key)
  {
    forall i, j | 0 <= i < j < |[x] + t| ensures key(([x] + t)[i]) < key(([x] + t)[j]) {
      assert ([x] + t)[j] == t[j - 1];
      if i > 0 {
        assert ([x] + t)[i] == t[i - 1];
      }
    }
  }

  /** `s.reverse()`. */
  function Reverse<T>(s: seq<T>): (r: seq<T>)
    ensures |r| == |s|
    ensures forall i :: 0 <= i < |s| ==> r[i] == s[|s| - 1 - i]
  {
    seq(|s|, i requires 0 <= i < |s| => s[|s| - 1 - i])
  }

  /** Strictly decreasing under `key`. */
  ghost predicate Decreasing<T>(s: seq<T>, key: T -> int) {
    forall i, j :: 0 <= i < j < |s| ==> key(s[i]) > key(s[j])
  }

  /** Reversing an increasing sequence makes it decreasing. */
  lemma ReverseDecreasing<T>(s: seq<T>, key: T -> int)
    requires Increasing(s, key)
    ensures Decreasing(Reverse(s), key)
  {
    var r := Reverse(s);
    forall i, j | 0 <= i < j < |r|
      ensures key(r[i]) > key(r[j])
    {
      assert r[i] == s[|s| - 1 - i] && r[j] == s[|s| - 1 - j];
    }
  }

  /** Strictly decreasing under `key` among the elements that agree on `g`. */
  ghost predicate GroupwiseDecreasing<T>(s: seq<T>, key: T -> int, g: T -> bool) {
    forall i, j :: 0 <= i < j < |s| && g(s[i]) == g(s[j]) ==> key(s[i]) > key(s[j])
  }

  /** Two decreasing runs, the first all in group `g` and the second all out of
      it, concatenate to a sequence that is decreasing within each group. */
  lemma GroupsDecreasing<T>(a: seq<T>, b: seq<T>, key: T -> int, g: T -> bool)
    requires Decreasing(a, key) && Decreasing(b, key)
    requires forall i :: 0 <= i < |a| ==> g(a[i])
    requires forall i :: 0 <= i < |b| ==> !g(b[i])
    ensures GroupwiseDecreasing(a + b, key, g)
  {
    var s := a + b;
    assert forall k :: 0 <= k < |a| ==> s[k] == a[k] && g(s[k]);
    assert forall k :: |a| <= k < |s| ==> s[k] == b[k - |a|] && !g(s[k]);
    forall i, j | 0 <= i < j < |s| && g(s[i]) == g(s[j])
      ensures key(s[i]) > key(s[j])
    {
      if j < |a| {
        assert key(a[i]) > key(a[j]);
      } else if i >= |a| {
        assert key(b[i - |a|]) > key(b[j - |a|]);
      }
    }
  }

  /** Splitting an increasing sequence by `p`, and reversing each part, gives
      two runs that are newest first within each group. */
  lemma SplitNewestFirst<T(!new)>(s: seq<T>, key: T -> int, p: T -> bool, q: T -> bool)
    requires Increasing(s, key)
    requires forall x :: q(x) == !p(x)
    ensures GroupwiseDecreasing(Reverse(Filter(s, p)) + Reverse(Filter(s, q)), key, p)
  {
    var a, b := Reverse(Filter(s, p)), Reverse(Filter(s, q));
    ReversedRun(s, key, p);
    ReversedRun(s, key, q);
    assert forall i :: 0 <= i < |b| ==> !p(b[i]);
    GroupsDecreasing(a, b, key, p);
  }

  /** The elements of an increasing sequence that pass `p`, reversed: a
      decreasing run all of which pass `p`. */
  lemma ReversedRun<T(!new)>(s: seq<T>, key: T -> int, p: T -> bool)
    requires Increasing(s, key)
    ensures Decreasing(Reverse(Filter(s, p)), key)
    ensures forall i :: 0 <= i < |Reverse(Filter(s, p))| ==> p(Reverse(Filter(s, p))[i])
  {
    var r := Reverse(Filter(s, p));
    assert forall i :: 0 <= i < |r| ==> p(r[i]);
    FilterIncreasing(s, p, key);
    ReverseDecreasing(Filter(s, p), key);
  }

  lemma ReverseMultiset<T>(s: seq<T>)
    ensures multiset(Reverse(s)) == multiset(s)
  {
    if |s| > 0 {
      assert s == [s[0]] + s[1..];
      assert Reverse(s) == Reverse(s[1..]) + [s[0]];
      ReverseMultiset(s[1..]);
    }
  }

  /** The `.skip(skip).limit(limit)` window of a cursor; a limit of 0 means no limit. */
  function Window<T>(s: seq<T>, skip: nat, limit: nat): (r: seq<T>)
    ensures limit > 0 ==> |r| <= limit
    ensures skip >= |s| ==> r == []
    ensures skip < |s| && (limit == 0 || skip + limit >= |s|) ==> r == s[skip..]
    ensures skip < |s| && limit > 0 && skip + limit < |s| ==> r == s[skip..skip + limit]
  {
    if skip >= |s| then []
    else if limit == 0 || skip + limit >= |s| then s[skip..]
    else s[skip..skip + limit]
  }

  /** Reversing a window of the reversed sequence gives a window of the original:
      the page taken from the newest-first order, turned back, is a contiguous
      stretch of the oldest-first order. */
  lemma ReverseOfReversedSlice<T>(s: seq<T>, a: nat, b: nat)
    requires a <= b <= |s|
    ensures Reverse(Reverse(s)[a..b]) == s[|s| - b..|s| - a]
  {
  }

  /** What a newest-first cursor returns for `.skip(skip).limit(limit)`, turned
      back to oldest-first: the stretch of `s` ending `skip` elements before its
      end, at most `limit` long when a limit is set. */
  function NewestPage<T>(s: seq<T>, skip: nat, limit: nat): (r: seq<T>)
    ensures limit > 0 ==> |r| <= limit
    ensures forall x :: x in r ==> x in s
    ensures skip >= |s| ==> r == []
    ensures skip < |s| && (limit == 0 || skip + limit >= |s|) ==> r == s[0..|s| - skip]
    ensures skip < |s| && limit > 0 && skip + limit < |s| ==> r == s[|s| - skip - limit..|s| - skip]
  {
    if skip >= |s| then []
    else
      var hi := if limit == 0 || skip + limit >= |s| then |s| else skip + limit;
      ReverseOfReversedSlice(s, skip, hi);
      assert Window(Reverse(s), skip, limit) == Reverse(s)[skip..hi];
      Reverse(Window(Reverse(s), skip, limit))
  }

  /** The distinct elements of a sequence. */
  function Elems<T(!new)>(s: seq<T>): (r: set<T>)
    ensures forall x :: x in r <==> x in s
  {
    set x | x in s
  }

  /** A sequence has at most as many distinct elements as it is long. */
  lemma {:induction false} ElemsBound<T(!new)>(s: seq<T>)
    ensures |Elems(s)| <= |s|
  {
    if |s| > 0 {
      ElemsBound(s[1..]);
      assert Elems(s) == Elems(s[1..]) + {s[0]};
    }
  }

  /** Adding to `a` only elements listed in `s` grows it by at most `|s|`. */
  lemma UnionBound<T(!new)>(a: set<T>, b: set<T>, s: seq<T>)
    requires b - a <= Elems(s)
    ensures |a + b| <= |a| + |s|
  {
    SubsetBound(b - a, Elems(s));
    ElemsBound(s);
    assert a + b == a + (b - a);
    assert |a + (b - a)| == |a| + |b - a|;
  }

  /** A subset is no larger than its superset. */
  lemma {:induction false} SubsetBound<T>(a: set<T>, b: set<T>)
    requires a <= b
    ensures |a| <= |b|
  {
    if a != {} {
      var x :| x in a;
      SubsetBound(a - {x}, b - {x});
    }
  }
}

=== FILE: socket_handler.dfy ===
/** The real-time layer: the handshake guard, room naming and the six socket
    events (join_event, join_chat_room, send_message, typing,
    broadcast_announcement, disconnect). A handler answers with the state
    after it and the emissions it made, each with the set of connections it
    reaches. */
module SocketHandler {
  import opened Ids
  import opened Outcomes
  import opened ChatModel
  import opened Store
  import Text

  /** A payload field as a template literal prints it: an absent field prints "undefined". */
  function Show(o: Option<string>): string {
    match o
    case None => "undefined"
    case Some(s) => s
  }

  /** A payload field taken as a truth value: absent or empty is false. */
  predicate Truthy(o: Option<string>) {
    o.Some? && o.value != ""
  }

  /** The room of an event's notifications. */
  function EventRoom(eventId: string): string {
    "event:" + eventId
  }

  /** The room of one chat channel: the committee id is appended only when it is truthy. */
  function ChatRoom(eventId: string, chatType: string, committeeId: string): string {
    "chat:" + eventId + ":" + chatType + (if committeeId != "" then ":" + committeeId else "")
  }

  /** The room a payload names. */
  function RoomOf(eventId: Option<string>, chatType: Option<string>, committeeId: Option<string>): string {
    ChatRoom(Show(eventId), Show(chatType), committeeId.GetOr(""))
  }

  /** For colon-free ids, distinct channels have distinct rooms. */
  lemma {:induction false} ChatRoomInjective(e1: string, t1: string, c1: string, e2: string, t2: string, c2: string)
    requires Text.Lacks(e1, ':') && Text.Lacks(t1, ':') && Text.Lacks(e2, ':') && Text.Lacks(t2, ':')
    requires ChatRoom(e1, t1, c1) == ChatRoom(e2, t2, c2)
    ensures e1 == e2 && t1 == t2 && c1 == c2
  {
    var s1 := if c1 != "" then ":" + c1 else "";
    var s2 := if c2 != "" then ":" + c2 else "";
    var prefix := "chat:";
    assert ChatRoom(e1, t1, c1) == prefix + (e1 + [':'] + (t1 + s1));
    assert ChatRoom(e2, t2, c2) == prefix + (e2 + [':'] + (t2 + s2));
    var rest1 := e1 + [':'] + (t1 + s1);
    var rest2 := e2 + [':'] + (t2 + s2);
    assert rest1 == ChatRoom(e1, t1, c1)[|prefix|..];
    assert rest2 == ChatRoom(e2, t2, c2)[|prefix|..];
    Text.SeparatedPrefix(e1, e2, t1 + s1, t2 + s2, ':');
    if c1 != "" && c2 != "" {
      assert t1 + [':'] + c1 == t1 + s1;
      assert t2 + [':'] + c2 == t2 + s2;
      Text.SeparatedPrefix(t1, t2, c1, c2, ':');
    } else if c1 != "" {
      assert t1 + s1 == t1 + [':'] + c1;
      assert t2 + s2 == t2;
      Text.LacksNotSeparated(t2, t1, c1, ':');
    } else if c2 != "" {
      assert t2 + s2 == t2 + [':'] + c2;
      assert t1 + s1 == t1;
      Text.LacksNotSeparated(t1, t2, c2, ':');
    } else {
      assert t1 == t1 + s1;
    }
  }

  /** An event room is never a chat room. */
  lemma EventRoomIsNotChatRoom(e: string, e2: string, t: string, c: string)
    ensures EventRoom(e) != ChatRoom(e2, t, c)
  {
    assert EventRoom(e)[0] == 'e';
    assert ChatRoom(e2, t, c)[0] == 'c';
  }

  /** `io.use`: a connection is admitted only with a token that verifies,
      and carries the id the token was signed for. Whether that user still
      exists is not checked. */
  function Handshake(st: State, conn: ConnId, token: Option<string>, verify: string -> Option<UserId>): (r: Reply<()>)
    requires conn !in st.conns
    ensures r.out.Fail? ==> r.out.status == Unauthorized && r.st == st
    ensures r.out.Ok? <==> Truthy(token) && verify(token.value).Some?
    ensures r.out.Ok? ==> r.st == st.(conns := st.conns[conn := Conn(verify(token.value).value, {})])
  {
    if !Truthy(token) then Reject(st, Unauthorized, "Authentication required")
    else
      match verify(token.value)
      case None => Reject(st, Unauthorized, "Invalid token")
      case Some(uid) => Reply(Ok(()), st.(conns := st.conns[conn := Conn(uid, {})]))
  }

  /** The connections that joined a room. */
  function Members(st: State, room: string): (r: set<ConnId>)
    ensures forall c :: c in r <==> c in st.conns && room in st.conns[c].rooms
  {
    set c | c in st.conns && room in st.conns[c].rooms
  }

  /** A client event with its payload fields (absent ones are None). */
  datatype ClientEvent =
    | JoinEventRoom(eventId: Option<string>)
    | JoinChatRoom(eventId: Option<string>, chatType: Option<string>, committeeId: Option<string>)
    | SendChat(eventId: Option<string>, chatType: Option<string>, committeeId: Option<string>, message: Option<string>)
    | Typing(eventId: Option<string>, chatType: Option<string>, committeeId: Option<string>, isTyping: bool)
    | BroadcastAnnouncement(eventId: Option<string>, body: string)
    | Disconnect

  /** What the server pushes. */
  datatype Payload =
    | NewMessagePush(message: ChatMessage)
    | ChatNotification(chatType: string, committeeId: Option<string>, eventId: string)
    | UserTyping(userId: UserId, isTyping: bool)
    | NewAnnouncement(eventId: string, body: string)
    | ErrorPush(reason: string)

  datatype Emission = Emission(to: set<ConnId>, payload: Payload)

  /** The server's answer to one client event. */
  datatype Step = Step(st: State, out: seq<Emission>)

  /** The connection with one more room. */
  function JoinRoom(st: State, conn: ConnId, room: string): (r: State)
    requires conn in st.conns
    ensures r == st.(conns := r.conns) && r.conns.Keys == st.conns.Keys
    ensures r.conns[conn] == st.conns[conn].(rooms := st.conns[conn].rooms + {room})
    ensures forall c :: c in st.conns && c != conn ==> r.conns[c] == st.conns[c]
  {
    st.(conns := st.conns[conn := st.conns[conn].(rooms := st.conns[conn].rooms + {room})])
  }

  /** Joining a room adds exactly the joining connection to that room's members;
      every other room keeps its members. */
  lemma JoinRoomMembers(st: State, conn: ConnId, room: string, other: string)
    requires conn in st.conns
    ensures Members(JoinRoom(st, conn, room), room) == Members(st, room) + {conn}
    ensures other != room ==> Members(JoinRoom(st, conn, room), other) == Members(st, other)
  {
  }

  /** A disconnected connection leaves every room, and no one else does. */
  lemma DisconnectLeavesRooms(st: State, conn: ConnId, room: string)
    requires conn in st.conns
    ensures Members(Handle(st, conn, Disconnect).st, room) == Members(st, room) - {conn}
  {
  }

  /** `send_message` over the socket: persisted under the connection's user,
      with no check that the user belongs to the event or the channel. */
  function SocketSend(st: State, conn: ConnId, eventId: string, chatType: string, committeeId: Option<string>, text: string): (r: Step)
    requires conn in st.conns
    ensures r.st.conns == st.conns && r.st.events == st.events && r.st.committees == st.committees
    ensures ParseChatType(chatType).None? || !ValidText(text) ==>
      r.st == st && r.out == [Emission({conn}, ErrorPush("ChatMessage validation failed"))]
    ensures ParseChatType(chatType).Some? && ValidText(text) ==>
      var m := ChatModel.NewMessage(eventId, ParseChatType(chatType).value, committeeId.GetOr(""), st.conns[conn].userId, text, st.clock);
      && r.st == st.(messages := st.messages + [m], clock := st.clock + 1)
      && r.out == [Emission(Members(st, ChatRoom(eventId, chatType, committeeId.GetOr(""))), NewMessagePush(m)),
                   Emission(Members(st, EventRoom(eventId)), ChatNotification(chatType, committeeId, eventId))]
  {
    match ParseChatType(chatType)
    case None => Step(st, [Emission({conn}, ErrorPush("ChatMessage validation failed"))])
    case Some(t) =>
      if !ValidText(text) then Step(st, [Emission({conn}, ErrorPush("ChatMessage validation failed"))])
      else
        var m := ChatModel.NewMessage(eventId, t, committeeId.GetOr(""), st.conns[conn].userId, text, st.clock);
        var c := committeeId.GetOr("");
        Step(st.(messages := st.messages + [m], clock := st.clock + 1),
             [Emission(Members(st, ChatRoom(eventId, chatType, c)), NewMessagePush(m)),
              Emission(Members(st, EventRoom(eventId)), ChatNotification(chatType, committeeId, eventId))])
  }

  /** One client event on an admitted connection. */
  function Handle(st: State, conn: ConnId, e: ClientEvent): (r: Step)
    requires conn in st.conns
    ensures e.JoinEventRoom? ==>
      r.out == [] && (Truthy(e.eventId) ==> r.st == JoinRoom(st, conn, EventRoom(e.eventId.value)))
                  && (!Truthy(e.eventId) ==> r.st == st)
    ensures e.JoinChatRoom? ==> r.out == [] && r.st == JoinRoom(st, conn, RoomOf(e.eventId, e.chatType, e.committeeId))
    ensures e.SendChat? && !(Truthy(e.eventId) && Truthy(e.chatType) && Truthy(e.message)) ==> r == Step(st, [])
    ensures e.SendChat? && Truthy(e.eventId) && Truthy(e.chatType) && Truthy(e.message) ==>
      r == SocketSend(st, conn, e.eventId.value, e.chatType.value, e.committeeId, e.message.value)
    ensures e.Typing? ==> (r.st == st &&
      r.out == [Emission(Members(st, RoomOf(e.eventId, e.chatType, e.committeeId)) - {conn},
                         UserTyping(st.conns[conn].userId, e.isTyping))])
    ensures e.BroadcastAnnouncement? ==> (r.st == st &&
      r.out == (if Truthy(e.eventId) then [Emission(Members(st, EventRoom(e.eventId.value)), NewAnnouncement(e.eventId.value, e.body))] else []))
    ensures e.Disconnect? ==> r.out == [] && r.st == st.(conns := st.conns - {conn})
  {
    match e
    case JoinEventRoom(eventId) =>
      if !Truthy(eventId) then Step(st, []) else Step(JoinRoom(st, conn, EventRoom(eventId.value)), [])
    case JoinChatRoom(eventId, chatType, committeeId) =>
      Step(JoinRoom(st, conn, RoomOf(eventId, chatType, committeeId)), [])
    case SendChat(eventId, chatType, committeeId, message) =>
      if !(Truthy(eventId) && Truthy(chatType) && Truthy(message)) then Step(st, [])
      else SocketSend(st, conn, eventId.value, chatType.value, committeeId, message.value)
    case Typing(eventId, chatType, committeeId, isTyping) =>
      var room := RoomOf(eventId, chatType, committeeId);
      Step(st, [Emission(Members(st, room) - {conn}, UserTyping(st.conns[conn].userId, isTyping))])
    case BroadcastAnnouncement(eventId, body) =>
      if !Truthy(eventId) then Step(st, [])
      else Step(st, [Emission(Members(st, EventRoom(eventId.value)), NewAnnouncement(eventId.value, body))])
    case Disconnect =>
      Step(st.(conns := st.conns - {conn}), [])
  }

  /** A rejected handshake admits nothing. */
  lemma RejectedHandshakeAdmitsNothing(st: State, conn: ConnId, token: Option<string>, verify: string -> Option<UserId>)
    requires conn !in st.conns
    requires !Truthy(token) || verify(token.value).None?
    ensures conn !in Handshake(st, conn, token, verify).st.conns
  {
  }

  /** A connection that joined a channel's room receives every message sent to
      that channel afterwards, including its own. */
  lemma JoinedRoomReceivesMessages(st: State, listener: ConnId, sender: ConnId, eventId: string, chatType: string,
                                   committeeId: Option<string>, text: string)
    requires listener in st.conns && sender in st.conns
    requires Truthy(Some(eventId)) && Truthy(Some(chatType)) && Truthy(Some(text))
    requires ParseChatType(chatType).Some? && ValidText(text)
    ensures var s1 := Handle(st, listener, JoinChatRoom(Some(eventId), Some(chatType), committeeId)).st;
      var r := Handle(s1, sender, SendChat(Some(eventId), Some(chatType), committeeId, Some(text)));
      |r.out| == 2 && r.out[0].payload.NewMessagePush? && listener in r.out[0].to
      && r.out[0].payload.message.sender == st.conns[sender].userId
  {
    var room := RoomOf(Some(eventId), Some(chatType), committeeId);
    var s1 := Handle(st, listener, JoinChatRoom(Some(eventId), Some(chatType), committeeId)).st;
    assert room in s1.conns[listener].rooms;
    assert ChatRoom(eventId, chatType, committeeId.GetOr("")) == room;
    assert s1.conns[sender].userId == st.conns[sender].userId;
  }

  /** The typing indicator never goes back to the typist. */
  lemma TypingNotEchoed(st: State, conn: ConnId, eventId: Option<string>, chatType: Option<string>, committeeId: Option<string>, isTyping: bool)
    requires conn in st.conns
    ensures var r := Handle(st, conn, Typing(eventId, chatType, committeeId, isTyping));
      |r.out| == 1 && conn !in r.out[0].to
  {
  }

  /** A socket message is persisted whatever the sender's standing in the event:
      with no events at all in the store, a well-formed message is still stored. */
  lemma SocketSendIgnoresMembership(st: State, conn: ConnId, eventId: string, chatType: string, text: string)
    requires conn in st.conns && st.events == map[]
    requires eventId != "" && ParseChatType(chatType).Some? && ValidText(text)
    ensures |Handle(st, conn, SendChat(Some(eventId), Some(chatType), None, Some(text))).st.messages| == |st.messages| + 1
  {
  }

  /** Socket events keep the store invariant. */
  lemma HandlePreservesValid(st: State, conn: ConnId, e: ClientEvent)
    requires Valid(st) && conn in st.conns
    ensures Valid(Handle(st, conn, e).st)
  {
    var r := Handle(st, conn, e);
    match e
    case SendChat(eventId, chatType, committeeId, message) =>
      if Truthy(eventId) && Truthy(chatType) && Truthy(message) {
        SocketSendPreservesValid(st, conn, eventId.value, chatType.value, committeeId, message.value);
      }
    case _ =>
      ConnsOnlyValid(st, r.st);
  }

  lemma SocketSendPreservesValid(st: State, conn: ConnId, eventId: string, chatType: string, committeeId: Option<string>, text: string)
    requires Valid(st) && conn in st.conns
    ensures Valid(SocketSend(st, conn, eventId, chatType, committeeId, text).st)
  {
    if ParseChatType(chatType).Some? && ValidText(text) {
      var m := ChatModel.NewMessage(eventId, ParseChatType(chatType).value, committeeId.GetOr(""), st.conns[conn].userId, text, st.clock);
      AppendMessageWellFormed(st.messages, st.clock, m);
      MessagesStepValid(st, st.messages + [m], st.clock + 1);
    }
  }

  lemma HandshakePreservesValid(st: State, conn: ConnId, token: Option<string>, verify: string -> Option<UserId>)
    requires Valid(st) && conn !in st.conns
    ensures Valid(Handshake(st, conn, token, verify).st)
  {
  }
}

=== FILE: store.dfy ===
/** The whole server state the handlers read and write: the MongoDB collections,
    the unique indexes on User.email and Event.eventCode, the live socket
    connections with their rooms, and a clock standing in for `Date.now`. */
module Store {
  import opened Ids
  import opened Outcomes
  import opened EventModel
  import opened CommitteeModel
  import opened ChatModel
  import opened AnnouncementModel
  import opened PaymentModel
  import opened UserModel
  import Seqs

  /** A live socket: the user id its handshake token decoded to, and the rooms it joined. */
  datatype Conn = Conn(userId: UserId, rooms: set<string>)

  datatype State = State(
    users: map<UserId, User>,
    emails: map<string, UserId>,
    events: map<EventId, Event>,
    codes: map<string, EventId>,
    committees: map<CommitteeId, Committee>,
    messages: seq<ChatMessage>,
    announcements: seq<Announcement>,
    payments: seq<Payment>,
    conns: map<ConnId, Conn>,
    clock: nat)

  /** A handler's answer together with the state after it. */
  datatype Reply<+T> = Reply(out: Outcome<T>, st: State)

  /** An error answer that leaves the state as it was. */
  function Reject<T>(st: State, status: Status, message: string): (r: Reply<T>)
    ensures r.out.Is(status) && r.st == st
  {
    Reply(Fail(status, message), st)
  }

  /** The email index is exactly the users' emails, and every user passed schema validation. */
  ghost predicate IndexedUsers(users: map<UserId, User>, emails: map<string, UserId>) {
    && (forall e :: e in emails ==> emails[e] in users && users[emails[e]].email == e)
    && (forall u :: u in users ==> users[u].email in emails && emails[users[u].email] == u)
    && (forall u :: u in users ==> ValidUser(users[u]))
  }

  ghost predicate UsersIndexed(st: State) {
    IndexedUsers(st.users, st.emails)
  }

  /** The event-code index is exactly the events' codes. */
  ghost predicate IndexedEvents(events: map<EventId, Event>, codes: map<string, EventId>) {
    && (forall k :: k in codes ==> codes[k] in events && events[codes[k]].code == k)
    && (forall e :: e in events ==> events[e].code in codes && codes[events[e].code] == e)
  }

  ghost predicate EventsIndexed(st: State) {
    IndexedEvents(st.events, st.codes)
  }

  /** One event's own invariant: a user has at most one entry, the head has an
      entry, and the fields passed schema validation. */
  ghost predicate EventWellFormed(ev: Event) {
    && UniqueUsers(ev.participants)
    && IsParticipant(ev.participants, ev.head)
    && ValidEventFields(ev.title, ev.description)
  }

  ghost predicate AllEventsWellFormed(events: map<EventId, Event>) {
    forall e :: e in events ==> EventWellFormed(events[e])
  }

  ghost predicate EventsWellFormed(st: State) {
    AllEventsWellFormed(st.events)
  }

  /** One committee's own invariant: no volunteer twice, fields within the schema. */
  ghost predicate CommitteeWellFormed(c: Committee) {
    NoDup(c.volunteers) && ValidCommitteeFields(c.name, c.description)
  }

  ghost predicate AllCommitteesWellFormed(cs: map<CommitteeId, Committee>) {
    && (forall c :: c in cs ==> CommitteeWellFormed(cs[c]))
    && NamesUniquePerEvent(cs)
  }

  ghost predicate CommitteesWellFormed(st: State) {
    AllCommitteesWellFormed(st.committees)
  }

  /** The chat log is in creation order before `now`, and every text passed validation. */
  ghost predicate MessageLogWellFormed(ms: seq<ChatMessage>, now: nat) {
    && ChatModel.Chronological(ms, now)
    && (forall i :: 0 <= i < |ms| ==> ValidText(ms[i].text))
  }

  ghost predicate MessagesWellFormed(st: State) {
    MessageLogWellFormed(st.messages, st.clock)
  }

  /** A stored announcement: fields within the schema, and payment amount set
      (and positive) exactly for payment announcements. */
  ghost predicate AnnouncementWellFormed(a: Announcement) {
    && ValidAnnouncementFields(a.title, a.content)
    && (a.kind == PaymentAnnouncement <==> a.paymentAmount.Some?)
    && (a.paymentAmount.Some? ==> a.paymentAmount.value > 0)
  }

  /** The announcement log has unique ids, is in creation order before `now`, and holds well-formed announcements. */
  ghost predicate AnnouncementLogWellFormed(log: seq<Announcement>, now: nat) {
    && UniqueIds(log)
    && AnnouncementModel.Chronological(log, now)
    && (forall i :: 0 <= i < |log| ==> AnnouncementWellFormed(log[i]))
  }

  ghost predicate AnnouncementsWellFormed(st: State) {
    AnnouncementLogWellFormed(st.announcements, st.clock)
  }

  /** The invariant every handler preserves. */
  ghost predicate Valid(st: State) {
    && UsersIndexed(st)
    && EventsIndexed(st)
    && EventsWellFormed(st)
    && CommitteesWellFormed(st)
    && MessagesWellFormed(st)
    && AnnouncementsWellFormed(st)
  }

  /** Advancing the clock keeps both logs chronological. */
  lemma Tick(st: State, later: nat)
    requires MessagesWellFormed(st) && AnnouncementsWellFormed(st) && st.clock <= later
    ensures MessagesWellFormed(st.(clock := later)) && AnnouncementsWellFormed(st.(clock := later))
  {
  }

  /** A step that changes only the committees keeps the invariant once they are well formed. */
  lemma CommitteesStepValid(st: State, cs: map<CommitteeId, Committee>)
    requires Valid(st) && AllCommitteesWellFormed(cs)
    ensures Valid(st.(committees := cs))
  {
  }

  /** A step that changes only the chat log and the clock keeps the invariant
      once the new log is well formed at the new time. */
  lemma MessagesStepValid(st: State, ms: seq<ChatMessage>, later: nat)
    requires Valid(st) && MessageLogWellFormed(ms, later) && st.clock <= later
    ensures Valid(st.(messages := ms, clock := later))
  {
    Tick(st, later);
  }

  /** Appending a message with a valid text, stamped now, keeps the chat log well formed one tick later. */
  lemma AppendMessageWellFormed(ms: seq<ChatMessage>, now: nat, m: ChatMessage)
    requires MessageLogWellFormed(ms, now) && m.createdAt == now && ValidText(m.text)
    ensures MessageLogWellFormed(ms + [m], now + 1)
  {
    AppendKeepsChronological(ms, now, m);
  }

  /** A step that changes only the announcement log and the clock keeps the
      invariant once the new log is well formed at the new time. */
  lemma AnnouncementsStepValid(st: State, log: seq<Announcement>, later: nat)
    requires Valid(st) && AnnouncementLogWellFormed(log, later) && st.clock <= later
    ensures Valid(st.(announcements := log, clock := later))
  {
    Tick(st, later);
  }

  /** Appending a well-formed announcement with a fresh id, stamped now, keeps the log well formed one tick later. */
  lemma AppendAnnouncementWellFormed(log: seq<Announcement>, now: nat, a: Announcement)
    requires AnnouncementLogWellFormed(log, now) && AnnouncementWellFormed(a)
    requires a.createdAt == now && !AnnouncementModel.Exists(log, a.id)
    ensures AnnouncementLogWellFormed(log + [a], now + 1)
  {
    var log' := log + [a];
    forall i, j | 0 <= i < j < |log'| ensures log'[i].id != log'[j].id {
      if j == |log| {
        assert log'[i] == log[i];
      }
    }
  }

  /** Flipping the pin of one announcement keeps the log well formed. */
  lemma PinAnnouncementWellFormed(log: seq<Announcement>, now: nat, i: nat, pinned: bool)
    requires AnnouncementLogWellFormed(log, now) && i < |log|
    ensures AnnouncementLogWellFormed(log[i := log[i].(isPinned := pinned)], now)
  {
    var log' := log[i := log[i].(isPinned := pinned)];
    assert forall k :: 0 <= k < |log'| ==> log'[k] == log[k].(isPinned := log'[k].isPinned);
  }

  /** Removing one announcement keeps the log well formed. */
  lemma RemoveAnnouncementWellFormed(log: seq<Announcement>, now: nat, i: nat)
    requires AnnouncementLogWellFormed(log, now) && i < |log|
    ensures AnnouncementLogWellFormed(Seqs.RemoveAt(log, i), now)
  {
    var log' := Seqs.RemoveAt(log, i);
    assert forall k :: 0 <= k < |log'| ==> log'[k] == log[if k < i then k else k + 1];
  }

  /** Inserting an event under a fresh id and a fresh code keeps the code index exact. */
  lemma InsertEventIndexed(st: State, id: EventId, ev: Event)
    requires EventsIndexed(st) && id !in st.events && ev.code !in st.codes
    ensures EventsIndexed(st.(events := st.events[id := ev], codes := st.codes[ev.code := id]))
  {
  }

  /** A step that changes only the events, the code index and the clock keeps
      the invariant once the new events are indexed and well formed. */
  lemma EventsStepValid(st: State, events: map<EventId, Event>, codes: map<string, EventId>, later: nat)
    requires Valid(st) && IndexedEvents(events, codes) && AllEventsWellFormed(events) && st.clock <= later
    ensures Valid(st.(events := events, codes := codes, clock := later))
  {
    Tick(st, later);
  }

  /** Storing a well-formed event under a fresh id and a fresh code, and
      advancing the clock, keeps the invariant. */
  lemma InsertEventValid(st: State, id: EventId, ev: Event, later: nat)
    requires Valid(st) && id !in st.events && ev.code !in st.codes && EventWellFormed(ev) && st.clock <= later
    ensures Valid(st.(events := st.events[id := ev], codes := st.codes[ev.code := id], clock := later))
  {
    InsertEventIndexed(st, id, ev);
    EventsStepValid(st, st.events[id := ev], st.codes[ev.code := id], later);
  }

  /** Replacing one event by a well-formed one with the same code, and
      advancing the clock, keeps the invariant. */
  lemma UpdateEventValid(st: State, id: EventId, ev: Event, later: nat)
    requires Valid(st) && id in st.events && ev.code == st.events[id].code && EventWellFormed(ev) && st.clock <= later
    ensures Valid(st.(events := st.events[id := ev], clock := later))
  {
    UpdateEventIndexed(st, id, ev);
    EventsStepValid(st, st.events[id := ev], st.codes, later);
    assert st.(events := st.events[id := ev], codes := st.codes, clock := later) == st.(events := st.events[id := ev], clock := later);
  }

  /** Adding a participant keeps an event well formed. */
  lemma AddKeepsEventWellFormed(ev: Event, u: UserId, role: Role, now: nat)
    requires EventWellFormed(ev)
    ensures EventWellFormed(ev.(participants := AddParticipant(ev.participants, u, role, now)))
  {
    var ps := AddParticipant(ev.participants, u, role, now);
    AddPreservesUnique(ev.participants, u, role, now);
    var i :| 0 <= i < |ev.participants| && ev.participants[i].userId == ev.head;
    assert ps[i] == ev.participants[i] by {
      if !IsParticipant(ev.participants, u) {
        assert ps[..|ev.participants|] == ev.participants;
      }
    }
  }

  /** Replacing an event by one with the same code keeps the code index exact. */
  lemma UpdateEventIndexed(st: State, id: EventId, ev: Event)
    requires EventsIndexed(st) && id in st.events && ev.code == st.events[id].code
    ensures EventsIndexed(st.(events := st.events[id := ev]))
  {
  }

  /** A step that leaves users, logs and clock alone keeps the invariant once
      the events and committees it touched are still well formed. */
  lemma FrameValid(st: State, st': State)
    requires Valid(st)
    requires st'.users == st.users && st'.emails == st.emails
    requires st'.messages == st.messages && st'.announcements == st.announcements && st'.clock == st.clock
    requires EventsIndexed(st') && EventsWellFormed(st') && CommitteesWellFormed(st')
    ensures Valid(st')
  {
  }

  /** Overwriting one participant entry with a record of the same user keeps an event well formed. */
  lemma RewriteEntryWellFormed(ev: Event, i: nat, p: Participant)
    requires EventWellFormed(ev)
    requires i < |ev.participants| && p.userId == ev.participants[i].userId
    ensures EventWellFormed(ev.(participants := ev.participants[i := p]))
  {
    UpdateSameUserPreservesUnique(ev.participants, i, p);
    var ps' := ev.participants[i := p];
    var k :| 0 <= k < |ev.participants| && ev.participants[k].userId == ev.head;
    assert ps'[k].userId == ev.head;
  }

  /** Replacing one well-formed event by another with the same code keeps the event part of the invariant. */
  lemma ReplaceEventValid(st: State, id: EventId, ev: Event)
    requires EventsIndexed(st) && EventsWellFormed(st)
    requires id in st.events && ev.code == st.events[id].code && EventWellFormed(ev)
    ensures EventsIndexed(st.(events := st.events[id := ev])) && EventsWellFormed(st.(events := st.events[id := ev]))
  {
  }

  /** Replacing one committee by a well-formed one with the same event and name keeps the committee part of the invariant. */
  lemma ReplaceCommitteeValid(st: State, id: CommitteeId, c: Committee)
    requires CommitteesWellFormed(st)
    requires id in st.committees && c.eventId == st.committees[id].eventId && c.name == st.committees[id].name
    requires CommitteeWellFormed(c)
    ensures CommitteesWellFormed(st.(committees := st.committees[id := c]))
  {
    SameNamesKeepUnique(st.committees, st.committees[id := c]);
  }

  /** Adding a valid user under a fresh id and a fresh email keeps the email index exact. */
  lemma InsertUserIndexed(st: State, id: UserId, u: User)
    requires UsersIndexed(st) && id !in st.users && u.email !in st.emails && ValidUser(u)
    ensures UsersIndexed(st.(users := st.users[id := u], emails := st.emails[u.email := id]))
  {
  }

  /** Replacing a user by a valid one with the same email keeps the email index exact. */
  lemma UpdateUserIndexed(st: State, id: UserId, u: User)
    requires UsersIndexed(st) && id in st.users && u.email == st.users[id].email && ValidUser(u)
    ensures UsersIndexed(st.(users := st.users[id := u]))
  {
  }

  /** A step that touches only the users and the email index keeps the invariant once the index is exact. */
  lemma UsersOnlyValid(st: State, st': State)
    requires Valid(st)
    requires st' == st.(users := st'.users, emails := st'.emails)
    requires UsersIndexed(st')
    ensures Valid(st')
  {
  }

  /** The socket connections are outside the invariant. */
  lemma ConnsOnlyValid(st: State, st': State)
    requires Valid(st) && st' == st.(conns := st'.conns)
    ensures Valid(st')
  {
  }

  /** An id the database has not handed out yet. */
  predicate Fresh(st: State, id: string) {
    id !in st.users && id !in st.events && id !in st.committees && !AnnouncementModel.Exists(st.announcements, id)
  }

  /** The empty store, as the server starts. */
  function Empty(): (st: State)
    ensures st.users == map[] && st.events == map[] && st.committees == map[] && st.conns == map[]
    ensures Valid(st)
  {
    State(map[], map[], map[], map[], map[], [], [], [], map[], 0)
  }

  /** Events the user heads or has an entry in: the filter of `getMyEvents`. */
  function MyEvents(st: State, u: UserId): (r: set<EventId>)
    ensures forall e :: e in r <==> e in st.events && (st.events[e].head == u || IsParticipant(st.events[e].participants, u))
  {
    set e | e in st.events && (st.events[e].head == u || IsParticipant(st.events[e].participants, u))
  }
}

=== FILE: text.dfy ===
/** The string operations the schemas and controllers apply: the `trim`,
    `uppercase` and `lowercase` setters of Mongoose (ASCII letters and the
    common whitespace characters only). */
module Text {

  predicate IsSpace(c: char) {
    c == ' ' || c == '\t' || c == '\n' || c == '\r'
  }

  function TrimStart(s: string): (r: string)
    ensures |r| <= |s| && r == s[|s| - |r|..]
    ensures |r| > 0 ==> !IsSpace(r[0])
    ensures forall i :: 0 <= i < |s| - |r| ==> IsSpace(s[i])
  {
    if |s| > 0 && IsSpace(s[0]) then TrimStart(s[1..]) else s
  }

  function TrimEnd(s: string): (r: string)
    ensures |r| <= |s| && r == s[..|r|]
    ensures |r| > 0 ==> !IsSpace(r[|r| - 1])
    ensures forall i :: |r| <= i < |s| ==> IsSpace(s[i])
  {
    if |s| > 0 && IsSpace(s[|s| - 1]) then TrimEnd(s[..|s| - 1]) else s
  }

  /** Everything before `i` and from `j` on is white space. */
  predicate BlankOutside(s: string, i: nat, j: nat)
    requires i <= j <= |s|
  {
    (forall k :: 0 <= k < i ==> IsSpace(s[k])) && (forall k :: j <= k < |s| ==> IsSpace(s[k]))
  }

  /** `String.prototype.trim`: the leading and trailing whitespace removed. */
  function Trim(s: string): (r: string)
    ensures |r| <= |s|
    ensures |r| > 0 ==> !IsSpace(r[0]) && !IsSpace(r[|r| - 1])
    ensures exists i, j :: 0 <= i <= j <= |s| && r == s[i..j] && BlankOutside(s, i, j)
  {
    var t := TrimStart(s);
    var i := |s| - |t|;
    var r := TrimEnd(t);
    TrimKeepsMiddle(s, t, r);
    assert r == s[i..i + |r|];
    r
  }

  lemma TrimKeepsMiddle(s: string, t: string, r: string)
    requires |t| <= |s| && t == s[|s| - |t|..]
    requires forall k :: 0 <= k < |s| - |t| ==> IsSpace(s[k])
    requires |r| <= |t| && r == t[..|r|]
    requires forall k :: |r| <= k < |t| ==> IsSpace(t[k])
    ensures r == s[|s| - |t|..|s| - |t| + |r|]
    ensures BlankOutside(s, |s| - |t|, |s| - |t| + |r|)
  {
    var i := |s| - |t|;
    forall k | i + |r| <= k < |s|
      ensures IsSpace(s[k])
    {
      assert s[k] == t[k - i];
    }
  }

  lemma TrimStartFixed(s: string)
    requires |s| == 0 || !IsSpace(s[0])
    ensures TrimStart(s) == s
  {
  }

  lemma TrimEndFixed(s: string)
    requires |s| == 0 || !IsSpace(s[|s| - 1])
    ensures TrimEnd(s) == s
  {
  }

  /** Trimming twice is trimming once: a stored trimmed value is its own query key. */
  lemma TrimIdempotent(s: string)
    ensures Trim(Trim(s)) == Trim(s)
  {
    var t := Trim(s);
    TrimStartFixed(t);
    TrimEndFixed(t);
  }

  function UpperChar(c: char): (r: char)
    ensures !('a' <= r <= 'z')
  {
    if 'a' <= c <= 'z' then (c as int - 32) as char else c
  }

  function LowerChar(c: char): (r: char)
    ensures !('A' <= r <= 'Z')
  {
    if 'A' <= c <= 'Z' then (c as int + 32) as char else c
  }

  /** `String.prototype.toUpperCase` on ASCII letters. */
  function Upper(s: string): (r: string)
    ensures |r| == |s|
    ensures forall i :: 0 <= i < |s| ==> r[i] == UpperChar(s[i])
  {
    seq(|s|, i requires 0 <= i < |s| => UpperChar(s[i]))
  }

  /** `String.prototype.toLowerCase` on ASCII letters. */
  function Lower(s: string): (r: string)
    ensures |r| == |s|
    ensures forall i :: 0 <= i < |s| ==> r[i] == LowerChar(s[i])
  {
    seq(|s|, i requires 0 <= i < |s| => LowerChar(s[i]))
  }

  lemma UpperIdempotent(s: string)
    ensures Upper(Upper(s)) == Upper(s)
  {
  }

  /** True when `c` does not occur in `s`. */
  predicate Lacks(s: string, c: char) {
    forall i :: 0 <= i < |s| ==> s[i] != c
  }

  /** Two strings free of the separator, each followed by it, can only be
      equal-prefixed in the same way: `x + sep + u == y + sep + v` forces `x == y`. */
  lemma {:induction false} SeparatedPrefix(x: string, y: string, u: string, v: string, sep: char)
    requires Lacks(x, sep) && Lacks(y, sep)
    requires x + [sep] + u == y + [sep] + v
    ensures x == y && u == v
  {
    var a := x + [sep] + u;
    var b := y + [sep] + v;
    assert a[|x|] == sep && b[|y|] == sep;
    assert forall i :: 0 <= i < |x| ==> a[i] == x[i];
    assert forall i :: 0 <= i < |y| ==> b[i] == y[i];
    assert |x| == |y|;
    assert x == a[..|x|] == y;
    assert u == a[|x| + 1..] == v;
  }

  /** A separator-free string never equals a string that contains the separator. */
  lemma LacksNotSeparated(t: string, y: string, v: string, sep: char)
    requires Lacks(t, sep)
    ensures t != y + [sep] + v
  {
    var w := y + [sep] + v;
    assert w[|y|] == sep;
    if |t| == |w| {
      assert t[|y|] != w[|y|];
    }
  }
}

=== FILE: user_model.dfy ===
/** The User document: name fields, the `fullName` and `displayName` virtuals
    and the `toJSON` projection. The password is stored as an opaque hash. */
module UserModel {
  import opened Ids
  import Text

  datatype User = User(
    firstName: string,
    middleName: string,
    lastName: string,
    email: string,
    password: string,
    avatar: string)

  /** The `fullName` virtual: the middle name is included only when it is non-empty. */
  function FullName(u: User): string {
    if u.middleName != "" then u.firstName + " " + u.middleName + " " + u.lastName
    else u.firstName + " " + u.lastName
  }

  /** The `displayName` virtual: first and last name only. */
  function DisplayName(u: User): string {
    u.firstName + " " + u.lastName
  }

  /** The two virtuals agree exactly when there is no middle name, and the full
      name is then the display name with the middle name and a space inserted. */
  lemma {:induction false} FullNameVersusDisplayName(u: User)
    ensures FullName(u) == DisplayName(u) <==> u.middleName == ""
    ensures u.middleName != "" ==> |FullName(u)| == |DisplayName(u)| + |u.middleName| + 1
    ensures FullName(u)[..|u.firstName| + 1] == DisplayName(u)[..|u.firstName| + 1]
  {
    if u.middleName != "" {
      assert |FullName(u)| == |DisplayName(u)| + |u.middleName| + 1;
    }
  }

  /** The email pattern `^\S+@\S+\.\S+$`: no whitespace, and an `@` and a later
      `.` each with at least one character before and after. */
  predicate ValidEmail(e: string) {
    && (forall k :: 0 <= k < |e| ==> !Text.IsSpace(e[k]))
    && exists i, j :: 0 < i && i + 1 < j && j + 1 < |e| && e[i] == '@' && e[j] == '.'
  }

  /** A trimmed name within the schema's 2..30 characters. */
  predicate ValidName(n: string) {
    2 <= |n| <= 30
  }

  /** The schema validation of a stored user (names already trimmed, email already normalised). */
  predicate ValidUser(u: User) {
    ValidName(u.firstName) && ValidName(u.lastName) && |u.middleName| <= 30 && ValidEmail(u.email)
  }

  /** The plain password's `minlength: 6`, checked before it is hashed. */
  predicate ValidPassword(p: string) {
    |p| >= 6
  }

  /** The `lowercase` and `trim` setters of the email field, which also apply to query filters. */
  function NormalizeEmail(e: string): string {
    Text.Trim(Text.Lower(e))
  }

  /** `toObject({virtuals: true})`: the stored fields, the id twice (`_id` and
      the `id` virtual) and both name virtuals. */
  function ToObject(id: UserId, u: User): map<string, string> {
    map["_id" := id, "id" := id,
        "firstName" := u.firstName, "middleName" := u.middleName, "lastName" := u.lastName,
        "email" := u.email, "password" := u.password, "avatar" := u.avatar,
        "fullName" := FullName(u), "displayName" := DisplayName(u)]
  }

  /** `toJSON`: the object without the password and without the duplicate `id`. */
  function ToJson(id: UserId, u: User): (r: map<string, string>)
    ensures "password" !in r && "id" !in r
    ensures r.Keys == ToObject(id, u).Keys - {"password", "id"}
    ensures forall k :: k in r ==> r[k] == ToObject(id, u)[k]
    ensures "_id" in r && r["_id"] == id && "fullName" in r && r["fullName"] == FullName(u)
  {
    ToObject(id, u) - {"password", "id"}
  }
}
